=== FILE: README.md ===
# BAGEL ECS and the two Breakout collision systems, in Dafny

This project models the core of a small Breakout game built on BAGEL, a
header-only entity–component–system (ECS) runtime, and proves properties of
that model.

- **Entities** are integer ids.
- **Components** are plain records. Each type gets one bit of a per-entity
  mask, and one of three storage strategies holds the values.
- **Systems** scan the ids `0..maxId` in ascending order and act on every
  entity whose mask contains the system's required mask.

The model has three parts.

1. **The BAGEL runtime (`bagel.h`).** It comprises:
   - the single- and multi-word mask algebra (module `Masks`);
   - the registry that gives each component type its index and bit, and
     `MaskBuilder` (module `Registry`);
   - `DynamicBag` and `StaticBag` (module `Bags`);
   - the sparse, packed and tagged storages (module `Storage`);
   - the `World`: id allocation with a LIFO free-id bag, the mask table,
     and add, get and delete of components (module `World`).
2. **The circle-collider game (`breakout/breakout_game.cpp`).**
   - Its component records and their default initialisers, and its entity
     constructors (module `CircleWorld`).
   - The pairwise `CollisionSystem`, which examines each unordered pair of
     ids once with a circle-overlap test (module `CircleCollision`).
   - The id selection of its other systems, whose bodies are placeholders
     (module `CircleSystems`).
3. **The axis-aligned-box game (`breakoutGame/breakout_game.cpp`).**
   - Its records, its constructors, and the state invariant the systems
     keep (module `BoxWorld`).
   - The laser and ball `CollisionSystem` (module `BoxCollision`).
   - `MovementSystem`, with its wall bounce and clamp (module
     `BoxMovement`).
   - The mask-clearing `DestroySystem` (module `BoxDestroy`).
   - The `CreateBrickGrid` layout (module `BoxGrid`).

The modelling choices:

- **State.** A world is an immutable record: the mask table, the free-id
  bag and `maxId` (`World.Ecs`), plus one `map` from id to value per
  data-carrying component type.
- **Storage.** `Storage` proves that the corrected sparse and packed
  storages implement exactly this map view.
- **Systems.** Each system is a pure function defined by recursion over
  ascending ids.
- **Numbers.** Coordinates, velocities and durations are `real`.
- **Masks.** A mask is a 32-bit word (`seq<bool>` of length 32). With
  `MaxComponents = 10` the source picks `uint_fast16_t`, whose width C++
  leaves to the implementation (at least 16 bits). The 32-bit width is an
  assumption of the model. `SingleMask::bit` shifts a plain `int`, so any
  width that covers every registered index behaves the same; the joint
  registry of 18 types (`Registry.Order`) needs at least 18 bits.
- **Bit order.** Component indices follow a fixed first-use order
  (`Registry.Order`). C++ leaves the initialisation order of the template
  statics unspecified, so every property is stated for all types. None
  depends on the particular order.

Two behaviours of the code worth stating:

- The box game's `DestroySystem` only clears mask bits
  (breakoutGame/breakout_game.cpp:426-437). It never calls
  `destroyEntity`, so ids are not recycled and no storage is freed, although
  the source's own comments call it removing the entities ("Removes entities
  that are marked for deletion", line 411; "Remove entities with
  DestroyedTag", line 608).
- `addComponent` does not check that the id is live. It only needs the id
  to be inside the mask table.

## Model

| member | source | states |
|---|---|---|
| Masks.Bit | bagel.h:168 | `bit(idx)` has exactly bit `idx` set |
| Masks.BitInjective | bagel.h:168 | distinct indices give distinct single-bit masks |
| Masks.Set | bagel.h:170 | `set(b)` turns on every bit of `b`, keeps every other bit, and afterwards `test(b)` holds for a nonzero `b` |
| Masks.Clear | bagel.h:172 | `clear(b)` turns off every bit of `b`, keeps every other bit, and afterwards `test(b)` fails |
| Masks.TestBit | bagel.h:175 | `test(b)` holds iff the mask and `b` share a set bit |
| Masks.OverlapWitness | bagel.h:175 | `(m & b) != 0` iff some bit is set in both |
| Masks.Test | bagel.h:176 | `test(m)` (`(mask & m) == m`) holds iff every bit of `m` is set in the receiver |
| Masks.TestSingleBit | bagel.h:175-176 | for a single-bit mask, both `test` overloads agree and read exactly that bit |
| Masks.SetClearBit | bagel.h:170-175 | after `set(bit(i))` bit `j` tests true iff `i == j` or it was set; after `clear(bit(i))` iff `i != j` and it was set |
| Masks.Size | bagel.h:204 | `MultiMask::Size` is the least number of words holding `MaxComponents` bits |
| Masks.MultiZero | bagel.h:205 | a new multi-word mask has every word zero |
| Masks.MultiBit | bagel.h:187-189 | `bit(idx)` names the word holding flat bit `idx` and, within it, the one bit at offset `idx` minus the word's first index |
| Masks.MultiSet | bagel.h:191 | `set(b)` turns on `b`'s bits in word `b.index` and keeps every other bit of every word |
| Masks.MultiClear | bagel.h:193 | `clear(b)` turns off `b`'s bits in word `b.index` and keeps every other bit of every word |
| Masks.MultiTestBit | bagel.h:196 | `test(b)` holds iff word `b.index` shares a set bit with `b.mask` |
| Masks.FlattenIndex | bagel.h:187-188 | flat bit `k` of a multi-word mask is bit `k % BitsetWidth` of word `k / BitsetWidth` |
| Masks.MultiTestBitFlat | bagel.h:196 | `test(bit(idx))` on a multi-word mask reads flat bit `idx` |
| Masks.MultiSetClearFlat | bagel.h:187-193 | `set(bit(idx))` turns on flat bit `idx` only; `clear(bit(idx))` turns off flat bit `idx` only |
| Masks.MultiBitInjective | bagel.h:187-189 | distinct flat indices give distinct `(index, mask)` bit references |
| Masks.MultiTest | bagel.h:197-202 | the word-by-word loop returns true iff every bit of `m`, in every word, is set in the receiver |
| Masks.MultiIncludesFlat | bagel.h:197-202 | word-wise inclusion is the same as inclusion of the flat bit sets |
| Registry.Register | bagel.h:209-213 | the first use of a type appends it with the next index; a type used before keeps its index; no type is registered twice |
| Registry.IndexIn | bagel.h:213 | a registered type's index is the position of its first registration |
| Registry.IndexInInjective | bagel.h:213 | two registered types share an index iff they are the same type |
| Registry.RegisterAll | bagel.h:209-213 | registering a sequence of first uses covers them all and keeps earlier indices |
| Registry.RegisterAllFresh | bagel.h:209-213 | registering types not yet used gives them indices 0, 1, 2, … in first-use order |
| Registry.OrderIsRegistration | bagel.h:209-213 | the fixed order is the registration order of its own types, with no repeats |
| Registry.Index | bagel.h:213 | every type has an index below the mask width, at its position in the order |
| Registry.IndexIsRegistered | bagel.h:213 | `Index` is the registry's index of the type |
| Registry.OrderAt | bagel.h:213 | the type at position `i` has index `i` |
| Registry.IndexInjective | bagel.h:213 | distinct types have distinct indices |
| Registry.BitDistinct | bagel.h:214 | distinct types have distinct bits, and type `c`'s bit is set at `d`'s index iff `c == d` |
| Registry.Bit | bagel.h:214 | `Component<c>::Bit` has exactly one bit set, at `c`'s index |
| Registry.StorageOf | bagel_cfg.h:10-25 | the storage configured per type: the six listed packed types, the five listed tag types, and sparse for the rest, including the unlisted `HeartPowerTag` and `BreakAnimation`; it is a definition, and `World.AddTag` and `World.DelComponent` state what each kind does |
| Registry.MaskOf | bagel.h:275-289 | the `MaskBuilder` result has a type's bit set iff the type was added, and no bit beyond the registered types |
| Registry.MaskOfTest | bagel.h:281-286 | a mask contains a built mask iff it has the bit of every added type |
| Bags.DynamicBag.Push | bagel.h:55-63 | `push` appends to the contents, doubles the capacity exactly when the bag is full, and leaves every other slot alone |
| Bags.DynamicBag.Ensure | bagel.h:64-70 | `ensure(s)` never shrinks; it leaves the bag as it is when capacity ≥ s, else grows it to `max(s, 2·capacity)` with new slots empty |
| Bags.DynamicBag.Pop | bagel.h:71 | `pop` returns the last element and drops it from the contents |
| Bags.DynamicBag.At | bagel.h:72-73 | an `operator[]` read below the size returns the element pushed at that position |
| Bags.DynamicBag.Write | bagel.h:72 | `operator[]` assignment sets one slot and keeps size, capacity and every other slot |
| Bags.DynamicBag.Clear | bagel.h:74 | `clear` empties the contents and keeps the capacity |
| Bags.NewDynamicBag | bagel.h:81-83 | a new bag is empty with capacity `N` |
| Bags.PushPop | bagel.h:55-71 | `pop` after `push(t)` returns `t` and restores the contents |
| Bags.CapacityMonotone | bagel.h:55-70 | `push` and `ensure` never shrink the capacity, and after `push` the old size is in range |
| Bags.StaticBag.Push | bagel.h:89 | `push` on a non-full static bag appends to the contents |
| Bags.StaticBag.Pop | bagel.h:90 | `pop` returns the last element and drops it |
| Bags.StaticBag.Ensure | bagel.h:96 | `StaticBag::ensure` does nothing |
| Bags.NewStaticBag | bagel.h:98-99 | a new static bag is empty with `N` slots |
| Storage.SparseAddInBoundsIff | bagel.h:108-111 | the as-written `ensure(id)` then write of slot `id` is in bounds iff `id < 2·capacity` and `id != capacity` |
| Storage.SparseAddOutOfBoundsExample | bagel.h:108-111 | the as-written write for id 10 into a fresh 10-slot bag is out of bounds |
| Storage.SparseAdd | bagel.h:108-111 | the corrected `add` stores `t` at `id` in range and keeps every other slot |
| Storage.SparseAddView | bagel.h:108-113 | the corrected sparse `add` is a map update of the id-to-value view |
| Storage.Packed.ViewAt | bagel.h:135-137 | an entity is in the packed view iff it holds a value, and the view's value is `get(e)` |
| Storage.Packed.Owner | bagel.h:142-144 | `entity(idx)` reads `_compToEnt[idx]`; a definition, whose meaning (the owner holds a value and its index is `idx`) `Storage.Packed.OwnersHold` states |
| Storage.Packed.Size | bagel.h:138 | `size()` is the dense count; a definition, and `Del` lowers it by one while `Add` raises it only for an entity that held no value |
| Storage.Packed.Get | bagel.h:135-137 | `get(e)` returns the value in the dense slot whose owner is `e` |
| Storage.Packed.Del | bagel.h:127-134 | swap-remove keeps both index maps mutually inverse, drops the size by one, and removes `e`; every other entity's holding and `get` are unchanged |
| Storage.Packed.DelValid | bagel.h:127-134 | the three writes of `del` leave the index maps mutually inverse and `e` not held |
| Storage.Packed.DelFrame | bagel.h:127-134 | the three writes of `del` keep every other entity's holding and value |
| Storage.Packed.AddAsWritten | bagel.h:121-126 | the as-written `add` always appends a dense slot, so the size grows by one even on a re-add |
| Storage.Packed.Add | bagel.h:121-126 | the corrected `add` keeps the maps inverse, makes `get(e) == t`, grows the size only for a new entity, and keeps every other entity |
| Storage.Packed.AddFreshValid | bagel.h:121-126 | appending a new entity's value keeps the maps inverse and every other entity's value |
| Storage.NewPacked | bagel.h:146-148 | a new packed storage is empty and consistent |
| Storage.PackedAddOutOfBoundsExample | bagel.h:122-123 | the as-written `_entToComp` write for entity 10 on a fresh 10-slot bag is out of bounds |
| Storage.PackedReAddBreaksInverse | bagel.h:121-126 | adding to entity 0 twice with the as-written `add` breaks the inverse maps and counts two values |
| Storage.PackedAddView | bagel.h:121-126 | the corrected packed `add` is a map update of the view |
| Storage.PackedDelView | bagel.h:127-134 | packed `del` removes exactly the entity's key from the view |
| World.InitialValid | bagel.h:265-267 | the initial world (`maxId = -1`, empty bags) satisfies the invariant |
| World.CreateEntity | bagel.h:220-225 | with freed ids it returns the most recently freed one and keeps `maxId`; otherwise `maxId + 1` with a new empty mask; the id was not live, is live afterwards with an empty mask, and no live id changes |
| World.DestroyEntity | bagel.h:226-229 | `destroyEntity` empties the id's mask, pushes the id on the free bag, and keeps every other mask and `maxId` |
| World.DestroyValid | bagel.h:226-229 | destroying a live id keeps the invariant, makes that id not live, and keeps every other id's liveness |
| World.DestroyThenCreate | bagel.h:220-229 | LIFO reuse: the next `createEntity` after destroying `e` returns `e` and keeps `maxId` |
| World.DoubleDestroyAliases | bagel.h:226-229 | destroying an id twice puts it in the free bag twice, which breaks the no-aliasing invariant |
| World.Mask | bagel.h:230-232 | `mask(e)` of a freed id is empty, since `destroyEntity` clears it before freeing the id |
| World.HasLive | bagel.h:227 | an id with any component bit is live, since freed ids have empty masks |
| World.HasIsTestBit | bagel.h:230-232 | `mask(e).test(Component<c>::Bit)` is exactly the model's `Has` |
| World.SetBit | bagel.h:242 | the mask half of `addComponent` sets type `c`'s bit for `e`, changes no other bit of any entity, and keeps the invariant |
| World.ClearBit | bagel.h:254 | the mask half of `delComponent` clears type `c`'s bit for `e`, changes no other bit, and keeps the invariant |
| World.SetBits | bagel.h:245-250 | `addComponents` leaves `e` with exactly its old types plus the listed ones, and no other mask changes |
| World.ClearBits | bagel.h:257-262 | `delComponents` leaves `e` with exactly its old types minus the listed ones, and no other mask changes |
| World.SetThenClearBits | bagel.h:245-262 | deleting a bundle just added leaves the old types minus the bundle, so an empty mask becomes empty again |
| World.AddComponent | bagel.h:240-244 | `addComponent` sets the bit, `getComponent` then returns the added value, and every other entity's value is unchanged |
| World.AddTag | bagel.h:154 | adding a tag type sets only its bit, since `TaggedStorage::add` stores nothing |
| World.DelComponent | bagel.h:252-256 | `delComponent` on a packed type requires that the entity hold a value, as `PackedStorage::del` (bagel.h:127-134) does; it clears only the bit; packed storage drops the value, and sparse or tagged storage keeps it |
| World.GetComponent | bagel.h:235-238 | `getComponent<c>(e)` is defined only for an entity whose value is stored; `World.AddComponent` states that it returns the value last added |
| World.AddThenDel | bagel.h:240-256 | adding then deleting a component leaves `c` clear and every other bit of every entity as before |
| World.MatchesBoth | breakoutGame/breakout_game.cpp:119-125 | a required mask built from two types (both collision passes use Position and Collider) matches an id iff it has both types |
| World.Query | breakout/breakout_game.cpp:28-33 | a system loop visits, in ascending order, exactly the ids whose mask contains the required mask |
| World.QuerySelects | breakout/breakout_game.cpp:24-33 | the loop over a `MaskBuilder`-style mask selects an id iff it has every listed type |
| Components.FlipY | breakout/breakout_game.cpp:95 | `vel.dy *= -1` negates `dy`, keeps `dx`, and undoes itself |
| CircleWorld.Tag | breakout/breakout_game.cpp:79 | adding a tag sets only that bit of that entity and keeps the state consistent |
| CircleWorld.Spawn | breakout/breakout_game.cpp:179-181 | `create` then `addAll` makes a new entity holding exactly the bundle, with the given values stored, and nothing else changes |
| CircleWorld.CreateBall | breakout/breakout_game.cpp:178-182 | the ball holds exactly Position, Velocity, Sprite, Collider and BallTag at the header's defaults: (0, 0), (0, 0), sprite -1, radius 5; every ball of the old state still has a velocity and so does the new one |
| CircleWorld.CreateBrick | breakout/breakout_game.cpp:189-193 | the brick holds exactly Position, Sprite, Collider and BrickHealth, with the given hits; every ball of the old state still has a velocity |
| CircleWorld.CreatePaddle | breakout/breakout_game.cpp:201-205 | the paddle holds exactly Position, Sprite, Collider and PaddleControl, with the given keys; every ball of the old state still has a velocity |
| CircleWorld.CreatePowerUp | breakout/breakout_game.cpp:212-216 | the power-up holds its seven types, including `DestroyedTag`, with the given type and a zero duration; every ball of the old state still has a velocity |
| CircleWorld.CreateUIManager | breakout/breakout_game.cpp:222-226 | the UI manager holds exactly Score and LifeCount, at 0 points and 3 lives; every ball of the old state still has a velocity |
| CircleWorld.CreateFloor | breakout/breakout_game.cpp:228-232 | the floor holds exactly Position (400, 590), Collider radius 1000 and FloorTag; every ball of the old state still has a velocity |
| CircleCollision.IsCollidingSymmetric | breakout/breakout_game.cpp:36-42 | the circle test does not depend on argument order |
| CircleCollision.TouchingCounts | breakout/breakout_game.cpp:36-42 | circles exactly touching collide; circles one unit further apart do not |
| CircleCollision.IsColliding | breakout/breakout_game.cpp:36-42 | the circle test is the predicate: squared centre distance at most the squared radius sum; its meaning is stated by `IsCollidingSymmetric` and `TouchingCounts` |
| CircleCollision.Decrement | breakout/breakout_game.cpp:77 | `brick.hits--` lowers that brick's hits by exactly one, with no lower bound, and changes nothing else |
| CircleCollision.HitBrick | breakout/breakout_game.cpp:75-80 | a hit drops the brick's hits by one and adds `DestroyedTag` iff they reach ≤ 0; no other value or bit changes |
| CircleCollision.FlipDy | breakout/breakout_game.cpp:94-95 | a paddle bounce negates only that ball's `dy` |
| CircleCollision.HitPair | breakout/breakout_game.cpp:74-88 | in a ball–brick pair, whichever side is the ball, exactly the brick takes one hit; otherwise nothing changes |
| CircleCollision.BouncePair | breakout/breakout_game.cpp:91-100 | in a ball–paddle pair, whichever side is the ball, exactly its `dy` is negated; otherwise nothing changes |
| CircleCollision.ReactKeeps | breakout/breakout_game.cpp:68-101 | a reaction keeps the state consistent and touches only hits, `dy` signs and `DestroyedTag` bits |
| CircleCollision.ReactCases | breakout/breakout_game.cpp:70-100 | the brick case, then the paddle case, each for either side being the ball; a pair with no ball changes nothing |
| CircleCollision.EmptyReady | bagel.h:265-267 | the world before any entity is created satisfies the pass invariant `Ready` |
| CircleCollision.PairStepCases | breakout/breakout_game.cpp:61-68 | a non-overlapping pair changes nothing; an overlapping one reacts |
| CircleCollision.PairStepKeeps | breakout/breakout_game.cpp:59-101 | one pair's step stays within the frame of allowed changes |
| CircleCollision.React | breakout/breakout_game.cpp:70-100 | an overlapping pair's reaction keeps the table size; its effect is `ReactCases` and its frame `ReactKeeps` |
| CircleCollision.PairStep | breakout/breakout_game.cpp:61-100 | one pair of the pass keeps the table size; `PairStepCases` states when it reacts |
| CircleCollision.Visit | breakout/breakout_game.cpp:60-100 | one inner-loop iteration keeps the table size; `VisitIsPairStep` states it is the pair step |
| CircleCollision.Examine | breakout/breakout_game.cpp:61-100 | the source's order of `continue` tests keeps the table size; `VisitIsPairStep` states it |
| CircleCollision.VisitIsPairStep | breakout/breakout_game.cpp:61-100 | the source's order of tests (mask of `id2`, then overlap) reacts exactly when the pair overlaps |
| CircleCollision.Inner | breakout/breakout_game.cpp:59-101 | the inner loop keeps the table size; `InnerIsRow` states it is the fold over its row of pairs |
| CircleCollision.Outer | breakout/breakout_game.cpp:55-102 | the outer loop keeps the table size; `OuterIsPairsFrom` states it is the fold over all its pairs |
| CircleCollision.CollisionSystem | breakout/breakout_game.cpp:48-103 | the pass keeps the state consistent, creates and destroys no entity, and changes only hits, `dy` signs and `DestroyedTag` bits |
| CircleCollision.InnerKeeps | breakout/breakout_game.cpp:59-101 | the inner loop stays within the frame |
| CircleCollision.OuterKeeps | breakout/breakout_game.cpp:55-102 | the outer loop stays within the frame |
| CircleCollision.RowExact | breakout/breakout_game.cpp:59 | the inner loop of `id1 = i` from `j` visits exactly the pairs `(i, q)` with `j ≤ q < n` |
| CircleCollision.PairsFromExact | breakout/breakout_game.cpp:55-59 | the loops from `id1 = i` visit exactly the pairs `i ≤ p < q < n` |
| CircleCollision.RowSorted | breakout/breakout_game.cpp:59 | the inner loop visits its pairs in increasing order |
| CircleCollision.PairsFromSorted | breakout/breakout_game.cpp:55-59 | the nested loops visit pairs in strictly increasing lexicographic order |
| CircleCollision.PairsExactlyOnce | breakout/breakout_game.cpp:55-59 | every unordered pair `i < j < n` is visited exactly once, and no other pair is visited |
| CircleCollision.FoldAppend | breakout/breakout_game.cpp:55-59 | running two runs of pairs in turn is running their concatenation |
| CircleCollision.InnerIsRow | breakout/breakout_game.cpp:59-101 | the inner loop is the pair step folded over its row of pairs |
| CircleCollision.SkippedRow | breakout/breakout_game.cpp:57 | an `id1` without Position or Collider contributes nothing |
| CircleCollision.OuterIsPairsFrom | breakout/breakout_game.cpp:55-102 | the outer loop is the pair step folded over all its pairs |
| CircleCollision.PassIsPairFold | breakout/breakout_game.cpp:48-103 | the whole pass is the pair step applied to each unordered pair once, in lexicographic order |
| CircleSystems.MovementSystem | breakout/breakout_game.cpp:23-34 | selects, in ascending order, exactly the ids with Position and Velocity |
| CircleSystems.PlayerControlSystem | breakout/breakout_game.cpp:108-119 | selects exactly the ids with Position and PaddleControl |
| CircleSystems.PowerUpSystem | breakout/breakout_game.cpp:124-137 | selects exactly the ids with PowerUpType and TimedEffect |
| CircleSystems.DestroySystem | breakout/breakout_game.cpp:142-152 | selects exactly the ids with DestroyedTag |
| CircleSystems.UISystem | breakout/breakout_game.cpp:157-168 | selects exactly the ids with Score and LifeCount |
| CircleSystems.PowerUpBornDestroyed | breakout/breakout_game.cpp:212-216 | a new power-up is selected by the destroy, power-up and movement systems alike |
| BoxWorld.Tag | breakoutGame/breakout_game.cpp:219 | adding a tag sets only that bit and keeps the state consistent |
| BoxWorld.AddAnim | breakoutGame/breakout_game.cpp:155 | `addComponent(BreakAnimation{…})` sets the bit and stores the value, and nothing else changes |
| BoxWorld.AddPower | breakoutGame/breakout_game.cpp:231-232 | granting a power sets PowerUpType and TimedEffect on the paddle and stores both values |
| BoxWorld.Spawn | breakoutGame/breakout_game.cpp:454-465 | `create` then `addAll` makes a new entity holding exactly the bundle, with the values stored |
| BoxWorld.CreateBall | breakoutGame/breakout_game.cpp:453-466 | the ball is at (400, 450) with velocity (1.2, 1.5), the ball sprite and a 34.8×30.8 box |
| BoxWorld.CreateBrick | breakoutGame/breakout_game.cpp:474-485 | the brick is at `(x, y)` with the given colour and hits and a 119.7×41.3 box |
| BoxWorld.CreatePaddle | breakoutGame/breakout_game.cpp:497-506 | the paddle is at (320, 560) with the given keys, the paddle sprite and a 112.7×38.5 box |
| BoxWorld.CreatePowerUp | breakoutGame/breakout_game.cpp:513-517 | the power-up holds its seven types, including `DestroyedTag`, with the given kind |
| BoxWorld.CreateFloor | breakoutGame/breakout_game.cpp:525-529 | the floor is at (0, 590) with an 800×10 box and FloorTag |
| BoxWorld.CreateStar | breakoutGame/breakout_game.cpp:819-828 | the star is at `(x, y)` with the star sprite, a 58.8×51.1 box and StarPowerTag, and no Velocity |
| BoxWorld.CreateHeart | breakoutGame/breakout_game.cpp:830-839 | the heart is at `(x, y)` with the heart sprite, a 58.8×51.1 box and HeartPowerTag |
| BoxWorld.CreateLaser | breakoutGame/breakout_game.cpp:849-860 | the laser is at `(x, y)` moving at (0, -200) with an 11×22 box and LaserTag |
| BoxCollision.IsCollidingSymmetric | breakoutGame/breakout_game.cpp:90-97 | the box test does not depend on argument order |
| BoxCollision.SharedEdgeMisses | breakoutGame/breakout_game.cpp:90-97 | boxes that only share an edge do not collide; overlapping ones do |
| BoxCollision.IsColliding | breakoutGame/breakout_game.cpp:90-97 | the strict AABB test is the predicate; its meaning is stated by `IsCollidingSymmetric` and `SharedEdgeMisses` |
| BoxCollision.HitBrick | breakoutGame/breakout_game.cpp:146-157 | a hit lowers hits by exactly one; the hit that reaches 0 advances the sprite and adds `BreakAnimation{0.5}` only when absent; no `DestroyedTag` is added |
| BoxCollision.Damage | breakoutGame/breakout_game.cpp:148 | a hit that leaves hits changes only the count |
| BoxCollision.Break | breakoutGame/breakout_game.cpp:148-157 | the last hit zeroes the count, advances the sprite and ensures a break animation |
| BoxCollision.FlipDy | breakoutGame/breakout_game.cpp:192-193 | only the ball's `dy` is negated |
| BoxCollision.Destroy | breakoutGame/breakout_game.cpp:237 | tagging sets only `DestroyedTag` on that entity |
| BoxCollision.FirstPaddle | breakoutGame/breakout_game.cpp:228-235 | the power goes to the lowest id with PaddleControl, if there is one |
| BoxCollision.Grant | breakoutGame/breakout_game.cpp:228-235 | the lowest-id paddle gains PowerUpType and TimedEffect with the given kind and duration; with no paddle nothing changes |
| BoxCollision.Pickup | breakoutGame/breakout_game.cpp:225-242 | a pickup keeps the state playable and within the frame |
| BoxCollision.PickupFacts | breakoutGame/breakout_game.cpp:225-242 | a pickup grants the power to the lowest-id paddle, tags the pickup destroyed, negates the ball's `dy`, and changes nothing else |
| BoxCollision.FloorKill | breakoutGame/breakout_game.cpp:216-222 | a ball reaching the floor is tagged `DestroyedTag` |
| BoxCollision.BounceOffBrick | breakoutGame/breakout_game.cpp:183-205 | ball meets brick: the brick is hit and the ball's `dy` flips |
| BoxCollision.BallReact | breakoutGame/breakout_game.cpp:182-261 | a ball's reaction keeps the state playable and within the frame |
| BoxCollision.React | breakoutGame/breakout_game.cpp:128-261 | a laser's or ball's reaction to its target keeps the state playable and within the frame |
| BoxCollision.FirstTarget | breakoutGame/breakout_game.cpp:168-180 | the inner loop stops at the lowest id that no `continue` skips, or at none |
| BoxCollision.Target | breakoutGame/breakout_game.cpp:129-147 | a definition: `j` is the id no `continue` of shooter `i`'s scan skips; `FirstTarget`, `LaserHitsFirst` and `BallHitsFirst` state what it selects |
| BoxCollision.Scan | breakoutGame/breakout_game.cpp:168-263 | one inner loop reacts to at most one partner and stays within the frame |
| BoxCollision.FirstTargetIsLowest | breakoutGame/breakout_game.cpp:168-180 | the scan reacts to the lowest qualifying partner |
| BoxCollision.FirstTargetNone | breakoutGame/breakout_game.cpp:129-142 | with no qualifying partner, the scan finds none |
| BoxCollision.VisitKeeps | breakoutGame/breakout_game.cpp:123-166 | one outer iteration stays within the frame |
| BoxCollision.Visit | breakoutGame/breakout_game.cpp:123-264 | one outer iteration keeps the table size; `VisitKeeps`, `LaserHitsFirst`, `BallHitsFirst` and `OthersIdle` state its effect |
| BoxCollision.Outer | breakoutGame/breakout_game.cpp:123-264 | the outer loop keeps the table size; `OuterKeeps` states its frame |
| BoxCollision.OuterKeeps | breakoutGame/breakout_game.cpp:123-264 | the outer loop stays within the frame |
| BoxCollision.CollisionSystem | breakoutGame/breakout_game.cpp:118-265 | the pass creates and destroys no entity, keeps the state playable, and only lowers hits, flips `dy`, advances broken bricks' sprites and adds marker bits |
| BoxCollision.HitsStayNonNegative | breakoutGame/breakout_game.cpp:146-148 | across a pass, hits never rise, and non-negative hits stay non-negative |
| BoxCollision.LaserHitsFirst | breakoutGame/breakout_game.cpp:128-163 | a laser damages exactly the lowest overlapping undestroyed brick with hits left, and nothing else |
| BoxCollision.LaserMisses | breakoutGame/breakout_game.cpp:128-162 | a laser with no such brick changes nothing, and never enters the ball branch |
| BoxCollision.BallHitsFirst | breakoutGame/breakout_game.cpp:166-205 | a ball reacts to exactly its lowest qualifying partner |
| BoxCollision.BallMisses | breakoutGame/breakout_game.cpp:168-263 | a ball with no qualifying partner changes nothing |
| BoxCollision.OthersIdle | breakoutGame/breakout_game.cpp:123-166 | an id without Position and Collider, or with neither LaserTag nor BallTag, changes nothing |
| BoxCollision.BallReactCases | breakoutGame/breakout_game.cpp:182-261 | brick, then paddle, floor, star, heart: each reaction's exact effect, and each negates `dy` at most once |
| BoxCollision.BrickReact | breakoutGame/breakout_game.cpp:183-205 | ball–brick: one hit to the brick and `dy` negated |
| BoxCollision.PaddleReact | breakoutGame/breakout_game.cpp:208-213 | ball–paddle: only `dy` is negated |
| BoxCollision.FloorReact | breakoutGame/breakout_game.cpp:216-222 | ball–floor: only the ball's `DestroyedTag` is set |
| BoxCollision.PickupReact | breakoutGame/breakout_game.cpp:224-261 | ball–star grants SHOTING_LASER for 0.8; ball–heart grants WIDE_PADDLE for 2.0 |
| BoxMovement.Clamp | breakoutGame/breakout_game.cpp:77 | `std::clamp` returns `v` when in range, else the nearer bound |
| BoxMovement.Step | breakoutGame/breakout_game.cpp:63-64 | a definition: `pos += vel` on both axes; `BounceAt` and `OffTopAt` state how the loop uses it |
| BoxMovement.Bounce | breakoutGame/breakout_game.cpp:75-86 | a definition of the two wall tests; `BounceInside` states where the box ends and which speeds flip |
| BoxMovement.MoveOne | breakoutGame/breakout_game.cpp:52-86 | one iteration keeps the table size; `MoveOneCases`, `MoveOneKeeps` and `MoveOneElsewhere` state its effect |
| BoxMovement.Loop | breakoutGame/breakout_game.cpp:49-87 | the loop keeps the table size; `LoopKeeps`, `LoopAfter`, `LoopBefore` and `MovementPointwise` state its effect |
| BoxMovement.MoversIff | breakoutGame/breakout_game.cpp:52-55 | an id moves iff it has Position and Velocity and no `DestroyedTag` |
| BoxMovement.BounceInside | breakoutGame/breakout_game.cpp:74-86 | after the bounce, x is in `[0, 800 − width]` and `dx` is negated when a side wall was crossed; y < 0 becomes 0 with `dy` negated |
| BoxMovement.OffTopKeeps | breakoutGame/breakout_game.cpp:66-71 | a laser above the screen is tagged destroyed and keeps the state playable |
| BoxMovement.BounceKeeps | breakoutGame/breakout_game.cpp:74-86 | a bounce changes only position and velocity, and keeps the state playable |
| BoxMovement.MoveOneCases | breakoutGame/breakout_game.cpp:52-86 | skipped ids are unchanged; an off-top laser is moved and tagged, with no bounce; anything else moves by `(dx, dy)`, then bounces inside the screen |
| BoxMovement.MoveOneKeeps | breakoutGame/breakout_game.cpp:52-86 | one iteration keeps the state playable and changes no bit other than that id's `DestroyedTag` |
| BoxMovement.OffTopAt | breakoutGame/breakout_game.cpp:63-71 | an off-top laser is stepped and tagged, and its velocity is kept |
| BoxMovement.BounceAt | breakoutGame/breakout_game.cpp:74-86 | a moving entity's new position and velocity are the bounce of its step |
| BoxMovement.MoveOneElsewhere | breakoutGame/breakout_game.cpp:49-87 | an iteration for one id leaves every other id's mask, position, velocity and collider alone |
| BoxMovement.MoveOneLocal | breakoutGame/breakout_game.cpp:58-86 | an iteration depends only on that id's own mask and values |
| BoxMovement.LoopKeeps | breakoutGame/breakout_game.cpp:49-87 | the loop keeps the state playable, the free bag and `maxId` |
| BoxMovement.LoopAfter | breakoutGame/breakout_game.cpp:49-87 | ids already passed are untouched by later iterations |
| BoxMovement.LoopBefore | breakoutGame/breakout_game.cpp:49-87 | an id not yet reached ends as its own iteration leaves it |
| BoxMovement.MovementSystem | breakoutGame/breakout_game.cpp:41-88 | the pass keeps the state playable and creates no entity |
| BoxMovement.MovementPointwise | breakoutGame/breakout_game.cpp:41-88 | after the pass, each id is exactly as its own iteration on the original state leaves it |
| BoxDestroy.OnesClear | breakoutGame/breakout_game.cpp:434 | clearing a set bit lowers the set-bit count by one |
| BoxDestroy.CtzFrom | breakoutGame/breakout_game.cpp:432 | the lowest set bit at or after `i`, or -1 when there is none |
| BoxDestroy.Ctz | breakoutGame/breakout_game.cpp:432 | `ctz` is the lowest set bit, and -1 exactly for an empty mask |
| BoxDestroy.ClearAll | breakoutGame/breakout_game.cpp:432-436 | the ctz loop ends with the mask empty |
| BoxDestroy.ClearEach | breakoutGame/breakout_game.cpp:426-437 | exactly the listed ids' masks are emptied, and every other mask is kept |
| BoxDestroy.ClearTagged | breakoutGame/breakout_game.cpp:413-438 | exactly the masks of ids tagged `DestroyedTag` are emptied |
| BoxDestroy.DestroySystem | breakoutGame/breakout_game.cpp:413-438 | tagged entities end with empty masks, every other mask and every stored value is kept, the free bag and `maxId` are unchanged, and the state stays playable |
| BoxDestroy.DestroyedNotReused | breakoutGame/breakout_game.cpp:426-437 | a destroyed entity stays live, so the next `createEntity` does not return it |
| BoxGrid.BrickColor | breakoutGame/breakout_game.cpp:712 | `2 + (row % 4)·2` is one of the four brick colours |
| BoxGrid.StartX | breakoutGame/breakout_game.cpp:704-705 | a definition of the left margin; `GridCentred` states that it centres the row |
| BoxGrid.CellX | breakoutGame/breakout_game.cpp:710 | a definition of a column's x; `GridCentred` and `BricksApart` state its geometry |
| BoxGrid.CellY | breakoutGame/breakout_game.cpp:706-711 | a definition of a row's y; `BricksApart` states that rows do not overlap |
| BoxGrid.RowFrom | breakoutGame/breakout_game.cpp:709-723 | the inner loop returns one new id per remaining column; `RowPlaced` states what each id holds |
| BoxGrid.RowsFrom | breakoutGame/breakout_game.cpp:708-724 | the outer loop returns one row of ids per remaining row; `RowsPlaced` states what each id holds |
| BoxGrid.PlaceCell | breakoutGame/breakout_game.cpp:710-722 | one cell creates a star at (2, cols/2), a heart at (3, cols/2), else a brick with the row's colour and the given health, at the cell's corner |
| BoxGrid.CreateBrickGrid | breakoutGame/breakout_game.cpp:701-725 | the grid keeps the state consistent and has one row per `row < rows` |
| BoxGrid.RowPlaced | breakoutGame/breakout_game.cpp:709-723 | one row places each of its cells, on distinct new ids, and keeps every older entity |
| BoxGrid.RowsPlaced | breakoutGame/breakout_game.cpp:708-724 | the rows from `row` on place every cell on distinct new ids and keep every older entity |
| BoxGrid.GridLayout | breakoutGame/breakout_game.cpp:701-725 | every cell `(row, col)` holds its star, heart or brick at `x = startX + col·125`, `y = 80 + row·45`, each on its own new id, with nothing older changed |
| BoxGrid.GridCentred | breakoutGame/breakout_game.cpp:704-705 | the grid's left margin equals its right margin on the 800-wide screen |
| BoxGrid.BricksApart | breakoutGame/breakout_game.cpp:702-711 | the boxes of two different cells' bricks do not collide |

## Left out

- `main.cpp`, `run`, `RenderSystem` and the sprite atlas are SDL set-up, the frame loop and drawing. Nothing there is a state transformation of the model.
- The box game's `PlayerControlSystem` is left out because it reads the SDL keyboard state.
- The box game's `PowerUpSystem` is left out because it runs on a wall-clock `deltaTime`. This includes its laser cooldown and laser spawning; `CreateLaser` is modelled.
- `BreakAnimationSystem` and `StarSystem` are left out for the same reason.
- `breakout_game/breakout_game.cpp` is left out: its system bodies are empty and its constructors repeat those of the circle game.
- `bagel_cfg.h` is used only for the storage strategy of each type and for `DynamicResize = true`.
- `breakoutGame/test_firstPart.cpp` is a driver. The constructor contracts state what its assertions check.
- `std::cout` logging is not modelled.
- IEEE float rounding is not modelled: coordinates, velocities and durations are `real`.
- The `malloc`/`realloc` details of `DynamicBag` are not modelled: a bag is a sequence of slots plus a size.
- `PhysicsBody` is registered as a type but never used by the core, so it has no data map.
- `Entity::create`, `addAll`, `World::step`, `World::maskMutable` and `Mask::ctz` are called by the games but are not declared in `bagel.h`.
  - A constructor is modelled as `createEntity` followed by `addComponents`.
  - `ctz` is modelled as "lowest set bit, or -1 for an empty mask".
- The header that declares the box game's records is not part of this model.
  - The record shapes are the ones the code uses.
  - Sprite ids follow the atlas order in `BoxWorld`: ball, paddle, then four brick colours each followed by its damaged look, then laser, star and heart.
- BoxWorld.CreatePowerUp: takes the default-initialised Position, Velocity, Sprite, Collider and TimedEffect values as parameters, because the box game's header, where their initialisers live, is not part of this model.
- BoxWorld.AddPower: a paddle that already holds a power has it overwritten, which is what the corrected packed `add` does. The as-written `add` would leave a stale slot (see Findings).
- BoxMovement.BounceInside: states the horizontal bounds only for colliders at most 800 wide. For a wider collider, `std::clamp`'s precondition `lo <= hi` fails.
- BoxGrid.CreateBrickGrid: its own contract is shape-only. The cell-by-cell layout is stated by `BoxGrid.GridLayout`. It also returns the ids it creates, which the source discards.
- BoxGrid.PlaceCell: `cols / 2` is Dafny's floor division. It differs from C++ truncation only for negative `cols`, where no cell is placed.
- BoxCollision.Visit: also checks `Playable`. The guard holds on every state the constructors and systems build; on any other state the iteration changes nothing. Its own contract keeps only the table size; its effect is stated by `VisitKeeps`, `LaserHitsFirst`, `BallHitsFirst` and `OthersIdle`.
- BoxCollision.Outer: its own contract keeps only the table size, so that the recursion stays cheap to check; its frame is stated by `BoxCollision.OuterKeeps`.
- BoxMovement.Loop: also checks `MovesStored`, which holds on every playable state. Its own contract keeps only the table size; its effect is stated by `LoopKeeps`, `LoopAfter`, `LoopBefore` and `MovementPointwise`.
- BoxMovement.MoveOne: its own contract keeps only the table size; its effect is stated by `MoveOneCases`, `MoveOneKeeps`, `MoveOneElsewhere` and `MoveOneLocal`.
- BoxGrid.RowFrom: its own contract keeps consistency and the number of ids; what each id holds is stated by `BoxGrid.RowPlaced`.
- BoxGrid.RowsFrom: its own contract keeps consistency and the number of rows; what each id holds is stated by `BoxGrid.RowsPlaced`.
- CircleCollision.React: its own contract keeps only the table size; its effect is stated by `ReactCases` and its frame by `ReactKeeps`.
- CircleCollision.PairStep: also checks `Ready` (the state is consistent and every `BallTag` entity has a Velocity), which the source does not. Every circle constructor keeps `BallsMove`, `CollisionSystem` keeps `Ready`, and the empty world is `Ready`, so the guard holds on every state the game builds; on any other state the pair step changes nothing. Its own contract keeps only the table size; `PairStepCases` and `PairStepKeeps` state its effect.
- CircleCollision.Visit: also checks `Ready`, for the same reason as `CircleCollision.PairStep`; on a state that is not `Ready` the iteration changes nothing. Its own contract keeps only the table size; `VisitIsPairStep` states that it is the pair step.
- CircleCollision.Examine: its own contract keeps only the table size; `VisitIsPairStep` states what it does.
- CircleCollision.Inner: its own contract keeps only the table size; `InnerKeeps` and `InnerIsRow` state its effect.
- CircleCollision.Outer: its own contract keeps only the table size; `OuterKeeps` and `OuterIsPairsFrom` state its effect.
- World.DelComponent: requires, for a packed type, that the entity hold the value. On an entity that does not, `PackedStorage::del` reads a stale `_entToComp` entry and moves another holder's value; the model does not represent that misuse.
- Storage.Tagged: `TaggedStorage::add` and `del` do nothing and `get` is deleted, so the type has no contract beyond being the identity.

## Findings

| source | as written | input that shows it | evidently intended | confidence | as-written member | corrected member |
|---|---|---|---|---|---|---|
| bagel.h:108-111 | `SparseStorage::add` calls `_bag.ensure(e.id)` and then writes `_bag[e.id]`; `ensure(s)` only guarantees capacity ≥ s | the 11th entity (id 10) on a fresh bag of capacity 10: `ensure(10)` does nothing and slot 10 of a 10-slot array is written | `ensure(e.id + 1)` before writing slot `e.id` | not executed | Storage.SparseAddOutOfBoundsExample | Storage.SparseAdd |
| bagel.h:121-123 | `PackedStorage::add` calls `_entToComp.ensure(e.id)` and then writes `_entToComp[e.id]` | entity 10 on a fresh packed storage (`InitialEntities = 10`) writes slot 10 of a 10-slot array | `ensure(e.id + 1)` before the write | not executed | Storage.PackedAddOutOfBoundsExample | Storage.Packed.Add |
| bagel.h:121-126 | `PackedStorage::add` always appends a new dense slot, even for an entity that already holds the component | `add(0, 7)` then `add(0, 8)`: two dense slots name entity 0, `_entToComp[0]` points only at the second, and `size()` is 2 | overwrite the entity's existing slot in place, so the index maps stay inverse | not executed | Storage.PackedReAddBreaksInverse | Storage.Packed.Add |

=== FILE: bags.dfy ===
/** Optional values: `None` stands for an array slot that was never written
    (its contents are unspecified in the source). */
module Options {
  datatype Option<+T> = None | Some(value: T)
}

/** The two bag containers of the BAGEL runtime.

    A bag is an array of slots plus a size. Slots below the size hold the
    pushed elements; slots at or above it may still hold values written
    through `operator[]`, which is how `SparseStorage` uses a bag. The
    configuration sets `DynamicResize = true`, so the runtime uses
    `DynamicBag`; `StaticBag` is modelled for completeness. */
module Bags {
  import opened Options

  /** The pushed elements of a bag with these slots and size, bottom first. */
  function Pushed<T>(slots: seq<Option<T>>, size: nat): (c: seq<T>)
    requires size <= |slots| && forall i | 0 <= i < size :: slots[i].Some?
    ensures |c| == size
    ensures forall i | 0 <= i < size :: slots[i] == Some(c[i])
  {
    seq(size, i requires 0 <= i < size => slots[i].value)
  }

  /** `DynamicBag<T, N>`: a heap array of `|slots|` elements that grows by
      `realloc`. */
  datatype DynamicBag<T> = DynamicBag(slots: seq<Option<T>>, size: nat) {

    /** Capacity is positive (`N > 0` in every instance), the size never
        exceeds it, and every slot below the size has been written. */
    predicate Valid() {
      && 0 < |slots|
      && size <= |slots|
      && forall i | 0 <= i < size :: slots[i].Some?
    }

    function Capacity(): nat {
      |slots|
    }

    /** `push(t)`: when full, the capacity doubles (new slots unwritten);
        then `t` is stored at index `size` and the size grows by one. */
    function Push(t: T): (r: DynamicBag<T>)
      requires Valid()
      ensures r.Valid()
      ensures r.size == size + 1
      ensures Pushed(r.slots, r.size) == Pushed(slots, size) + [t]
      ensures r.Capacity() == if size == Capacity() then 2 * Capacity() else Capacity()
      ensures forall i | 0 <= i < Capacity() && i != size :: r.slots[i] == slots[i]
    {
      var s := if size == |slots| then Grow(slots, 2 * |slots|) else slots;
      var r := DynamicBag(s[size := Some(t)], size + 1);
      assert Pushed(r.slots, r.size) == Pushed(slots, size) + [t];
      r
    }

    /** `ensure(s)`: when the capacity is below `s` it becomes
        `max(s, 2 * capacity)`; otherwise nothing changes. */
    function Ensure(s: int): (r: DynamicBag<T>)
      requires Valid()
      ensures r.Valid()
      ensures r.Capacity() >= s && r.Capacity() >= Capacity()
      ensures Capacity() >= s ==> r == this
      ensures Capacity() < s ==> r.Capacity() == Max(s, 2 * Capacity())
      ensures r.size == size
      ensures forall i | 0 <= i < Capacity() :: r.slots[i] == slots[i]
      ensures forall i | Capacity() <= i < r.Capacity() :: r.slots[i] == None
    {
      if |slots| < s then DynamicBag(Grow(slots, Max(s, 2 * |slots|)), size) else this
    }

    /** `pop()`: the size shrinks by one and the element at the new size is
        returned; the slot itself keeps its value. */
    function Pop(): (r: (T, DynamicBag<T>))
      requires Valid() && size > 0
      ensures r.1.Valid()
      ensures r.0 == Pushed(slots, size)[size - 1]
      ensures Pushed(r.1.slots, r.1.size) == Pushed(slots, size)[..size - 1]
      ensures r.1.slots == slots
    {
      var r := (slots[size - 1].value, DynamicBag(slots, size - 1));
      assert Pushed(r.1.slots, r.1.size) == Pushed(slots, size)[..size - 1];
      r
    }

    /** `operator[](i)` read: whatever slot `i` holds (`None` if never written). */
    function At(i: nat): (r: Option<T>)
      requires i < Capacity()
      ensures Valid() && i < size ==> r == Some(Pushed(slots, size)[i])
    {
      slots[i]
    }

    /** `operator[](i) = t`: overwrite slot `i`, leaving the size unchanged. */
    function Write(i: nat, t: T): (r: DynamicBag<T>)
      requires Valid() && i < Capacity()
      ensures r.Valid()
      ensures r.size == size && r.Capacity() == Capacity()
      ensures r.At(i) == Some(t)
      ensures forall j | 0 <= j < Capacity() && j != i :: r.slots[j] == slots[j]
    {
      DynamicBag(slots[i := Some(t)], size)
    }

    /** `clear()`: the size drops to zero; capacity and slots stay. */
    function Clear(): (r: DynamicBag<T>)
      requires Valid()
      ensures r.Valid() && r.size == 0 && r.Capacity() == Capacity()
    {
      DynamicBag(slots, 0)
    }
  }

  function Max(a: int, b: int): int {
    if a < b then b else a
  }

  /** `realloc` to a larger capacity: old slots kept, new slots unwritten. */
  function Grow<T>(slots: seq<Option<T>>, n: int): (r: seq<Option<T>>)
    requires n >= |slots|
    ensures |r| == n
    ensures forall i | 0 <= i < |slots| :: r[i] == slots[i]
  {
    slots + seq(n - |slots|, _ => None)
  }

  /** A fresh `DynamicBag<T, N>`: `N` unwritten slots, size 0. */
  function NewDynamicBag<T>(n: nat): (b: DynamicBag<T>)
    requires n > 0
    ensures b.Valid() && b.size == 0 && b.Capacity() == n
  {
    DynamicBag(seq(n, _ => None), 0)
  }

  /** The bag is a stack: popping right after a push returns the pushed
      element and leaves the earlier contents as they were. */
  lemma PushPop<T>(b: DynamicBag<T>, t: T)
    requires b.Valid()
    ensures b.Push(t).size > 0
    ensures b.Push(t).Pop().0 == t
    ensures var q := b.Push(t).Pop().1; Pushed(q.slots, q.size) == Pushed(b.slots, b.size)
  {
    var p := b.Push(t);
    assert Pushed(p.slots, p.size)[..p.size - 1] == Pushed(b.slots, b.size);
  }

  /** Pushing onto a full bag doubles its capacity; pushes never shrink it and
      `ensure` never shrinks it either. */
  lemma CapacityMonotone<T>(b: DynamicBag<T>, t: T, s: int)
    requires b.Valid()
    ensures b.Push(t).Capacity() >= b.Capacity()
    ensures b.Push(t).Capacity() > b.size
    ensures b.Ensure(s).Capacity() >= b.Capacity()
  {
  }

  /** `StaticBag<T, N>`: a fixed array of `N` slots, no bounds checks. */
  datatype StaticBag<T> = StaticBag(slots: seq<Option<T>>, size: nat) {

    predicate Valid() {
      && size <= |slots|
      && forall i | 0 <= i < size :: slots[i].Some?
    }

    /** `push(t)`: `_arr[_size++] = t`; the array must not be full, since the
        source writes past its end otherwise. */
    function Push(t: T): (r: StaticBag<T>)
      requires Valid() && size < |slots|
      ensures r.Valid() && |r.slots| == |slots|
      ensures Pushed(r.slots, r.size) == Pushed(slots, size) + [t]
    {
      var r := StaticBag(slots[size := Some(t)], size + 1);
      assert Pushed(r.slots, r.size) == Pushed(slots, size) + [t];
      r
    }

    /** `pop()`: `_arr[--_size]`. */
    function Pop(): (r: (T, StaticBag<T>))
      requires Valid() && size > 0
      ensures r.1.Valid() && |r.1.slots| == |slots|
      ensures r.0 == Pushed(slots, size)[size - 1]
      ensures Pushed(r.1.slots, r.1.size) == Pushed(slots, size)[..size - 1]
    {
      var r := (slots[size - 1].value, StaticBag(slots, size - 1));
      assert Pushed(r.1.slots, r.1.size) == Pushed(slots, size)[..size - 1];
      r
    }

    /** `ensure(s)` is a no-op: a static bag never grows. */
    function Ensure(s: int): (r: StaticBag<T>)
      ensures r == this
    {
      this
    }
  }

  function NewStaticBag<T>(n: nat): (b: StaticBag<T>)
    ensures b.Valid() && b.size == 0 && |b.slots| == n
  {
    StaticBag(seq(n, _ => None), 0)
  }
}

=== FILE: box_collision.dfy ===
/** `CollisionSystem` of the axis-aligned-box variant.

    The source loops over `id1 = 0..maxId` and skips ids without Position
    and Collider. A laser (`LaserTag`) then scans every other id `id2` from
    0 and damages the first undestroyed brick with hits left that its box
    overlaps; nothing else happens for a laser. A ball (`BallTag`) scans
    the same way for the first undestroyed partner it overlaps that is a
    brick with hits left, a paddle, the floor, a star or a heart, and
    reacts to that one partner only (every reaction ends in `break`). The
    ball's own `DestroyedTag` is not checked.

    `Scan` is one inner loop: `FirstTarget` finds the lowest qualifying
    partner and `React` is the reaction to it. `Visit` is one outer
    iteration and `Outer` the outer loop. */
module BoxCollision {
  import opened Masks
  import R = Registry
  import opened World
  import opened Components
  import opened Options
  import opened BoxWorld

  /** `isColliding`: the two boxes overlap on both axes, with strict
      comparisons. */
  predicate IsColliding(a: Position, ca: Collider, b: Position, cb: Collider) {
    && a.x < b.x + cb.width
    && a.x + ca.width > b.x
    && a.y < b.y + cb.height
    && a.y + ca.height > b.y
  }

  /** The test does not depend on the order of its two boxes. */
  lemma IsCollidingSymmetric(a: Position, ca: Collider, b: Position, cb: Collider)
    ensures IsColliding(a, ca, b, cb) == IsColliding(b, cb, a, ca)
  {
  }

  /** Two 10 × 10 boxes side by side that share an edge do not collide;
      moved one unit closer they do. */
  lemma SharedEdgeMisses()
    ensures !IsColliding(Position(0.0, 0.0), Collider(10.0, 10.0), Position(10.0, 0.0), Collider(10.0, 10.0))
    ensures !IsColliding(Position(0.0, 0.0), Collider(10.0, 10.0), Position(0.0, 10.0), Collider(10.0, 10.0))
    ensures IsColliding(Position(0.0, 0.0), Collider(10.0, 10.0), Position(9.0, 9.0), Collider(10.0, 10.0))
  {
  }

  /** The loops' `requiredMask`: Position and Collider. */
  const Required: Word := R.MaskOf([R.Position, R.Collider])

  predicate Collidable(s: State, e: nat)
    requires e < |s.ecs.masks|
  {
    Matches(s.ecs, e, Required)
  }

  /** Both entities hold Position and Collider and their boxes overlap. */
  predicate Overlap(s: State, i: nat, j: nat)
    requires Stored(s) && i < |s.ecs.masks| && j < |s.ecs.masks|
  {
    MatchesBoth(s.ecs, i, R.Position, R.Collider);
    MatchesBoth(s.ecs, j, R.Position, R.Collider);
    assert StoredAt(s, i) && StoredAt(s, j);
    && Collidable(s, i) && Collidable(s, j)
    && IsColliding(s.pos[i], s.col[i], s.pos[j], s.col[j])
  }

  /** The types whose bits a collision pass may add. */
  predicate Marker(c: R.ComponentType) {
    c == R.DestroyedTag || c == R.BreakAnimation || c == R.PowerUpType || c == R.TimedEffect
  }

  /** Brick `e` went from some hits left to none, and its sprite advanced
      by one. */
  predicate Broken(s: State, r: State, e: nat)
    requires e in s.sprite && e in r.sprite
  {
    && e in s.health && e in r.health
    && r.health[e].hits <= 0 < s.health[e].hits
    && r.sprite[e].id == s.sprite[e].id + 1
  }

  /** What a collision pass may change. No entity is created or destroyed;
      mask bits are only ever added, and only `DestroyedTag`,
      `BreakAnimation`, `PowerUpType` and `TimedEffect` bits; positions,
      colliders and keys stay; a velocity keeps its `dx` and its `dy` up
      to sign; a hit count either stays or drops to a value that is still
      at least zero; a sprite changes only by advancing once, on the brick
      that broke. */
  predicate Frame(s: State, r: State) {
    && r.ecs.free == s.ecs.free && r.ecs.maxId == s.ecs.maxId
    && |r.ecs.masks| == |s.ecs.masks|
    && (forall e, c | 0 <= e < |s.ecs.masks| && !Marker(c) :: Has(r.ecs, e, c) == Has(s.ecs, e, c))
    && (forall e, c | 0 <= e < |s.ecs.masks| && Has(s.ecs, e, c) :: Has(r.ecs, e, c))
    && r.pos == s.pos && r.col == s.col && r.paddle == s.paddle
    && r.vel.Keys == s.vel.Keys && r.health.Keys == s.health.Keys && r.sprite.Keys == s.sprite.Keys
    && s.power.Keys <= r.power.Keys && s.timed.Keys <= r.timed.Keys && s.anim.Keys <= r.anim.Keys
    && (forall e | e in s.vel :: r.vel[e].dx == s.vel[e].dx && (r.vel[e].dy == s.vel[e].dy || r.vel[e].dy == -s.vel[e].dy))
    && (forall e | e in s.health :: r.health[e] == s.health[e] || 0 <= r.health[e].hits < s.health[e].hits)
    && (forall e | e in s.sprite && r.sprite[e] != s.sprite[e] :: Broken(s, r, e))
  }

  lemma FrameTrans(a: State, b: State, c: State)
    requires Frame(a, b) && Frame(b, c)
    ensures Frame(a, c)
  {
    forall e | e in a.sprite && c.sprite[e] != a.sprite[e]
      ensures Broken(a, c, e)
    {
      if b.sprite[e] != a.sprite[e] {
        assert Broken(a, b, e);
        assert c.sprite[e] == b.sprite[e];
      } else {
        assert Broken(b, c, e);
      }
    }
  }

  /** A step within the frame keeps the state playable. */
  lemma FramePlayable(s: State, r: State)
    requires Playable(s) && Consistent(r) && Frame(s, r)
    ensures Playable(r)
  {
  }

  lemma FrameRefl(s: State)
    ensures Frame(s, s)
  {
  }

  // ---------------------------------------------------------------------
  // The reactions.

  /** Brick `b` lost exactly one hit. If that left it with none, its sprite
      advanced to the damaged look and it holds a `BreakAnimation` (a new
      one of 0.5 unless it had one); otherwise sprites and animations are
      as they were. No other brick changed, no velocity or power-up
      changed, and no bit other than `b`'s `BreakAnimation` changed; in
      particular the brick is not tagged `DestroyedTag`. */
  predicate HitOnce(s: State, r: State, b: nat)
    requires |r.ecs.masks| == |s.ecs.masks| && b < |s.ecs.masks|
  {
    && b in s.health && b in s.sprite
    && r.health == s.health[b := BrickHealth(s.health[b].hits - 1)]
    && r.vel == s.vel && r.power == s.power && r.timed == s.timed
    && (s.health[b].hits <= 1 ==>
          && r.sprite == s.sprite[b := Sprite(s.sprite[b].id + 1)]
          && Has(r.ecs, b, R.BreakAnimation)
          && r.anim == (if Has(s.ecs, b, R.BreakAnimation) then s.anim else s.anim[b := BreakAnimation(0.5)]))
    && (s.health[b].hits > 1 ==> r.sprite == s.sprite && r.anim == s.anim)
    && (forall x, c | 0 <= x < |s.ecs.masks| && (x != b || c != R.BreakAnimation) :: Has(r.ecs, x, c) == Has(s.ecs, x, c))
  }

  /** `brick.hits--`, and when no hits are left: advance the sprite id and
      attach `BreakAnimation{0.5}` if the brick has none. */
  function HitBrick(s: State, b: nat): (r: State)
    requires Playable(s) && b < |s.ecs.masks| && Has(s.ecs, b, R.BrickHealth)
    requires b in s.health && s.health[b].hits > 0
    ensures Playable(r) && Frame(s, r) && HitOnce(s, r, b)
  {
    if s.health[b].hits > 1 then Damage(s, b) else Break(s, b)
  }

  /** A hit that leaves hits: only the count drops. */
  function Damage(s: State, b: nat): (r: State)
    requires Playable(s) && b < |s.ecs.masks| && Has(s.ecs, b, R.BrickHealth)
    requires b in s.health && s.health[b].hits > 1
    ensures Playable(r) && Frame(s, r) && HitOnce(s, r, b)
  {
    assert StoredAt(s, b) && Has(s.ecs, b, R.Sprite);
    var r := s.(health := s.health[b := BrickHealth(s.health[b].hits - 1)]);
    Restore(s, r);
    FramePlayable(s, r);
    r
  }

  /** The hit that leaves none: the count drops to zero, the sprite
      advances, and an animation is attached unless one is there. */
  function Break(s: State, b: nat): (r: State)
    requires Playable(s) && b < |s.ecs.masks| && Has(s.ecs, b, R.BrickHealth)
    requires b in s.health && s.health[b].hits == 1
    ensures Playable(r) && Frame(s, r) && HitOnce(s, r, b)
  {
    assert StoredAt(s, b) && Has(s.ecs, b, R.Sprite);
    HasLive(s.ecs, b, R.BrickHealth);
    var r1 := s.(health := s.health[b := BrickHealth(0)]);
    Restore(s, r1);
    var r2 := r1.(sprite := r1.sprite[b := Sprite(r1.sprite[b].id + 1)]);
    Restore(r1, r2);
    var r := if Has(r2.ecs, b, R.BreakAnimation) then r2 else AddAnim(r2, b, BreakAnimation(0.5));
    BreakFacts(s, b, r1, r2, r);
    r
  }

  lemma BreakFacts(s: State, b: nat, r1: State, r2: State, r: State)
    requires Playable(s) && b < |s.ecs.masks| && Has(s.ecs, b, R.BrickHealth)
    requires b in s.health && b in s.sprite && s.health[b].hits == 1 && Live(s.ecs, b)
    requires r1 == s.(health := s.health[b := BrickHealth(0)])
    requires r2 == r1.(sprite := r1.sprite[b := Sprite(r1.sprite[b].id + 1)])
    requires Consistent(r2) && Consistent(r)
    requires Has(r2.ecs, b, R.BreakAnimation) ==> r == r2
    requires !Has(r2.ecs, b, R.BreakAnimation) ==> r == AddAnim(r2, b, BreakAnimation(0.5))
    ensures Playable(r) && Frame(s, r) && HitOnce(s, r, b)
  {
    BrokenAt(s, r2, b);
    if !Has(r2.ecs, b, R.BreakAnimation) {
      AnimFrame(s, r2, r, b);
    }
    FramePlayable(s, r);
  }

  /** The hit that breaks a brick, before any animation is attached. */
  lemma BrokenAt(s: State, r2: State, b: nat)
    requires b < |s.ecs.masks| && b in s.health && b in s.sprite && s.health[b].hits == 1
    requires r2 == s.(health := s.health[b := BrickHealth(0)], sprite := s.sprite[b := Sprite(s.sprite[b].id + 1)])
    ensures Frame(s, r2)
  {
    assert forall e | e in s.sprite && r2.sprite[e] != s.sprite[e] :: e == b;
    assert Broken(s, r2, b);
  }

  /** Attaching a fresh `BreakAnimation` stays within the frame. */
  lemma AnimFrame(s: State, r2: State, r: State, b: nat)
    requires b < |s.ecs.masks| && Frame(s, r2) && r2.ecs == s.ecs
    requires r == r2.(ecs := SetBit(r2.ecs, b, R.BreakAnimation), anim := r2.anim[b := BreakAnimation(0.5)])
    ensures Frame(s, r)
  {
  }

  /** `vel.dy *= -1` on ball `i`. */
  function FlipDy(s: State, i: nat): (r: State)
    requires Playable(s) && i < |s.ecs.masks| && Has(s.ecs, i, R.BallTag)
    ensures Playable(r) && Frame(s, r)
    ensures i in s.vel && r == s.(vel := s.vel[i := FlipY(s.vel[i])])
  {
    assert StoredAt(s, i) && Has(s.ecs, i, R.Velocity);
    var r := s.(vel := s.vel[i := FlipY(s.vel[i])]);
    Restore(s, r);
    FramePlayable(s, r);
    r
  }

  /** `addComponent(e, DestroyedTag{})` inside the pass. */
  function Destroy(s: State, e: nat): (r: State)
    requires Playable(s) && e < |s.ecs.masks| && Has(s.ecs, e, R.Position)
    ensures Playable(r) && Frame(s, r) && r == s.(ecs := r.ecs)
    ensures Has(r.ecs, e, R.DestroyedTag)
    ensures forall x, c | 0 <= x < |s.ecs.masks| && (x != e || c != R.DestroyedTag) :: Has(r.ecs, x, c) == Has(s.ecs, x, c)
  {
    HasLive(s.ecs, e, R.Position);
    var r := Tag(s, e, R.DestroyedTag);
    FramePlayable(s, r);
    r
  }

  /** The paddle loop of a pickup: the first id from `j` on whose mask has
      the `PaddleControl` bit. */
  function FirstPaddle(w: Ecs, j: nat): (r: Option<nat>)
    ensures r.Some? ==> j <= r.value < |w.masks| && Has(w, r.value, R.PaddleControl)
    ensures forall m | j <= m < |w.masks| && (r.None? || m < r.value) :: !Has(w, m, R.PaddleControl)
    decreases |w.masks| - j
  {
    if j >= |w.masks| then None
    else if Has(w, j, R.PaddleControl) then Some(j)
    else FirstPaddle(w, j + 1)
  }

  /** A pickup's grant: the lowest-id paddle gets `PowerUpType{kind}` and
      `TimedEffect{d}`; with no paddle nothing happens. */
  function Grant(s: State, kind: PowerKind, d: real): (r: State)
    requires Playable(s)
    ensures Playable(r) && Frame(s, r)
    ensures r == s.(ecs := r.ecs, power := r.power, timed := r.timed)
    ensures FirstPaddle(s.ecs, 0).None? ==> r == s
    ensures FirstPaddle(s.ecs, 0).Some? ==> var p := FirstPaddle(s.ecs, 0).value;
              && r.power == s.power[p := PowerUpType(kind)] && r.timed == s.timed[p := TimedEffect(d)]
              && Has(r.ecs, p, R.PowerUpType) && Has(r.ecs, p, R.TimedEffect)
  {
    match FirstPaddle(s.ecs, 0)
    case None => s
    case Some(p) =>
      HasLive(s.ecs, p, R.PaddleControl);
      var r := AddPower(s, p, kind, d);
      assert Frame(s, r);
      FramePlayable(s, r);
      r
  }

  /** A pickup: grant the power, tag the pickup `DestroyedTag`, flip the
      ball's `dy`. */
  function Pickup(s: State, i: nat, j: nat, kind: PowerKind, d: real): (r: State)
    requires Playable(s) && i < |s.ecs.masks| && j < |s.ecs.masks|
    requires Has(s.ecs, i, R.BallTag) && Has(s.ecs, j, R.Position)
    ensures Playable(r) && Frame(s, r)
  {
    var s1 := Grant(s, kind, d);
    var s2 := Destroy(s1, j);
    var r := FlipDy(s2, i);
    FrameTrans(s, s1, s2);
    FrameTrans(s, s2, r);
    r
  }

  /** Which loop handles an entity: the laser loop or the ball loop. */
  datatype Shooter = Laser | Ball

  function ShooterTag(b: Shooter): R.ComponentType {
    match b
    case Laser => R.LaserTag
    case Ball => R.BallTag
  }

  /** Partner `j` ends shooter `i`'s scan: no `continue` of that scan's
      loop body applies to it. */
  predicate Target(s: State, b: Shooter, i: nat, j: nat)
    requires Stored(s) && i < |s.ecs.masks| && j < |s.ecs.masks|
  {
    assert StoredAt(s, j);
    match b
    case Laser =>
      && i != j && Collidable(s, j) && Has(s.ecs, j, R.BrickHealth) && !Has(s.ecs, j, R.DestroyedTag)
      && Overlap(s, i, j) && s.health[j].hits > 0
    case Ball =>
      && i != j && Collidable(s, j) && !Has(s.ecs, j, R.DestroyedTag) && Overlap(s, i, j)
      && if Has(s.ecs, j, R.BrickHealth) then s.health[j].hits > 0
         else Has(s.ecs, j, R.PaddleControl) || Has(s.ecs, j, R.FloorTag)
              || Has(s.ecs, j, R.StarPowerTag) || Has(s.ecs, j, R.HeartPowerTag)
  }

  /** A ball's reaction to partner `j`, tried in the source's order: brick,
      paddle, floor, star, heart. */
  function BallReact(s: State, i: nat, j: nat): (r: State)
    requires Playable(s) && i < |s.ecs.masks| && j < |s.ecs.masks| && Has(s.ecs, i, R.BallTag)
    requires Target(s, Ball, i, j)
    ensures Playable(r) && Frame(s, r)
  {
    MatchesBoth(s.ecs, j, R.Position, R.Collider);
    assert StoredAt(s, j);
    if Has(s.ecs, j, R.BrickHealth) then BounceOffBrick(s, i, j)
    else if Has(s.ecs, j, R.PaddleControl) then FlipDy(s, i)
    else if Has(s.ecs, j, R.FloorTag) then FloorKill(s, i)
    else if Has(s.ecs, j, R.StarPowerTag) then Pickup(s, i, j, ShootingLaser, 0.8)
    else Pickup(s, i, j, WidePaddle, 2.0)
  }

  /** Ball `i` reaches the floor: it is tagged `DestroyedTag` (a tag
      already there is left as it is). */
  function FloorKill(s: State, i: nat): (r: State)
    requires Playable(s) && i < |s.ecs.masks| && Has(s.ecs, i, R.Position)
    ensures Playable(r) && Frame(s, r)
  {
    if Has(s.ecs, i, R.DestroyedTag) then FrameRefl(s); s else Destroy(s, i)
  }

  /** Ball `i` hits brick `j`: the brick takes the hit, the ball's `dy`
      flips. */
  function BounceOffBrick(s: State, i: nat, j: nat): (r: State)
    requires Playable(s) && i < |s.ecs.masks| && j < |s.ecs.masks| && Has(s.ecs, i, R.BallTag)
    requires Has(s.ecs, j, R.BrickHealth) && j in s.health && s.health[j].hits > 0
    ensures Playable(r) && Frame(s, r)
  {
    var s1 := HitBrick(s, j);
    var r := FlipDy(s1, i);
    FrameTrans(s, s1, r);
    r
  }

  /** The reaction that ends a scan. */
  function React(s: State, b: Shooter, i: nat, j: nat): (r: State)
    requires Playable(s) && i < |s.ecs.masks| && j < |s.ecs.masks| && Has(s.ecs, i, ShooterTag(b))
    requires Target(s, b, i, j)
    ensures Playable(r) && Frame(s, r)
  {
    assert StoredAt(s, j);
    match b
    case Laser => HitBrick(s, j)
    case Ball => BallReact(s, i, j)
  }

  /** The inner loop of shooter `i` from `id2 = j`. Every `continue` of its
      body leaves the state as it is, so the loop is a search for the first
      id no `continue` applies to: the lowest target at or after `j`, or
      none. */
  function FirstTarget(s: State, b: Shooter, i: nat, j: nat): (r: Option<nat>)
    requires Stored(s) && i < |s.ecs.masks|
    ensures r.Some? ==> j <= r.value < |s.ecs.masks| && Target(s, b, i, r.value)
    ensures forall m | j <= m < |s.ecs.masks| && (r.None? || m < r.value) :: !Target(s, b, i, m)
    decreases |s.ecs.masks| - j
  {
    if j >= |s.ecs.masks| then None
    else if Target(s, b, i, j) then Some(j)
    else FirstTarget(s, b, i, j + 1)
  }

  /** The whole inner loop: react to the first target and `break`, or run
      off the end changing nothing. */
  function Scan(s: State, b: Shooter, i: nat): (r: State)
    requires Playable(s) && i < |s.ecs.masks| && Has(s.ecs, i, ShooterTag(b))
    ensures Playable(r) && Frame(s, r)
  {
    match FirstTarget(s, b, i, 0)
    case None => FrameRefl(s); s
    case Some(k) => React(s, b, i, k)
  }

  /** The target the scan reacts to is the lowest one. */
  lemma FirstTargetIsLowest(s: State, b: Shooter, i: nat, k: nat)
    requires Stored(s) && i < |s.ecs.masks|
    requires k < |s.ecs.masks| && Target(s, b, i, k)
    requires forall m | 0 <= m < k :: !Target(s, b, i, m)
    ensures FirstTarget(s, b, i, 0) == Some(k)
  {
  }

  /** With no target the scan finds none. */
  lemma FirstTargetNone(s: State, b: Shooter, i: nat)
    requires Stored(s) && i < |s.ecs.masks|
    requires forall m | 0 <= m < |s.ecs.masks| :: !Target(s, b, i, m)
    ensures FirstTarget(s, b, i, 0) == None
  {
  }

  /** One iteration of the outer loop, `id1 = i`: an id with Position and
      Collider runs the laser scan if it holds `LaserTag`, else the ball
      scan if it holds `BallTag`; anything else changes nothing. The pass
      is defined on every state; on one that is not `Playable` (the game
      never builds one) it changes nothing. */
  function Visit(s: State, i: nat): (r: State)
    ensures |r.ecs.masks| == |s.ecs.masks|
  {
    if i < |s.ecs.masks| && Playable(s) && Collidable(s, i) then
      if Has(s.ecs, i, R.LaserTag) then Scan(s, Laser, i)
      else if Has(s.ecs, i, R.BallTag) then Scan(s, Ball, i)
      else s
    else s
  }

  lemma VisitKeeps(s: State, i: nat)
    ensures Frame(s, Visit(s, i))
    ensures Playable(s) ==> Playable(Visit(s, i))
  {
    FrameRefl(s);
  }

  /** The outer loop from `id1 = i` to `maxId`. */
  function Outer(s: State, i: nat): (r: State)
    ensures |r.ecs.masks| == |s.ecs.masks|
    decreases |s.ecs.masks| - i
  {
    if i >= |s.ecs.masks| then s else Outer(Visit(s, i), i + 1)
  }

  lemma {:induction false} OuterKeeps(s: State, i: nat)
    ensures Frame(s, Outer(s, i))
    ensures Playable(s) ==> Playable(Outer(s, i))
    decreases |s.ecs.masks| - i
  {
    if i < |s.ecs.masks| {
      var s1 := Visit(s, i);
      VisitKeeps(s, i);
      OuterKeeps(s1, i + 1);
      FrameTrans(s, s1, Outer(s1, i + 1));
    } else {
      FrameRefl(s);
    }
  }

  /** `CollisionSystem()`: one pass over all ids, within the frame. */
  function CollisionSystem(s: State): (r: State)
    requires Playable(s)
    ensures Playable(r) && Frame(s, r)
  {
    OuterKeeps(s, 0);
    Outer(s, 0)
  }

  /** Over a whole pass no brick gains hits, no brick with hits left drops
      below zero, and no entity is created. */
  lemma HitsStayNonNegative(s: State)
    requires Playable(s)
    ensures var r := CollisionSystem(s);
            && |r.ecs.masks| == |s.ecs.masks| && r.health.Keys == s.health.Keys
            && forall e | e in s.health ::
                 r.health[e].hits <= s.health[e].hits && (s.health[e].hits >= 0 ==> r.health[e].hits >= 0)
  {
  }

  // ---------------------------------------------------------------------
  // What one visit does.

  /** A laser damages exactly the lowest undestroyed overlapping brick with
      hits left, by one hit, and never runs the ball branch: no velocity
      changes. */
  lemma LaserHitsFirst(s: State, i: nat, k: nat)
    requires Playable(s) && i < |s.ecs.masks| && Collidable(s, i) && Has(s.ecs, i, R.LaserTag)
    requires k < |s.ecs.masks| && Target(s, Laser, i, k)
    requires forall m | 0 <= m < k :: !Target(s, Laser, i, m)
    ensures !Has(s.ecs, k, R.DestroyedTag) && k in s.health && s.health[k].hits > 0
    ensures Visit(s, i) == HitBrick(s, k) && HitOnce(s, Visit(s, i), k)
    ensures Visit(s, i).vel == s.vel
  {
    assert StoredAt(s, k);
    FirstTargetIsLowest(s, Laser, i, k);
  }

  /** A laser with no such brick changes nothing. */
  lemma LaserMisses(s: State, i: nat)
    requires Playable(s) && i < |s.ecs.masks| && Collidable(s, i) && Has(s.ecs, i, R.LaserTag)
    requires forall m | 0 <= m < |s.ecs.masks| :: !Target(s, Laser, i, m)
    ensures Visit(s, i) == s
  {
    FirstTargetNone(s, Laser, i);
  }

  /** A ball (that is not also a laser) reacts to exactly its lowest
      target. */
  lemma BallHitsFirst(s: State, i: nat, k: nat)
    requires Playable(s) && i < |s.ecs.masks| && Collidable(s, i)
    requires Has(s.ecs, i, R.BallTag) && !Has(s.ecs, i, R.LaserTag)
    requires k < |s.ecs.masks| && Target(s, Ball, i, k)
    requires forall m | 0 <= m < k :: !Target(s, Ball, i, m)
    ensures Visit(s, i) == BallReact(s, i, k)
  {
    FirstTargetIsLowest(s, Ball, i, k);
  }

  /** A ball with no target changes nothing. */
  lemma BallMisses(s: State, i: nat)
    requires Playable(s) && i < |s.ecs.masks| && Collidable(s, i)
    requires Has(s.ecs, i, R.BallTag) && !Has(s.ecs, i, R.LaserTag)
    requires forall m | 0 <= m < |s.ecs.masks| :: !Target(s, Ball, i, m)
    ensures Visit(s, i) == s
  {
    FirstTargetNone(s, Ball, i);
  }

  /** An id without Position and Collider, or with neither `LaserTag` nor
      `BallTag`, changes nothing. */
  lemma OthersIdle(s: State, i: nat)
    requires Playable(s) && i < |s.ecs.masks|
    requires !Collidable(s, i) || (!Has(s.ecs, i, R.LaserTag) && !Has(s.ecs, i, R.BallTag))
    ensures Visit(s, i) == s
  {
  }

  /** What each of a ball's reactions does. A brick loses one hit as
      `HitOnce` says and the ball's `dy` is negated; a paddle negates the
      ball's `dy` and changes nothing else; the floor tags the ball
      `DestroyedTag` and changes nothing else; a star or a heart grants its
      power to the lowest-id paddle, is tagged `DestroyedTag`, and negates
      the ball's `dy`. Every reaction negates `dy` at most once and leaves
      `dx` as it was. */
  lemma BallReactCases(s: State, i: nat, j: nat)
    requires Playable(s) && i < |s.ecs.masks| && j < |s.ecs.masks| && Has(s.ecs, i, R.BallTag)
    requires Target(s, Ball, i, j)
    ensures i in s.vel
    ensures var r := BallReact(s, i, j);
            && (Has(s.ecs, j, R.BrickHealth) ==>
                  && j in s.health && s.health[j].hits > 0
                  && r.vel == s.vel[i := FlipY(s.vel[i])] && HitOnce(s, r.(vel := s.vel), j))
            && (!Has(s.ecs, j, R.BrickHealth) && Has(s.ecs, j, R.PaddleControl) ==>
                  r == s.(vel := s.vel[i := FlipY(s.vel[i])]))
            && (!Has(s.ecs, j, R.BrickHealth) && !Has(s.ecs, j, R.PaddleControl) && Has(s.ecs, j, R.FloorTag) ==>
                  && r == s.(ecs := r.ecs) && Has(r.ecs, i, R.DestroyedTag)
                  && forall x, c | 0 <= x < |s.ecs.masks| && (x != i || c != R.DestroyedTag) :: Has(r.ecs, x, c) == Has(s.ecs, x, c))
            && (!Has(s.ecs, j, R.BrickHealth) && !Has(s.ecs, j, R.PaddleControl) && !Has(s.ecs, j, R.FloorTag) ==>
                  PickedUp(s, r, i, j, if Has(s.ecs, j, R.StarPowerTag) then ShootingLaser else WidePaddle,
                           if Has(s.ecs, j, R.StarPowerTag) then 0.8 else 2.0))
  {
    assert StoredAt(s, i) && Has(s.ecs, i, R.Velocity);
    if Has(s.ecs, j, R.BrickHealth) {
      BrickReact(s, i, j);
    } else if Has(s.ecs, j, R.PaddleControl) {
      PaddleReact(s, i, j);
    } else if Has(s.ecs, j, R.FloorTag) {
      FloorReact(s, i, j);
    } else {
      PickupReact(s, i, j);
    }
  }

  lemma BrickReact(s: State, i: nat, j: nat)
    requires Playable(s) && i < |s.ecs.masks| && j < |s.ecs.masks| && Has(s.ecs, i, R.BallTag)
    requires Target(s, Ball, i, j) && Has(s.ecs, j, R.BrickHealth) && i in s.vel
    ensures var r := BallReact(s, i, j);
            && j in s.health && s.health[j].hits > 0
            && r.vel == s.vel[i := FlipY(s.vel[i])] && HitOnce(s, r.(vel := s.vel), j)
  {
    assert StoredAt(s, j);
    var s1 := HitBrick(s, j);
    assert BallReact(s, i, j) == BounceOffBrick(s, i, j) == FlipDy(s1, i);
  }

  lemma PaddleReact(s: State, i: nat, j: nat)
    requires Playable(s) && i < |s.ecs.masks| && j < |s.ecs.masks| && Has(s.ecs, i, R.BallTag)
    requires Target(s, Ball, i, j) && !Has(s.ecs, j, R.BrickHealth) && Has(s.ecs, j, R.PaddleControl) && i in s.vel
    ensures BallReact(s, i, j) == s.(vel := s.vel[i := FlipY(s.vel[i])])
  {
    assert BallReact(s, i, j) == FlipDy(s, i);
  }

  lemma FloorReact(s: State, i: nat, j: nat)
    requires Playable(s) && i < |s.ecs.masks| && j < |s.ecs.masks| && Has(s.ecs, i, R.BallTag)
    requires Target(s, Ball, i, j) && !Has(s.ecs, j, R.BrickHealth) && !Has(s.ecs, j, R.PaddleControl)
    requires Has(s.ecs, j, R.FloorTag)
    ensures var r := BallReact(s, i, j);
            && r == s.(ecs := r.ecs) && Has(r.ecs, i, R.DestroyedTag)
            && forall x, c | 0 <= x < |s.ecs.masks| && (x != i || c != R.DestroyedTag) :: Has(r.ecs, x, c) == Has(s.ecs, x, c)
  {
    MatchesBoth(s.ecs, i, R.Position, R.Collider);
    assert BallReact(s, i, j) == FloorKill(s, i);
    if !Has(s.ecs, i, R.DestroyedTag) {
      assert FloorKill(s, i) == Destroy(s, i);
    }
  }

  lemma PickupReact(s: State, i: nat, j: nat)
    requires Playable(s) && i < |s.ecs.masks| && j < |s.ecs.masks| && Has(s.ecs, i, R.BallTag)
    requires Target(s, Ball, i, j) && !Has(s.ecs, j, R.BrickHealth) && !Has(s.ecs, j, R.PaddleControl)
    requires !Has(s.ecs, j, R.FloorTag) && i in s.vel
    ensures PickedUp(s, BallReact(s, i, j), i, j, if Has(s.ecs, j, R.StarPowerTag) then ShootingLaser else WidePaddle,
                     if Has(s.ecs, j, R.StarPowerTag) then 0.8 else 2.0)
  {
    MatchesBoth(s.ecs, j, R.Position, R.Collider);
    if Has(s.ecs, j, R.StarPowerTag) {
      PickupFacts(s, i, j, ShootingLaser, 0.8);
      assert BallReact(s, i, j) == Pickup(s, i, j, ShootingLaser, 0.8);
    } else {
      PickupFacts(s, i, j, WidePaddle, 2.0);
      assert BallReact(s, i, j) == Pickup(s, i, j, WidePaddle, 2.0);
    }
  }

  /** The pickup `j` is tagged `DestroyedTag`, the ball's `dy` is negated,
      and the lowest-id paddle, if there is one, holds the power `kind` for
      `d` seconds; nothing else changed. */
  predicate PickedUp(s: State, r: State, i: nat, j: nat, kind: PowerKind, d: real)
    requires i < |s.ecs.masks| && j < |s.ecs.masks| && i in s.vel
  {
    && |r.ecs.masks| == |s.ecs.masks| && Has(r.ecs, j, R.DestroyedTag)
    && r.vel == s.vel[i := FlipY(s.vel[i])]
    && r == s.(ecs := r.ecs, vel := r.vel, power := r.power, timed := r.timed)
    && (FirstPaddle(s.ecs, 0).None? ==> r.power == s.power && r.timed == s.timed)
    && (FirstPaddle(s.ecs, 0).Some? ==> var p := FirstPaddle(s.ecs, 0).value;
          && r.power == s.power[p := PowerUpType(kind)] && r.timed == s.timed[p := TimedEffect(d)]
          && Has(r.ecs, p, R.PowerUpType) && Has(r.ecs, p, R.TimedEffect))
  }

  lemma PickupFacts(s: State, i: nat, j: nat, kind: PowerKind, d: real)
    requires Playable(s) && i < |s.ecs.masks| && j < |s.ecs.masks|
    requires Has(s.ecs, i, R.BallTag) && Has(s.ecs, j, R.Position) && i in s.vel
    ensures PickedUp(s, Pickup(s, i, j, kind, d), i, j, kind, d)
  {
    var s1 := Grant(s, kind, d);
    var s2 := Destroy(s1, j);
    assert s2.vel == s.vel;
  }
}

=== FILE: box_destroy.dfy ===
/** `DestroySystem` of the axis-aligned-box variant.

    The first loop collects, in id order, every entity whose mask has
    `DestroyedTag`. The second clears each collected mask bit by bit: it
    asks `mask.ctz()` for the lowest set bit and clears it until none is
    left. The id is not handed back to the free bag and no stored value is
    erased, so a destroyed entity stays live with an empty mask and its
    id is never reused.

    `Mask::ctz` and `World::maskMutable` are not declared in the `bagel.h`
    this model follows; `Ctz` is the count of trailing zero bits, `-1` on
    an empty mask, which is what the loop's `bitIndex >= 0` test needs. */
module BoxDestroy {
  import opened Masks
  import R = Registry
  import opened World
  import opened BoxWorld

  /** Number of set bits. */
  function Ones(m: seq<bool>): nat {
    if |m| == 0 then 0 else (if m[0] then 1 else 0) + Ones(m[1..])
  }

  /** Clearing a set bit takes one off the count. */
  lemma {:induction false} OnesClear(m: seq<bool>, k: nat)
    requires k < |m| && m[k]
    ensures Ones(m[k := false]) + 1 == Ones(m)
  {
    if k == 0 {
      assert m[k := false][1..] == m[1..];
    } else {
      assert m[k := false][1..] == m[1..][k - 1 := false];
      OnesClear(m[1..], k - 1);
    }
  }

  /** `Mask::ctz()` from bit `i` up. */
  function CtzFrom(m: Word, i: nat): (k: int)
    requires i <= BitsetWidth
    ensures k == -1 || i <= k < BitsetWidth
    ensures k >= 0 ==> m[k] && forall j | i <= j < k :: !m[j]
    ensures k == -1 ==> forall j | i <= j < BitsetWidth :: !m[j]
    decreases BitsetWidth - i
  {
    if i == BitsetWidth then -1
    else if m[i] then i
    else CtzFrom(m, i + 1)
  }

  /** `Mask::ctz()`: the index of the lowest set bit, `-1` for an empty
      mask. */
  function Ctz(m: Word): (k: int)
    ensures -1 <= k < BitsetWidth
    ensures k >= 0 ==> m[k] && forall j | 0 <= j < k :: !m[j]
    ensures k == -1 <==> m == Zero()
  {
    var k := CtzFrom(m, 0);
    ZeroIff(m);
    k
  }

  /** The inner loop: `bitIndex = mask.ctz(); while (bitIndex >= 0) {
      mask.clear(Mask::bit(bitIndex)); bitIndex = mask.ctz(); }`. It ends,
      since every round clears one set bit, with the mask empty. */
  method ClearAll(m: Word) returns (r: Word)
    ensures r == Zero()
  {
    r := m;
    var bitIndex := Ctz(r);
    while bitIndex >= 0
      invariant bitIndex == Ctz(r)
      decreases Ones(r)
    {
      var next := Clear(r, Bit(bitIndex));
      assert next == r[bitIndex := false];
      OnesClear(r, bitIndex);
      r := next;
      bitIndex := Ctz(r);
    }
  }

  /** A tagged entity's mask is emptied; any other mask is kept. */
  predicate Cleared(w: Ecs, masks: seq<Word>) {
    && |masks| == |w.masks|
    && forall e | 0 <= e < |w.masks| ::
         masks[e] == (if Has(w, e, R.DestroyedTag) then Zero() else w.masks[e])
  }

  /** The second loop: `for (auto ent : toDestroy)` empties `ent`'s mask. */
  method ClearEach(masks: seq<Word>, toDestroy: seq<nat>) returns (r: seq<Word>)
    requires forall k | 0 <= k < |toDestroy| :: toDestroy[k] < |masks|
    ensures |r| == |masks|
    ensures forall e | 0 <= e < |masks| :: r[e] == (if e in toDestroy then Zero() else masks[e])
  {
    r := masks;
    var k := 0;
    while k < |toDestroy|
      invariant 0 <= k <= |toDestroy| && |r| == |masks|
      invariant forall e | 0 <= e < |masks| ::
                  r[e] == (if e in toDestroy[..k] then Zero() else masks[e])
    {
      var ent := toDestroy[k];
      var m := ClearAll(r[ent]);
      r := r[ent := m];
      assert toDestroy[..k + 1] == toDestroy[..k] + [ent];
      k := k + 1;
    }
    assert toDestroy[..k] == toDestroy;
  }

  /** Both loops of the system, on the mask table alone. */
  method ClearTagged(w: Ecs) returns (masks: seq<Word>)
    requires Sized(w)
    ensures Cleared(w, masks)
  {
    var toDestroy := Query(w, R.MaskOf([R.DestroyedTag]));
    masks := ClearEach(w.masks, toDestroy);
    forall e | 0 <= e < |w.masks|
      ensures e in toDestroy <==> Has(w, e, R.DestroyedTag)
    {
      QuerySelects(w, [R.DestroyedTag], e);
    }
  }

  /** Emptying masks keeps the state consistent, and playable if it was:
      every bit left was there before. */
  lemma ClearedKeeps(s: State, masks: seq<Word>)
    requires Consistent(s) && Cleared(s.ecs, masks)
    ensures var r := s.(ecs := s.ecs.(masks := masks));
            Consistent(r) && (Playable(s) ==> Playable(r))
  {
    var r := s.(ecs := s.ecs.(masks := masks));
    assert forall e, c | 0 <= e < |masks| && Has(r.ecs, e, c) :: Has(s.ecs, e, c);
    assert Stored(r) by {
      forall e | 0 <= e < |masks|
        ensures StoredAt(r, e)
      {
        assert StoredAt(s, e);
      }
    }
  }

  /** `DestroySystem()`. Exactly the tagged entities lose every mask bit;
      all other masks, the free bag, `maxId` and every stored value stay as
      they were. The state stays consistent, and playable if it was. */
  method DestroySystem(s: State) returns (r: State)
    requires Consistent(s)
    ensures Consistent(r) && r == s.(ecs := r.ecs)
    ensures r.ecs.free == s.ecs.free && r.ecs.maxId == s.ecs.maxId
    ensures Cleared(s.ecs, r.ecs.masks)
    ensures Playable(s) ==> Playable(r)
  {
    var masks := ClearTagged(s.ecs);
    ClearedKeeps(s, masks);
    r := s.(ecs := s.ecs.(masks := masks));
  }

  /** A destroyed entity stays live and is not handed out again: the next
      `createEntity` after the system returns a different id. */
  lemma DestroyedNotReused(s: State, r: State, e: nat)
    requires Consistent(s) && Consistent(r) && e < |s.ecs.masks| && Has(s.ecs, e, R.DestroyedTag)
    requires r.ecs.free == s.ecs.free && |r.ecs.masks| == |s.ecs.masks|
    ensures Live(r.ecs, e) && CreateEntity(r.ecs).1 != e
  {
    HasLive(s.ecs, e, R.DestroyedTag);
  }
}

=== FILE: box_grid.dfy ===
/** `CreateBrickGrid(rows, cols, health)` of the axis-aligned-box variant.

    Cells are 120 × 40 with a gap of 5 both ways; the row is centred on
    the 800-wide screen and the first row is at y = 80. Row `row` takes
    the brick colour `2 + (row % 4) * 2` (blue, purple, yellow, orange).
    The cell in the middle column (`cols / 2`) of row 2 gets a star and
    that of row 3 a heart instead of a brick.

    The source returns nothing; the model also returns, row by row, the
    ids the loop created, so that the layout can be stated. */
module BoxGrid {
  import opened World
  import opened Components
  import opened BoxWorld
  import BoxCollision

  const BrickW: real := 120.0
  const BrickH: real := 40.0
  const SpacingX: real := 5.0
  const SpacingY: real := 5.0
  const StartY: real := 80.0

  /** `startX = (800 - totalWidth) / 2`, `totalWidth = cols·brickW +
      (cols − 1)·spacingX`. */
  function StartX(cols: int): real {
    (800.0 - (cols as real * BrickW + (cols - 1) as real * SpacingX)) / 2.0
  }

  function CellX(cols: int, col: nat): real {
    StartX(cols) + col as real * (BrickW + SpacingX)
  }

  function CellY(row: nat): real {
    StartY + row as real * (BrickH + SpacingY)
  }

  /** `2 + (row % 4) * 2`: the row's brick sprite. */
  function BrickColor(row: nat): (k: int)
    ensures k in {SpriteBrickBlue, SpriteBrickPurple, SpriteBrickYellow, SpriteBrickOrange}
  {
    2 + (row % 4) * 2
  }

  predicate IsStarCell(cols: int, row: nat, col: nat) {
    row == 2 && col == cols / 2
  }

  predicate IsHeartCell(cols: int, row: nat, col: nat) {
    row == 3 && col == cols / 2
  }

  /** Entity `e` of `r` is what the loop puts in cell (`row`, `col`): a
      star, a heart, or a brick of the row's colour with `health` hits, at
      the cell's top-left corner and with nothing but that bundle. */
  predicate Placed(r: State, e: nat, cols: int, health: int, row: nat, col: nat) {
    && Live(r.ecs, e)
    && e in r.pos && e in r.sprite && e in r.col
    && r.pos[e] == Position(CellX(cols, col), CellY(row))
    && (if IsStarCell(cols, row, col) then
          Bundle(r, e, StarBundle) && r.sprite[e] == Sprite(SpriteStar) && r.col[e] == Collider(58.8, 51.1)
        else if IsHeartCell(cols, row, col) then
          Bundle(r, e, HeartBundle) && r.sprite[e] == Sprite(SpriteHeart) && r.col[e] == Collider(58.8, 51.1)
        else
          && Bundle(r, e, BrickBundle) && r.sprite[e] == Sprite(BrickColor(row))
          && r.col[e] == Collider(119.7, 41.3)
          && e in r.health && r.health[e] == BrickHealth(health))
  }

  /** One pass of the inner loop's body. */
  function PlaceCell(s: State, cols: int, health: int, row: nat, col: nat): (r: (State, nat))
    requires Consistent(s)
    ensures Created(s, r.0, r.1) && Consistent(r.0)
    ensures Placed(r.0, r.1, cols, health, row, col)
    ensures Playable(s) ==> Playable(r.0)
  {
    var x, y := CellX(cols, col), CellY(row);
    if IsStarCell(cols, row, col) then CreateStar(s, x, y)
    else if IsHeartCell(cols, row, col) then CreateHeart(s, x, y)
    else CreateBrick(s, health, BrickColor(row), x, y)
  }

  /** The inner loop from column `col` on. */
  function RowFrom(s: State, cols: int, health: int, row: nat, col: nat): (r: (State, seq<nat>))
    requires Consistent(s)
    ensures Consistent(r.0)
    ensures |r.1| == if col < cols then cols - col else 0
    decreases cols - col
  {
    if col >= cols then (s, [])
    else
      var (t, e) := PlaceCell(s, cols, health, row, col);
      var (u, ids) := RowFrom(t, cols, health, row, col + 1);
      (u, [e] + ids)
  }

  /** The outer loop from row `row` on. */
  function RowsFrom(s: State, rows: int, cols: int, health: int, row: nat): (r: (State, seq<seq<nat>>))
    requires Consistent(s)
    ensures Consistent(r.0)
    ensures |r.1| == if row < rows then rows - row else 0
    decreases rows - row
  {
    if row >= rows then (s, [])
    else
      var (t, ids) := RowFrom(s, cols, health, row, 0);
      var (u, grid) := RowsFrom(t, rows, cols, health, row + 1);
      (u, [ids] + grid)
  }

  /** `CreateBrickGrid(rows, cols, health)`. */
  function CreateBrickGrid(s: State, rows: int, cols: int, health: int): (r: (State, seq<seq<nat>>))
    requires Consistent(s)
    ensures Consistent(r.0)
    ensures |r.1| == if rows > 0 then rows else 0
  {
    RowsFrom(s, rows, cols, health, 0)
  }

  // ---------------------------------------------------------------------
  // What the grid contains.

  /** Entity `x` has the same mask and the same stored values in `s` and
      `r`. */
  predicate SameEntity(s: State, r: State, x: nat) {
    && x < |s.ecs.masks| && x < |r.ecs.masks| && r.ecs.masks[x] == s.ecs.masks[x]
    && Same(s.pos, r.pos, x) && Same(s.vel, r.vel, x) && Same(s.sprite, r.sprite, x)
    && Same(s.col, r.col, x) && Same(s.health, r.health, x) && Same(s.paddle, r.paddle, x)
    && Same(s.power, r.power, x) && Same(s.timed, r.timed, x) && Same(s.anim, r.anim, x)
  }

  predicate Same<T(==)>(a: map<nat, T>, b: map<nat, T>, x: nat) {
    (x in a <==> x in b) && (x in a ==> a[x] == b[x])
  }

  /** Every entity live in `s` is still live in `r` and unchanged. */
  predicate Keeps(s: State, r: State) {
    forall x | 0 <= x < |s.ecs.masks| && Live(s.ecs, x) :: Live(r.ecs, x) && SameEntity(s, r, x)
  }

  lemma CreatedKeeps(s: State, r: State, e: nat)
    requires Created(s, r, e)
    ensures Keeps(s, r)
  {
  }

  /** A placed entity stays placed while nothing live changes. */
  lemma PlacedKept(s: State, r: State, e: nat, cols: int, health: int, row: nat, col: nat)
    requires Placed(s, e, cols, health, row, col) && Keeps(s, r)
    ensures Placed(r, e, cols, health, row, col)
  {
    assert Live(r.ecs, e) && SameEntity(s, r, e);
    assert forall c :: Has(r.ecs, e, c) == Has(s.ecs, e, c);
  }

  /** `ids[j]` holds cell (`row`, `col + j`) of `r`; the ids are new in `s`
      and distinct; nothing live in `s` changes; a playable state stays
      playable. */
  predicate RowOk(s: State, r: State, ids: seq<nat>, cols: int, health: int, row: nat, col: nat) {
    && Keeps(s, r)
    && (forall j | 0 <= j < |ids| :: Placed(r, ids[j], cols, health, row, col + j))
    && (forall j | 0 <= j < |ids| :: !Live(s.ecs, ids[j]))
    && (forall j, k | 0 <= j < k < |ids| :: ids[j] != ids[k])
    && (Playable(s) ==> Playable(r))
  }

  lemma KeepsRefl(s: State)
    ensures Keeps(s, s)
  {
  }

  lemma KeepsTrans(s: State, t: State, u: State)
    requires Keeps(s, t) && Keeps(t, u)
    ensures Keeps(s, u)
  {
    forall x | 0 <= x < |s.ecs.masks| && Live(s.ecs, x)
      ensures Live(u.ecs, x) && SameEntity(s, u, x)
    {
      assert Live(t.ecs, x) && SameEntity(s, t, x);
      assert Live(u.ecs, x) && SameEntity(t, u, x);
    }
  }

  /** One more cell in front of a finished rest of the row. */
  lemma ConsRow(s: State, t: State, e: nat, u: State, ids: seq<nat>, cols: int, health: int, row: nat, col: nat)
    requires Created(s, t, e) && Placed(t, e, cols, health, row, col) && (Playable(s) ==> Playable(t))
    requires RowOk(t, u, ids, cols, health, row, col + 1)
    ensures RowOk(s, u, [e] + ids, cols, health, row, col)
  {
    CreatedKeeps(s, t, e);
    PlacedKept(t, u, e, cols, health, row, col);
    KeepsTrans(s, t, u);
    var all := [e] + ids;
    forall j | 0 < j < |all|
      ensures Placed(u, all[j], cols, health, row, col + j) && !Live(s.ecs, all[j])
    {
      assert all[j] == ids[j - 1];
      assert !Live(t.ecs, ids[j - 1]);
    }
    forall j, k | 0 <= j < k < |all|
      ensures all[j] != all[k]
    {
      if j == 0 {
        assert Live(t.ecs, e) && !Live(t.ecs, ids[k - 1]);
      } else {
        assert all[j] == ids[j - 1] && all[k] == ids[k - 1];
      }
    }
  }

  /** The inner loop from column `col` on fills its part of the row. */
  lemma {:induction false} RowPlaced(s: State, cols: int, health: int, row: nat, col: nat)
    requires Consistent(s)
    ensures RowOk(s, RowFrom(s, cols, health, row, col).0, RowFrom(s, cols, health, row, col).1, cols, health, row, col)
    decreases cols - col
  {
    if col < cols {
      var (t, e) := PlaceCell(s, cols, health, row, col);
      RowPlaced(t, cols, health, row, col + 1);
      var (u, ids) := RowFrom(t, cols, health, row, col + 1);
      ConsRow(s, t, e, u, ids, cols, health, row, col);
    } else {
      KeepsRefl(s);
    }
  }

  /** `grid[i][j]` holds cell (`row + i`, `j`) of `r`, every row has
      `cols` entries (none if `cols <= 0`), all ids are new in `s` and
      distinct, nothing live in `s` changes, a playable state stays
      playable. */
  predicate GridOk(s: State, r: State, grid: seq<seq<nat>>, cols: int, health: int, row: nat) {
    && Keeps(s, r)
    && (forall i | 0 <= i < |grid| :: |grid[i]| == if cols > 0 then cols else 0)
    && (forall i, j | 0 <= i < |grid| && 0 <= j < |grid[i]| ::
          Placed(r, grid[i][j], cols, health, row + i, j) && !Live(s.ecs, grid[i][j]))
    && (forall i, j, k, l | 0 <= i < |grid| && 0 <= j < |grid[i]| && 0 <= k < |grid| && 0 <= l < |grid[k]|
          && (i, j) != (k, l) :: grid[i][j] != grid[k][l])
    && (Playable(s) ==> Playable(r))
  }

  /** One more row in front of the finished rows below it. */
  lemma ConsGrid(s: State, t: State, ids: seq<nat>, u: State, grid: seq<seq<nat>>, cols: int, health: int, row: nat)
    requires RowOk(s, t, ids, cols, health, row, 0) && |ids| == (if cols > 0 then cols else 0)
    requires GridOk(t, u, grid, cols, health, row + 1)
    ensures GridOk(s, u, [ids] + grid, cols, health, row)
  {
    KeepsTrans(s, t, u);
    ConsPlaced(s, t, ids, u, grid, cols, health, row);
    ConsDistinct(t, ids, grid);
  }

  /** Where the cells of the new row and of the rows below it are. */
  lemma ConsPlaced(s: State, t: State, ids: seq<nat>, u: State, grid: seq<seq<nat>>, cols: int, health: int, row: nat)
    requires RowOk(s, t, ids, cols, health, row, 0)
    requires GridOk(t, u, grid, cols, health, row + 1)
    ensures var all := [ids] + grid;
            forall i, j | 0 <= i < |all| && 0 <= j < |all[i]| ::
              Placed(u, all[i][j], cols, health, row + i, j) && !Live(s.ecs, all[i][j])
  {
    var all := [ids] + grid;
    forall i, j | 0 <= i < |all| && 0 <= j < |all[i]|
      ensures Placed(u, all[i][j], cols, health, row + i, j) && !Live(s.ecs, all[i][j])
    {
      if i == 0 {
        assert all[i] == ids;
        PlacedKept(t, u, ids[j], cols, health, row, j);
      } else {
        assert all[i] == grid[i - 1];
        assert Placed(u, grid[i - 1][j], cols, health, row + 1 + (i - 1), j);
        assert !Live(t.ecs, grid[i - 1][j]);
      }
    }
  }

  /** The ids of the new row are live in `t`, those below it are not. */
  lemma ConsDistinct(t: State, ids: seq<nat>, grid: seq<seq<nat>>)
    requires forall j, k | 0 <= j < k < |ids| :: ids[j] != ids[k]
    requires forall j | 0 <= j < |ids| :: Live(t.ecs, ids[j])
    requires forall i, j | 0 <= i < |grid| && 0 <= j < |grid[i]| :: !Live(t.ecs, grid[i][j])
    requires forall i, j, k, l | 0 <= i < |grid| && 0 <= j < |grid[i]| && 0 <= k < |grid| && 0 <= l < |grid[k]|
               && (i, j) != (k, l) :: grid[i][j] != grid[k][l]
    ensures var all := [ids] + grid;
            forall i, j, k, l | 0 <= i < |all| && 0 <= j < |all[i]| && 0 <= k < |all| && 0 <= l < |all[k]|
              && (i, j) != (k, l) :: all[i][j] != all[k][l]
  {
    var all := [ids] + grid;
    forall i, j, k, l | 0 <= i < |all| && 0 <= j < |all[i]| && 0 <= k < |all| && 0 <= l < |all[k]|
      && (i, j) != (k, l)
      ensures all[i][j] != all[k][l]
    {
      if i == 0 && k == 0 {
        if j < l { assert ids[j] != ids[l]; } else { assert ids[l] != ids[j]; }
      } else if i == 0 {
        assert Live(t.ecs, ids[j]) && !Live(t.ecs, grid[k - 1][l]);
      } else if k == 0 {
        assert Live(t.ecs, ids[l]) && !Live(t.ecs, grid[i - 1][j]);
      } else {
        assert all[i] == grid[i - 1] && all[k] == grid[k - 1];
      }
    }
  }

  /** The outer loop from row `row` on fills its rows. */
  lemma {:induction false} RowsPlaced(s: State, rows: int, cols: int, health: int, row: nat)
    requires Consistent(s)
    ensures GridOk(s, RowsFrom(s, rows, cols, health, row).0, RowsFrom(s, rows, cols, health, row).1, cols, health, row)
    decreases rows - row
  {
    if row < rows {
      var (t, ids) := RowFrom(s, cols, health, row, 0);
      RowPlaced(s, cols, health, row, 0);
      RowsPlaced(t, rows, cols, health, row + 1);
      var (u, grid) := RowsFrom(t, rows, cols, health, row + 1);
      ConsGrid(s, t, ids, u, grid, cols, health, row);
    } else {
      KeepsRefl(s);
    }
  }

  /** What `CreateBrickGrid` builds: `grid[row][col]` is the entity of cell
      (`row`, `col`) for every `row < rows` and `col < cols`; the ids are
      new and distinct; entities live before are untouched; a playable
      state stays playable. */
  lemma GridLayout(s: State, rows: int, cols: int, health: int)
    requires Consistent(s)
    ensures GridOk(s, CreateBrickGrid(s, rows, cols, health).0, CreateBrickGrid(s, rows, cols, health).1, cols, health, 0)
  {
    RowsPlaced(s, rows, cols, health, 0);
  }

  // ---------------------------------------------------------------------
  // Geometry of the grid.

  /** The row is centred: the gap left of the first cell equals the gap
      right of the last one. */
  lemma GridCentred(cols: int)
    requires cols >= 1
    ensures CellX(cols, 0) == 800.0 - (CellX(cols, cols - 1) + BrickW)
  {
  }

  /** Bricks of distinct cells never overlap: the brick box (119.7 × 41.3)
      is narrower and lower than the cell pitch (125 × 45). */
  lemma BricksApart(cols: int, row1: nat, col1: nat, row2: nat, col2: nat)
    requires (row1, col1) != (row2, col2)
    ensures !BoxCollision.IsColliding(Position(CellX(cols, col1), CellY(row1)), Collider(119.7, 41.3),
                                      Position(CellX(cols, col2), CellY(row2)), Collider(119.7, 41.3))
  {
    if col1 != col2 {
      if col1 < col2 {
        assert col1 as real + 1.0 <= col2 as real;
      } else {
        assert col2 as real + 1.0 <= col1 as real;
      }
    } else {
      if row1 < row2 {
        assert row1 as real + 1.0 <= row2 as real;
      } else {
        assert row2 as real + 1.0 <= row1 as real;
      }
    }
  }
}

=== FILE: box_movement.dfy ===
/** `MovementSystem` of the axis-aligned-box variant.

    The loop visits `id = 0..maxId` and skips ids without Position and
    Velocity and ids already tagged `DestroyedTag`. Each remaining entity
    moves by its velocity. A laser whose box is then wholly above the
    screen is tagged `DestroyedTag` and skips the wall tests. Any other
    entity that crossed the left or right wall is clamped back between
    the walls with `dx` negated, and one that crossed the top wall is put
    on it with `dy` negated. There is no bottom wall.

    `MoveOne` is one iteration; `MoveOneCases` states what it does to the
    entity; `MovementPointwise` proves the whole loop gives every entity
    exactly what `MoveOne` alone gives it, since an iteration reads and
    writes only its own entity. */
module BoxMovement {
  import opened Masks
  import R = Registry
  import opened World
  import opened Components
  import opened BoxWorld

  const ScreenWidth: real := 800.0

  /** `std::clamp(v, lo, hi)` as the C++ standard defines it: `lo` when
      `v < lo`, else `hi` when `hi < v`, else `v`. */
  function Clamp(v: real, lo: real, hi: real): (r: real)
    ensures lo <= hi ==> lo <= r <= hi
    ensures lo <= v <= hi ==> r == v
    ensures r == v || r == lo || r == hi
  {
    if v < lo then lo else if hi < v then hi else v
  }

  /** The loop's `required` mask: Position and Velocity. */
  const Movers: Word := R.MaskOf([R.Position, R.Velocity])

  /** `Skipped` is the loop's own test: the mask fails `required`, or the
      entity has `DestroyedTag`. */
  lemma MoversIff(s: State, e: nat)
    requires e < |s.ecs.masks|
    ensures Matches(s.ecs, e, Movers) <==> Has(s.ecs, e, R.Position) && Has(s.ecs, e, R.Velocity)
    ensures Skipped(s, e) <==> !Matches(s.ecs, e, Movers) || Has(s.ecs, e, R.DestroyedTag)
  {
    R.MaskOfTest(s.ecs.masks[e], [R.Position, R.Velocity]);
  }

  /** The loop skips `e`: its mask fails the `required` test (no Position
      and Velocity, by `MoversIff`) or it is already destroyed. */
  predicate Skipped(s: State, e: nat)
    requires e < |s.ecs.masks|
  {
    !(Has(s.ecs, e, R.Position) && Has(s.ecs, e, R.Velocity)) || Has(s.ecs, e, R.DestroyedTag)
  }

  /** What an iteration for `e` looks up is stored: an entity the loop
      does not skip has a position, a velocity and a box. Every entity of
      a playable state meets it (`PlayableStored`). */
  predicate MovesStored(s: State, e: nat) {
    e < |s.ecs.masks| && (!Skipped(s, e) ==> e in s.pos && e in s.vel && e in s.col)
  }

  lemma PlayableStored(s: State, e: nat)
    requires Playable(s) && e < |s.ecs.masks|
    ensures MovesStored(s, e)
  {
    assert StoredAt(s, e);
    if !Skipped(s, e) {
      assert Has(s.ecs, e, R.Collider);
    }
  }

  /** Position, velocity and box of an entity the loop does not skip. */
  function Read(s: State, e: nat): (r: (Position, Velocity, Collider))
    requires MovesStored(s, e) && !Skipped(s, e)
  {
    (s.pos[e], s.vel[e], s.col[e])
  }

  /** The position after `pos += vel`. */
  function Step(p: Position, v: Velocity): Position {
    Position(p.x + v.dx, p.y + v.dy)
  }

  /** A laser whose box lies wholly above the screen after the step. */
  predicate OffTop(s: State, e: nat)
    requires MovesStored(s, e) && !Skipped(s, e)
  {
    var (p, v, c) := Read(s, e);
    Has(s.ecs, e, R.LaserTag) && Step(p, v).y + c.height < 0.0
  }

  /** Position and velocity after the wall tests. */
  function Bounce(p: Position, v: Velocity, c: Collider): (r: (Position, Velocity))
  {
    var hit := p.x < 0.0 || p.x + c.width > ScreenWidth;
    var x := if hit then Clamp(p.x, 0.0, ScreenWidth - c.width) else p.x;
    var dx := if hit then -v.dx else v.dx;
    var y := if p.y < 0.0 then 0.0 else p.y;
    var dy := if p.y < 0.0 then -v.dy else v.dy;
    (Position(x, y), Velocity(dx, dy))
  }

  /** After the wall tests the box is between the left and right walls (if
      it fits between them at all) and not above the top wall; a wall that
      was crossed negates that axis's speed, and an axis whose wall was
      not crossed keeps its coordinate and speed. */
  lemma BounceInside(p: Position, v: Velocity, c: Collider)
    ensures var (q, w) := Bounce(p, v, c);
            && (c.width <= ScreenWidth ==> 0.0 <= q.x && q.x + c.width <= ScreenWidth)
            && q.y >= 0.0
            && (p.x < 0.0 || p.x + c.width > ScreenWidth ==> w.dx == -v.dx)
            && (0.0 <= p.x && p.x + c.width <= ScreenWidth ==> q.x == p.x && w.dx == v.dx)
            && (p.y < 0.0 ==> q.y == 0.0 && w.dy == -v.dy)
            && (p.y >= 0.0 ==> q.y == p.y && w.dy == v.dy)
  {
  }

  /** One iteration of the loop, for entity `e`. */
  function MoveOne(s: State, e: nat): (r: State)
    requires MovesStored(s, e)
    ensures |r.ecs.masks| == |s.ecs.masks|
  {
    if Skipped(s, e) then s
    else
      var (p, v, c) := Read(s, e);
      if OffTop(s, e) then
        s.(ecs := SetBit(s.ecs, e, R.DestroyedTag), pos := s.pos[e := Step(p, v)])
      else
        var (q, w) := Bounce(Step(p, v), v, c);
        s.(pos := s.pos[e := q], vel := s.vel[e := w])
  }

  /** One iteration keeps the state playable and changes nothing but `e`'s
      position, velocity and `DestroyedTag` bit. */
  lemma MoveOneKeeps(s: State, e: nat)
    requires Playable(s) && e < |s.ecs.masks|
    ensures MovesStored(s, e)
    ensures var r := MoveOne(s, e);
            && Playable(r) && r.ecs.free == s.ecs.free && r.ecs.maxId == s.ecs.maxId
            && r == s.(ecs := r.ecs, pos := r.pos, vel := r.vel)
            && r.pos.Keys == s.pos.Keys && r.vel.Keys == s.vel.Keys
            && (forall x, c | 0 <= x < |s.ecs.masks| && (x != e || c != R.DestroyedTag) :: Has(r.ecs, x, c) == Has(s.ecs, x, c))
  {
    PlayableStored(s, e);
    if !Skipped(s, e) {
      if OffTop(s, e) {
        OffTopKeeps(s, e);
      } else {
        BounceKeeps(s, e);
      }
    }
  }

  lemma OffTopKeeps(s: State, e: nat)
    requires Playable(s) && MovesStored(s, e) && !Skipped(s, e) && OffTop(s, e)
    ensures var r := MoveOne(s, e);
            && Playable(r) && r.ecs.free == s.ecs.free && r.ecs.maxId == s.ecs.maxId
            && r == s.(ecs := r.ecs, pos := r.pos, vel := r.vel)
            && r.pos.Keys == s.pos.Keys && r.vel.Keys == s.vel.Keys
            && (forall x, c | 0 <= x < |s.ecs.masks| && (x != e || c != R.DestroyedTag) :: Has(r.ecs, x, c) == Has(s.ecs, x, c))
  {
    var (p, v, c) := Read(s, e);
    var moved := s.(pos := s.pos[e := Step(p, v)]);
    Restore(s, moved);
    HasLive(s.ecs, e, R.Position);
    assert MoveOne(s, e) == Tag(moved, e, R.DestroyedTag);
  }

  lemma BounceKeeps(s: State, e: nat)
    requires Playable(s) && MovesStored(s, e) && !Skipped(s, e) && !OffTop(s, e)
    ensures var r := MoveOne(s, e);
            && Playable(r) && r.ecs == s.ecs
            && r == s.(pos := r.pos, vel := r.vel)
            && r.pos.Keys == s.pos.Keys && r.vel.Keys == s.vel.Keys
  {
    var (p, v, c) := Read(s, e);
    var (q, w) := Bounce(Step(p, v), v, c);
    Restore(s, s.(pos := s.pos[e := q], vel := s.vel[e := w]));
  }

  /** What one iteration does to its entity. A skipped entity is left
      alone. A laser that left the screen moved by its velocity and is now
      tagged `DestroyedTag`, with its velocity as it was. Any other entity
      ends as `Bounce` places it after moving by its velocity, which puts
      it inside the side walls and below the top wall. */
  lemma MoveOneCases(s: State, e: nat)
    requires MovesStored(s, e)
    ensures Skipped(s, e) ==> MoveOne(s, e) == s
    ensures !Skipped(s, e) ==>
              var (p, v, c) := Read(s, e);
              var r := MoveOne(s, e);
              && (OffTop(s, e) ==>
                    && r.pos == s.pos[e := Step(p, v)] && r.vel == s.vel
                    && Has(r.ecs, e, R.DestroyedTag))
              && (!OffTop(s, e) ==>
                    && r.ecs == s.ecs
                    && r.pos == s.pos[e := Bounce(Step(p, v), v, c).0]
                    && r.vel == s.vel[e := Bounce(Step(p, v), v, c).1]
                    && (c.width <= ScreenWidth ==> 0.0 <= r.pos[e].x && r.pos[e].x + c.width <= ScreenWidth)
                    && r.pos[e].y >= 0.0)
  {
    if !Skipped(s, e) {
      var (p, v, c) := Read(s, e);
      BounceInside(Step(p, v), v, c);
    }
  }

  /** The loop from `id = i` to `maxId`. */
  function Loop(s: State, i: nat): (r: State)
    ensures |r.ecs.masks| == |s.ecs.masks|
    decreases |s.ecs.masks| - i
  {
    if i >= |s.ecs.masks| then s
    else Loop(if MovesStored(s, i) then MoveOne(s, i) else s, i + 1)
  }

  /** `MovementSystem()`. */
  function MovementSystem(s: State): (r: State)
    requires Playable(s)
    ensures Playable(r) && |r.ecs.masks| == |s.ecs.masks|
    ensures r.ecs.free == s.ecs.free && r.ecs.maxId == s.ecs.maxId
  {
    LoopKeeps(s, 0);
    Loop(s, 0)
  }

  lemma {:induction false} LoopKeeps(s: State, i: nat)
    requires Playable(s)
    ensures Playable(Loop(s, i))
    ensures Loop(s, i).ecs.free == s.ecs.free && Loop(s, i).ecs.maxId == s.ecs.maxId
    decreases |s.ecs.masks| - i
  {
    if i < |s.ecs.masks| {
      PlayableStored(s, i);
      MoveOneKeeps(s, i);
      LoopKeeps(MoveOne(s, i), i + 1);
    }
  }

  /** `a` and `b` agree on everything an iteration for `e` reads or
      writes: `e`'s mask, position, velocity and box. */
  predicate SameAt(a: State, b: State, e: nat) {
    && e < |a.ecs.masks| && e < |b.ecs.masks| && a.ecs.masks[e] == b.ecs.masks[e]
    && (e in a.pos <==> e in b.pos) && (e in a.pos ==> a.pos[e] == b.pos[e])
    && (e in a.vel <==> e in b.vel) && (e in a.vel ==> a.vel[e] == b.vel[e])
    && (e in a.col <==> e in b.col) && (e in a.col ==> a.col[e] == b.col[e])
  }

  /** An iteration for another entity leaves `e` alone. */
  lemma MoveOneElsewhere(s: State, x: nat, e: nat)
    requires MovesStored(s, x) && e < |s.ecs.masks| && x != e
    ensures SameAt(MoveOne(s, x), s, e)
  {
    if !Skipped(s, x) {
      var (p, v, c) := Read(s, x);
      var r := MoveOne(s, x);
      if OffTop(s, x) {
        assert r.ecs == SetBit(s.ecs, x, R.DestroyedTag);
        assert r.ecs.masks[e] == s.ecs.masks[e];
        assert r.pos == s.pos[x := Step(p, v)];
      } else {
        assert r.ecs == s.ecs;
      }
    }
  }

  /** An iteration for `e` depends only on what `SameAt` compares. */
  lemma MoveOneLocal(a: State, b: State, e: nat)
    requires MovesStored(a, e) && SameAt(a, b, e)
    ensures MovesStored(b, e) && SameAt(MoveOne(a, e), MoveOne(b, e), e)
  {
    assert Skipped(a, e) == Skipped(b, e);
    if !Skipped(a, e) {
      assert Read(b, e) == Read(a, e);
      assert Has(a.ecs, e, R.LaserTag) == Has(b.ecs, e, R.LaserTag);
      assert OffTop(a, e) == OffTop(b, e);
      if OffTop(a, e) {
        OffTopAt(a, e);
        OffTopAt(b, e);
      } else {
        BounceAt(a, e);
        BounceAt(b, e);
      }
    }
  }

  /** A laser that leaves the screen: only its mask and position change. */
  lemma OffTopAt(s: State, e: nat)
    requires MovesStored(s, e) && !Skipped(s, e) && OffTop(s, e)
    ensures var r := MoveOne(s, e);
            && r.ecs.masks[e] == Set(s.ecs.masks[e], R.Bit(R.DestroyedTag))
            && r.pos == s.pos[e := Step(s.pos[e], s.vel[e])]
            && r.vel == s.vel && r.col == s.col
  {
  }

  /** Any other moving entity: only its position and velocity change. */
  lemma BounceAt(s: State, e: nat)
    requires MovesStored(s, e) && !Skipped(s, e) && !OffTop(s, e)
    ensures var r := MoveOne(s, e);
            var (q, w) := Bounce(Step(s.pos[e], s.vel[e]), s.vel[e], s.col[e]);
            && r.ecs == s.ecs && r.pos == s.pos[e := q] && r.vel == s.vel[e := w] && r.col == s.col
  {
  }

  /** The iterations after `e`'s leave `e` alone. */
  lemma {:induction false} LoopAfter(s: State, i: nat, e: nat)
    requires e < i && e < |s.ecs.masks|
    ensures SameAt(Loop(s, i), s, e)
    decreases |s.ecs.masks| - i
  {
    if i < |s.ecs.masks| {
      var s1 := if MovesStored(s, i) then MoveOne(s, i) else s;
      if MovesStored(s, i) {
        MoveOneElsewhere(s, i, e);
      }
      LoopAfter(s1, i + 1, e);
    }
  }

  /** From any `i <= e` on, the loop gives `e` what its own iteration on
      the state at `i` gives it. */
  lemma {:induction false} LoopBefore(s: State, i: nat, e: nat)
    requires i <= e && MovesStored(s, e)
    ensures SameAt(Loop(s, i), MoveOne(s, e), e)
    decreases |s.ecs.masks| - i
  {
    var s1 := if MovesStored(s, i) then MoveOne(s, i) else s;
    if i == e {
      LoopAfter(s1, i + 1, e);
    } else {
      if MovesStored(s, i) {
        MoveOneElsewhere(s, i, e);
      }
      MoveOneLocal(s, s1, e);
      LoopBefore(s1, i + 1, e);
    }
  }

  /** The whole loop moves every entity exactly as its own iteration on
      the starting state would: the entities do not affect each other. */
  lemma MovementPointwise(s: State, e: nat)
    requires Playable(s) && e < |s.ecs.masks|
    ensures MovesStored(s, e) && SameAt(MovementSystem(s), MoveOne(s, e), e)
  {
    PlayableStored(s, e);
    LoopBefore(s, 0, e);
  }
}

=== FILE: box_world.dfy ===
/** The axis-aligned-box variant of the game (`breakoutGame/breakout_game.cpp`):
    its component records, the game state (the ECS world plus one map per
    data-carrying component type), and the entity constructors.

    The header declaring this variant's records is not part of this model;
    their shapes are the ones the code uses: a collider is a `width` and a
    `height`, a sprite holds an `eSpriteID` (numbered in atlas order), a
    power-up type holds an `ePowerUpType`, a break animation holds a timer.
    Tag types (`BallTag`, `DestroyedTag`, `FloorTag`, `LaserTag`,
    `StarPowerTag`, and the data-less `HeartPowerTag`) carry no fields, so
    their presence is exactly their mask bit. */
module BoxWorld {
  import opened Masks
  import R = Registry
  import opened World
  import opened Components
  import opened Options
  import Storage

  /** `eSpriteID` values, in the order of the sprite atlas: ball, paddle,
      then four brick colours each followed by its damaged look, then
      laser, star and heart. */
  const SpriteBall: int := 0
  const SpritePaddle: int := 1
  const SpriteBrickBlue: int := 2
  const SpriteBrickPurple: int := 4
  const SpriteBrickYellow: int := 6
  const SpriteBrickOrange: int := 8
  const SpriteLaser: int := 10
  const SpriteStar: int := 11
  const SpriteHeart: int := 12

  datatype Sprite = Sprite(id: int)

  /** Box size; the box's top-left corner is the entity's `Position`. */
  datatype Collider = Collider(width: real, height: real)

  /** `ePowerUpType`. */
  datatype PowerKind = ShootingLaser | WidePaddle

  datatype PowerUpType = PowerUpType(powerUp: PowerKind)

  /** Seconds since the brick broke. */
  datatype BreakAnimation = BreakAnimation(timer: real)

  /** The ECS world with the values stored for each data component type. */
  datatype State = State(
    ecs: Ecs,
    pos: map<nat, Position>,
    vel: map<nat, Velocity>,
    sprite: map<nat, Sprite>,
    col: map<nat, Collider>,
    health: map<nat, BrickHealth>,
    paddle: map<nat, PaddleControl>,
    power: map<nat, PowerUpType>,
    timed: map<nat, TimedEffect>,
    anim: map<nat, BreakAnimation>)

  /** A value of type `c` is stored for `e` (trivially so for a type
      without data). */
  predicate Stores(s: State, e: nat, c: R.ComponentType) {
    match c
    case Position => e in s.pos
    case Velocity => e in s.vel
    case Sprite => e in s.sprite
    case Collider => e in s.col
    case BrickHealth => e in s.health
    case PaddleControl => e in s.paddle
    case PowerUpType => e in s.power
    case TimedEffect => e in s.timed
    case BreakAnimation => e in s.anim
    case _ => true
  }

  /** Each of `e`'s mask bits has a stored value behind it, so
      `getComponent` is defined wherever the mask says so. */
  predicate StoredAt(s: State, e: nat)
    requires e < |s.ecs.masks|
  {
    forall c :: Has(s.ecs, e, c) ==> Stores(s, e, c)
  }

  predicate Stored(s: State) {
    forall e | 0 <= e < |s.ecs.masks| :: StoredAt(s, e)
  }

  predicate Consistent(s: State) {
    World.Valid(s.ecs) && Stored(s)
  }

  /** The program's state before any entity is created. */
  const Empty: State := State(Initial, map[], map[], map[], map[], map[], map[], map[], map[], map[])

  lemma EmptyConsistent()
    ensures Consistent(Empty) && Playable(Empty)
  {
  }

  /** Every map of `r` still holds every key of `s`. */
  predicate KeysKept(s: State, r: State) {
    && s.pos.Keys <= r.pos.Keys && s.vel.Keys <= r.vel.Keys
    && s.sprite.Keys <= r.sprite.Keys && s.col.Keys <= r.col.Keys
    && s.health.Keys <= r.health.Keys && s.paddle.Keys <= r.paddle.Keys
    && s.power.Keys <= r.power.Keys && s.timed.Keys <= r.timed.Keys
    && s.anim.Keys <= r.anim.Keys
  }

  lemma StoresKept(s: State, r: State, e: nat, c: R.ComponentType)
    requires KeysKept(s, r) && Stores(s, e, c)
    ensures Stores(r, e, c)
  {
  }

  /** Changing stored values without dropping any keeps the state
      consistent as long as the masks stay as they were. */
  lemma Restore(s: State, r: State)
    requires Consistent(s) && r.ecs == s.ecs && KeysKept(s, r)
    ensures Consistent(r)
  {
    forall x, c | 0 <= x < |r.ecs.masks| && Has(r.ecs, x, c)
      ensures Stores(r, x, c)
    {
      assert StoredAt(s, x);
      StoresKept(s, r, x, c);
    }
  }

  /** Setting one bit of a live entity keeps the state consistent when a
      value of that type is stored for it and no key is dropped. */
  lemma BitStored(s: State, r: State, e: nat, c: R.ComponentType)
    requires Consistent(s) && Live(s.ecs, e) && r.ecs == SetBit(s.ecs, e, c)
    requires KeysKept(s, r) && Stores(r, e, c)
    ensures Consistent(r)
  {
    forall x, d | 0 <= x < |r.ecs.masks| && Has(r.ecs, x, d)
      ensures Stores(r, x, d)
    {
      if x != e || d != c {
        assert StoredAt(s, x) && Has(s.ecs, x, d);
        StoresKept(s, r, x, d);
      }
    }
  }

  /** `addComponent(e, Tag{})` for a tag type on a live entity: only the
      tag's bit of `e` changes. */
  function Tag(s: State, e: nat, c: R.ComponentType): (r: State)
    requires Consistent(s) && Live(s.ecs, e) && R.StorageOf(c) == Storage.TaggedKind
    ensures Consistent(r) && r == s.(ecs := r.ecs)
    ensures r.ecs.free == s.ecs.free && r.ecs.maxId == s.ecs.maxId && |r.ecs.masks| == |s.ecs.masks|
    ensures Has(r.ecs, e, c)
    ensures forall x, d | 0 <= x < |s.ecs.masks| && (x != e || d != c) :: Has(r.ecs, x, d) == Has(s.ecs, x, d)
  {
    var r := s.(ecs := AddTag(s.ecs, c, e));
    BitStored(s, r, e, c);
    r
  }

  /** `addComponent(b, BreakAnimation{a})`: sets the bit and stores `a`
      (sparse storage). */
  function AddAnim(s: State, b: nat, a: BreakAnimation): (r: State)
    requires Consistent(s) && Live(s.ecs, b)
    ensures Consistent(r) && r == s.(ecs := r.ecs, anim := r.anim)
    ensures r.ecs == SetBit(s.ecs, b, R.BreakAnimation)
    ensures r.anim == s.anim[b := a]
  {
    var r := s.(ecs := SetBit(s.ecs, b, R.BreakAnimation), anim := s.anim[b := a]);
    BitStored(s, r, b, R.BreakAnimation);
    r
  }

  /** `addComponent(p, PowerUpType{kind})` then `addComponent(p,
      TimedEffect{d})`. Both types use packed storage; an entity that
      already holds them gets the new values (the overwrite `add` is meant
      to perform, see `Storage.Packed.Add`). */
  function AddPower(s: State, p: nat, kind: PowerKind, d: real): (r: State)
    requires Consistent(s) && Live(s.ecs, p)
    ensures Consistent(r) && r == s.(ecs := r.ecs, power := r.power, timed := r.timed)
    ensures r.ecs == SetBit(SetBit(s.ecs, p, R.PowerUpType), p, R.TimedEffect)
    ensures r.power == s.power[p := PowerUpType(kind)] && r.timed == s.timed[p := TimedEffect(d)]
  {
    var r1 := s.(ecs := SetBit(s.ecs, p, R.PowerUpType), power := s.power[p := PowerUpType(kind)]);
    BitStored(s, r1, p, R.PowerUpType);
    var r := r1.(ecs := SetBit(r1.ecs, p, R.TimedEffect), timed := r1.timed[p := TimedEffect(d)]);
    BitStored(r1, r, p, R.TimedEffect);
    r
  }

  // ---------------------------------------------------------------------
  // What the systems read without checking the mask first.

  /** Every ball has a Velocity, which the ball's reactions flip. */
  predicate BallsMove(s: State) {
    forall e | 0 <= e < |s.ecs.masks| && Has(s.ecs, e, R.BallTag) :: Has(s.ecs, e, R.Velocity)
  }

  /** Every brick has a Sprite, which breaking it advances. */
  predicate BricksDrawn(s: State) {
    forall e | 0 <= e < |s.ecs.masks| && Has(s.ecs, e, R.BrickHealth) :: Has(s.ecs, e, R.Sprite)
  }

  /** Every moving entity has a Collider, which the wall tests read. */
  predicate MoversCollide(s: State) {
    forall e | 0 <= e < |s.ecs.masks| && Has(s.ecs, e, R.Position) && Has(s.ecs, e, R.Velocity) :: Has(s.ecs, e, R.Collider)
  }

  /** The state every system of this variant may run on. */
  predicate Playable(s: State) {
    Consistent(s) && BallsMove(s) && BricksDrawn(s) && MoversCollide(s)
  }

  /** A bundle that gives every ball a velocity, every brick a sprite and
      every mover a collider. */
  predicate Complete(cs: seq<R.ComponentType>) {
    && (R.BallTag in cs ==> R.Velocity in cs)
    && (R.BrickHealth in cs ==> R.Sprite in cs)
    && (R.Position in cs && R.Velocity in cs ==> R.Collider in cs)
  }

  // ---------------------------------------------------------------------
  // Entity constructors.

  /** `e` is a newly created entity of `r`, and nothing about any other
      entity of `s` differs in `r`. */
  predicate Created(s: State, r: State, e: nat) {
    && Live(r.ecs, e) && !Live(s.ecs, e)
    && |s.ecs.masks| <= |r.ecs.masks| <= |s.ecs.masks| + 1
    && (|r.ecs.masks| == |s.ecs.masks| + 1 ==> e == |s.ecs.masks|)
    && (forall x | 0 <= x < |s.ecs.masks| && x != e :: r.ecs.masks[x] == s.ecs.masks[x])
    && (forall x | 0 <= x < |s.ecs.masks| && Live(s.ecs, x) :: Live(r.ecs, x))
    && AgreeAll(s, r, e)
  }

  /** Every component map of `r` agrees with `s` except at `e`. */
  predicate AgreeAll(s: State, r: State, e: nat) {
    && AgreeExcept(s.pos, r.pos, e) && AgreeExcept(s.vel, r.vel, e)
    && AgreeExcept(s.sprite, r.sprite, e) && AgreeExcept(s.col, r.col, e)
    && AgreeExcept(s.health, r.health, e) && AgreeExcept(s.paddle, r.paddle, e)
    && AgreeExcept(s.power, r.power, e) && AgreeExcept(s.timed, r.timed, e)
    && AgreeExcept(s.anim, r.anim, e)
  }

  /** Exactly the types in `cs` are set in `e`'s mask. */
  predicate Bundle(s: State, e: nat, cs: seq<R.ComponentType>)
    requires e < |s.ecs.masks|
  {
    forall c :: Has(s.ecs, e, c) <==> c in cs
  }

  /** The values `addAll` stores for a new entity: one per data component
      type it lists, `None` for the types it does not list. */
  datatype Init = Init(
    pos: Option<Position>,
    vel: Option<Velocity>,
    sprite: Option<Sprite>,
    col: Option<Collider>,
    health: Option<BrickHealth>,
    paddle: Option<PaddleControl>,
    power: Option<PowerUpType>,
    timed: Option<TimedEffect>,
    anim: Option<BreakAnimation>)

  const NoValues: Init := Init(None, None, None, None, None, None, None, None, None)

  /** A value is given for a data component type exactly when the bundle
      lists it. */
  predicate Covers(cs: seq<R.ComponentType>, init: Init) {
    && (R.Position in cs <==> init.pos.Some?)
    && (R.Velocity in cs <==> init.vel.Some?)
    && (R.Sprite in cs <==> init.sprite.Some?)
    && (R.Collider in cs <==> init.col.Some?)
    && (R.BrickHealth in cs <==> init.health.Some?)
    && (R.PaddleControl in cs <==> init.paddle.Some?)
    && (R.PowerUpType in cs <==> init.power.Some?)
    && (R.TimedEffect in cs <==> init.timed.Some?)
    && (R.BreakAnimation in cs <==> init.anim.Some?)
  }

  /** `Entity::create()` followed by `addAll(...)`: a new entity whose mask
      holds exactly the bundle `cs`, with the given value stored for each
      data type it lists, and nothing about any other entity changed. */
  function Spawn(s: State, cs: seq<R.ComponentType>, init: Init): (r: (State, nat))
    requires Consistent(s) && Covers(cs, init)
    ensures Created(s, r.0, r.1) && Consistent(r.0) && Bundle(r.0, r.1, cs)
    ensures init.pos.Some? ==> r.1 in r.0.pos && r.0.pos[r.1] == init.pos.value
    ensures init.vel.Some? ==> r.1 in r.0.vel && r.0.vel[r.1] == init.vel.value
    ensures init.sprite.Some? ==> r.1 in r.0.sprite && r.0.sprite[r.1] == init.sprite.value
    ensures init.col.Some? ==> r.1 in r.0.col && r.0.col[r.1] == init.col.value
    ensures init.health.Some? ==> r.1 in r.0.health && r.0.health[r.1] == init.health.value
    ensures init.paddle.Some? ==> r.1 in r.0.paddle && r.0.paddle[r.1] == init.paddle.value
    ensures init.power.Some? ==> r.1 in r.0.power && r.0.power[r.1] == init.power.value
    ensures init.timed.Some? ==> r.1 in r.0.timed && r.0.timed[r.1] == init.timed.value
    ensures init.anim.Some? ==> r.1 in r.0.anim && r.0.anim[r.1] == init.anim.value
  {
    var c := CreateEntity(s.ecs);
    var r := State(SetBits(c.0, c.1, cs),
      Put(s.pos, c.1, init.pos), Put(s.vel, c.1, init.vel), Put(s.sprite, c.1, init.sprite),
      Put(s.col, c.1, init.col), Put(s.health, c.1, init.health), Put(s.paddle, c.1, init.paddle),
      Put(s.power, c.1, init.power), Put(s.timed, c.1, init.timed), Put(s.anim, c.1, init.anim));
    InstallMask(s.ecs, c.0, c.1, cs);
    Install(s, c.1, cs, r);
    (r, c.1)
  }

  /** Installing a bundle keeps the state consistent, and the entity is new. */
  lemma Install(s: State, e: nat, cs: seq<R.ComponentType>, r: State)
    requires Consistent(s)
    requires World.Valid(r.ecs) && Live(r.ecs, e) && !Live(s.ecs, e)
    requires |s.ecs.masks| <= |r.ecs.masks| <= |s.ecs.masks| + 1
    requires |r.ecs.masks| == |s.ecs.masks| + 1 ==> e == |s.ecs.masks|
    requires forall x | 0 <= x < |s.ecs.masks| && x != e :: r.ecs.masks[x] == s.ecs.masks[x]
    requires forall x | 0 <= x < |s.ecs.masks| && Live(s.ecs, x) :: Live(r.ecs, x)
    requires forall c :: Has(r.ecs, e, c) <==> c in cs
    requires AgreeAll(s, r, e)
    requires R.Position in cs ==> e in r.pos
    requires R.Velocity in cs ==> e in r.vel
    requires R.Sprite in cs ==> e in r.sprite
    requires R.Collider in cs ==> e in r.col
    requires R.BrickHealth in cs ==> e in r.health
    requires R.PaddleControl in cs ==> e in r.paddle
    requires R.PowerUpType in cs ==> e in r.power
    requires R.TimedEffect in cs ==> e in r.timed
    requires R.BreakAnimation in cs ==> e in r.anim
    ensures Created(s, r, e)
    ensures Consistent(r)
  {
    forall x, c | 0 <= x < |r.ecs.masks| && Has(r.ecs, x, c)
      ensures Stores(r, x, c)
    {
      if x != e {
        assert x < |s.ecs.masks|;
        assert StoredAt(s, x) && Has(s.ecs, x, c);
        StoresAgree(s, r, e, x, c);
      }
    }
  }

  /** Values stored for an entity other than `e` survive a step that
      agrees with `s` away from `e`. */
  lemma StoresAgree(s: State, r: State, e: nat, x: nat, c: R.ComponentType)
    requires AgreeAll(s, r, e) && x != e && Stores(s, x, c)
    ensures Stores(r, x, c)
  {
  }

  /** A new entity with a complete bundle keeps the state playable. */
  lemma SpawnPlayable(s: State, r: State, e: nat, cs: seq<R.ComponentType>)
    requires Playable(s) && Created(s, r, e) && Bundle(r, e, cs) && Complete(cs)
    requires Consistent(r)
    ensures Playable(r)
  {
    forall x, c | 0 <= x < |r.ecs.masks| && x != e
      ensures Has(r.ecs, x, c) == Has(s.ecs, x, c)
    {
      assert x < |s.ecs.masks|;
    }
  }

  const BallBundle: seq<R.ComponentType> := [R.Position, R.Velocity, R.Sprite, R.Collider, R.BallTag]
  const BrickBundle: seq<R.ComponentType> := [R.Position, R.Sprite, R.Collider, R.BrickHealth]
  const PaddleBundle: seq<R.ComponentType> := [R.Position, R.Sprite, R.Collider, R.PaddleControl]
  const PowerUpBundle: seq<R.ComponentType> :=
    [R.Position, R.Velocity, R.Sprite, R.Collider, R.PowerUpType, R.TimedEffect, R.DestroyedTag]
  const FloorBundle: seq<R.ComponentType> := [R.Position, R.Collider, R.FloorTag]
  const StarBundle: seq<R.ComponentType> := [R.Position, R.Sprite, R.Collider, R.StarPowerTag]
  const HeartBundle: seq<R.ComponentType> := [R.Position, R.Sprite, R.Collider, R.HeartPowerTag]
  const LaserBundle: seq<R.ComponentType> := [R.Position, R.Velocity, R.Sprite, R.Collider, R.LaserTag]

  /** What every constructor promises: a new entity with exactly the
      bundle's types, the state consistent and still playable. */
  predicate Constructed(s: State, r: (State, nat), cs: seq<R.ComponentType>) {
    && Created(s, r.0, r.1) && Consistent(r.0) && r.1 < |r.0.ecs.masks|
    && Bundle(r.0, r.1, cs)
    && (Playable(s) ==> Playable(r.0))
  }

  /** Spawning a complete bundle is a construction. */
  function Build(s: State, cs: seq<R.ComponentType>, init: Init): (r: (State, nat))
    requires Consistent(s) && Covers(cs, init) && Complete(cs)
    ensures Constructed(s, r, cs)
    ensures r == Spawn(s, cs, init)
  {
    var r := Spawn(s, cs, init);
    assert Playable(s) ==> Playable(r.0) by {
      if Playable(s) {
        SpawnPlayable(s, r.0, r.1, cs);
      }
    }
    r
  }

  /** `CreateBall`: at (400, 450) moving by (1.2, 1.5), with the ball sprite
      and a box of the sprite's size scaled by 0.4. */
  function CreateBall(s: State): (r: (State, nat))
    requires Consistent(s)
    ensures Constructed(s, r, BallBundle)
    ensures r.1 in r.0.pos && r.1 in r.0.vel && r.1 in r.0.sprite && r.1 in r.0.col
    ensures r.0.pos[r.1] == Position(400.0, 450.0) && r.0.vel[r.1] == Velocity(1.2, 1.5)
    ensures r.0.sprite[r.1] == Sprite(SpriteBall) && r.0.col[r.1] == Collider(34.8, 30.8)
  {
    Build(s, BallBundle, NoValues.(pos := Some(Position(400.0, 450.0)), vel := Some(Velocity(1.2, 1.5)),
          sprite := Some(Sprite(SpriteBall)), col := Some(Collider(87.0 * 0.4, 77.0 * 0.4))))
  }

  /** `CreateBrick(health, color, x, y)`: the given hits, sprite and
      position, and a box of the brick sprite's size scaled by 0.7. */
  function CreateBrick(s: State, health: int, color: int, x: real, y: real): (r: (State, nat))
    requires Consistent(s)
    ensures Constructed(s, r, BrickBundle)
    ensures r.1 in r.0.pos && r.1 in r.0.sprite && r.1 in r.0.col && r.1 in r.0.health
    ensures r.0.pos[r.1] == Position(x, y) && r.0.sprite[r.1] == Sprite(color)
    ensures r.0.col[r.1] == Collider(119.7, 41.3) && r.0.health[r.1] == BrickHealth(health)
  {
    Build(s, BrickBundle, NoValues.(pos := Some(Position(x, y)), sprite := Some(Sprite(color)),
          col := Some(Collider(171.0 * 0.7, 59.0 * 0.7)), health := Some(BrickHealth(health))))
  }

  /** `CreatePaddle(left, right)`: at (320, 560) with the paddle sprite, a
      box of its size scaled by 0.7, and the given keys. */
  function CreatePaddle(s: State, left: int, right: int): (r: (State, nat))
    requires Consistent(s)
    ensures Constructed(s, r, PaddleBundle)
    ensures r.1 in r.0.pos && r.1 in r.0.sprite && r.1 in r.0.col && r.1 in r.0.paddle
    ensures r.0.paddle[r.1] == PaddleControl(left, right)
    ensures r.0.pos[r.1] == Position(320.0, 560.0) && r.0.sprite[r.1] == Sprite(SpritePaddle)
    ensures r.0.col[r.1] == Collider(112.7, 38.5)
  {
    Build(s, PaddleBundle, NoValues.(pos := Some(Position(320.0, 560.0)), sprite := Some(Sprite(SpritePaddle)),
          col := Some(Collider(161.0 * 0.7, 55.0 * 0.7)), paddle := Some(PaddleControl(left, right))))
  }

  /** `CreatePowerUp(type)`: value-initialised Position, Velocity, Sprite,
      Collider and TimedEffect (the defaults come from the variant's header,
      so they are parameters here), the given type, and `DestroyedTag` from
      the start. */
  function CreatePowerUp(s: State, kind: PowerKind, p0: Position, v0: Velocity, sp0: Sprite,
                         c0: Collider, t0: TimedEffect): (r: (State, nat))
    requires Consistent(s)
    ensures Constructed(s, r, PowerUpBundle)
    ensures r.1 in r.0.power && r.0.power[r.1] == PowerUpType(kind)
    ensures r.1 in r.0.timed && r.0.timed[r.1] == t0
  {
    Build(s, PowerUpBundle, NoValues.(pos := Some(p0), vel := Some(v0), sprite := Some(sp0),
          col := Some(c0), power := Some(PowerUpType(kind)), timed := Some(t0)))
  }

  /** `CreateFloor`: an 800 × 10 box at (0, 590) with `FloorTag`. */
  function CreateFloor(s: State): (r: (State, nat))
    requires Consistent(s)
    ensures Constructed(s, r, FloorBundle)
    ensures r.1 in r.0.pos && r.1 in r.0.col
    ensures r.0.pos[r.1] == Position(0.0, 590.0) && r.0.col[r.1] == Collider(800.0, 10.0)
  {
    Build(s, FloorBundle, NoValues.(pos := Some(Position(0.0, 590.0)), col := Some(Collider(800.0, 10.0))))
  }

  /** `CreateStar(x, y)`: a motionless star pickup at the given position. */
  function CreateStar(s: State, x: real, y: real): (r: (State, nat))
    requires Consistent(s)
    ensures Constructed(s, r, StarBundle)
    ensures r.1 in r.0.pos && r.1 in r.0.sprite && r.1 in r.0.col
    ensures r.0.pos[r.1] == Position(x, y) && r.0.sprite[r.1] == Sprite(SpriteStar)
    ensures r.0.col[r.1] == Collider(58.8, 51.1)
  {
    Build(s, StarBundle, NoValues.(pos := Some(Position(x, y)), sprite := Some(Sprite(SpriteStar)),
          col := Some(Collider(84.0 * 0.7, 73.0 * 0.7))))
  }

  /** `CreateHeart(x, y)`: a motionless heart pickup at the given position,
      with the star's box. */
  function CreateHeart(s: State, x: real, y: real): (r: (State, nat))
    requires Consistent(s)
    ensures Constructed(s, r, HeartBundle)
    ensures r.1 in r.0.pos && r.1 in r.0.sprite && r.1 in r.0.col
    ensures r.0.pos[r.1] == Position(x, y) && r.0.sprite[r.1] == Sprite(SpriteHeart)
    ensures r.0.col[r.1] == Collider(58.8, 51.1)
  {
    Build(s, HeartBundle, NoValues.(pos := Some(Position(x, y)), sprite := Some(Sprite(SpriteHeart)),
          col := Some(Collider(84.0 * 0.7, 73.0 * 0.7))))
  }

  /** `CreateLaser(x, y)`: an 11 × 22 box at the given position moving up
      by 200 per step. */
  function CreateLaser(s: State, x: real, y: real): (r: (State, nat))
    requires Consistent(s)
    ensures Constructed(s, r, LaserBundle)
    ensures r.1 in r.0.pos && r.1 in r.0.vel && r.1 in r.0.sprite && r.1 in r.0.col
    ensures r.0.pos[r.1] == Position(x, y) && r.0.vel[r.1] == Velocity(0.0, -200.0)
    ensures r.0.sprite[r.1] == Sprite(SpriteLaser) && r.0.col[r.1] == Collider(11.0, 22.0)
  {
    Build(s, LaserBundle, NoValues.(pos := Some(Position(x, y)), vel := Some(Velocity(0.0, -200.0)),
          sprite := Some(Sprite(SpriteLaser)), col := Some(Collider(11.0, 22.0))))
  }
}

=== FILE: circle_collision.dfy ===
/** `CollisionSystem` of the circle-collider variant.

    The source loops over `id1 = 0..maxId`, skips ids without Position and
    Collider, and for each such id loops over `id2 = id1+1..maxId`, so every
    unordered pair is looked at once, in lexicographic order. A pair of
    overlapping circles where one side is a ball reacts: a brick on the
    other side loses one hit (and is tagged `DestroyedTag` once its hits
    reach zero or below), a paddle on the other side flips the ball's `dy`.

    `PairStep` is the reaction of one pair; `Outer`/`Inner` follow the two
    loops; `PassIsPairFold` proves the loops are the fold of `PairStep` over
    `Pairs(n)`, the list of all pairs `i < j < n`. */
module CircleCollision {
  import opened Masks
  import R = Registry
  import opened World
  import opened Components
  import opened CircleWorld

  /** `isColliding`: the squared centre distance is at most the squared sum
      of the radii. */
  predicate IsColliding(a: Position, ca: Collider, b: Position, cb: Collider) {
    var dx := a.x - b.x;
    var dy := a.y - b.y;
    var radiusSum := (ca.radius + cb.radius) as real;
    dx * dx + dy * dy <= radiusSum * radiusSum
  }

  /** The test does not depend on the order of its two circles. */
  lemma IsCollidingSymmetric(a: Position, ca: Collider, b: Position, cb: Collider)
    ensures IsColliding(a, ca, b, cb) == IsColliding(b, cb, a, ca)
  {
    assert (a.x - b.x) * (a.x - b.x) == (b.x - a.x) * (b.x - a.x);
    assert (a.y - b.y) * (a.y - b.y) == (b.y - a.y) * (b.y - a.y);
  }

  /** Two default circles (radius 5) whose centres are exactly 10 apart
      touch and count as colliding; 11 apart they do not. */
  lemma TouchingCounts()
    ensures IsColliding(Position(0.0, 0.0), DefaultCollider, Position(10.0, 0.0), DefaultCollider)
    ensures IsColliding(Position(0.0, 0.0), DefaultCollider, Position(6.0, 8.0), DefaultCollider)
    ensures !IsColliding(Position(0.0, 0.0), DefaultCollider, Position(11.0, 0.0), DefaultCollider)
  {
  }

  /** The loops' mask: Position and Collider. */
  const Required: Word := R.MaskOf([R.Position, R.Collider])

  predicate Collidable(s: State, e: nat)
    requires e < |s.ecs.masks|
  {
    Matches(s.ecs, e, Required)
  }

  /** The invariant of a collision pass. */
  predicate Ready(s: State) {
    Consistent(s) && BallsMove(s)
  }

  /** The game starts `Ready`; the constructors keep `BallsMove` and the
      pass keeps `Ready`. */
  lemma EmptyReady()
    ensures Ready(Empty)
  {
    EmptyConsistent();
  }

  /** Both entities hold Position and Collider and their circles overlap. */
  predicate Touching(s: State, i: nat, j: nat)
    requires Stored(s) && i < |s.ecs.masks| && j < |s.ecs.masks|
  {
    MatchesBoth(s.ecs, i, R.Position, R.Collider);
    MatchesBoth(s.ecs, j, R.Position, R.Collider);
    assert StoredAt(s, i) && StoredAt(s, j);
    && Collidable(s, i) && Collidable(s, j)
    && IsColliding(s.pos[i], s.col[i], s.pos[j], s.col[j])
  }

  /** What a collision pass may change: hit counts, the sign of a
      velocity's `dy`, and `DestroyedTag` bits, which it only ever adds. */
  predicate Frame(s: State, r: State) {
    && r.ecs.free == s.ecs.free && r.ecs.maxId == s.ecs.maxId
    && |r.ecs.masks| == |s.ecs.masks|
    && (forall e, c | 0 <= e < |s.ecs.masks| && c != R.DestroyedTag :: Has(r.ecs, e, c) == Has(s.ecs, e, c))
    && (forall e | 0 <= e < |s.ecs.masks| && Has(s.ecs, e, R.DestroyedTag) :: Has(r.ecs, e, R.DestroyedTag))
    && r.pos == s.pos && r.sprite == s.sprite && r.col == s.col && r.paddle == s.paddle
    && r.power == s.power && r.timed == s.timed && r.lives == s.lives && r.score == s.score
    && r.health.Keys == s.health.Keys && r.vel.Keys == s.vel.Keys
    && (forall e | e in s.vel :: r.vel[e].dx == s.vel[e].dx && (r.vel[e].dy == s.vel[e].dy || r.vel[e].dy == -s.vel[e].dy))
  }

  lemma FrameTrans(a: State, b: State, c: State)
    requires Frame(a, b) && Frame(b, c)
    ensures Frame(a, c)
  {
  }

  /** Brick `b` lost exactly one hit and got `DestroyedTag` if its hits are
      now zero or below; no other brick and no other tag changed. */
  predicate HitOnce(s: State, r: State, b: nat)
    requires |r.ecs.masks| == |s.ecs.masks| && b < |s.ecs.masks|
  {
    && b in s.health && b in r.health
    && r.health[b].hits == s.health[b].hits - 1
    && (Has(r.ecs, b, R.DestroyedTag) <==> Has(s.ecs, b, R.DestroyedTag) || r.health[b].hits <= 0)
    && (forall x | x in s.health && x != b :: x in r.health && r.health[x] == s.health[x])
    && (forall x | 0 <= x < |s.ecs.masks| && x != b :: Has(r.ecs, x, R.DestroyedTag) == Has(s.ecs, x, R.DestroyedTag))
  }

  /** No hit count and no tag changed. */
  predicate NoHit(s: State, r: State)
    requires |r.ecs.masks| == |s.ecs.masks|
  {
    && r.health == s.health
    && (forall x | 0 <= x < |s.ecs.masks| :: Has(r.ecs, x, R.DestroyedTag) == Has(s.ecs, x, R.DestroyedTag))
  }

  /** `brick.hits--`, then `DestroyedTag` when the hits are zero or below. */
  function HitBrick(s: State, b: nat): (r: State)
    requires Consistent(s) && b < |s.ecs.masks| && Has(s.ecs, b, R.BrickHealth)
    ensures r.vel == s.vel && Frame(s, r) && HitOnce(s, r, b) && Consistent(r)
  {
    assert StoredAt(s, b);
    HasLive(s.ecs, b, R.BrickHealth);
    var r1 := Decrement(s, b);
    var r := if r1.health[b].hits <= 0 then Tag(r1, b, R.DestroyedTag) else r1;
    HitFacts(s, b, r1, r);
    r
  }

  lemma HitFacts(s: State, b: nat, r1: State, r: State)
    requires Consistent(s) && b < |s.ecs.masks| && Has(s.ecs, b, R.BrickHealth)
    requires b in s.health && Live(s.ecs, b)
    requires r1 == Decrement(s, b)
    requires r1.health[b].hits <= 0 ==> r == Tag(r1, b, R.DestroyedTag)
    requires r1.health[b].hits > 0 ==> r == r1
    ensures Consistent(r) && Frame(s, r) && HitOnce(s, r, b) && r.vel == s.vel
  {
    assert Frame(s, r1);
    if r1.health[b].hits <= 0 {
      assert Frame(r1, r);
      FrameTrans(s, r1, r);
    }
  }

  /** `brick.hits--` alone. */
  function Decrement(s: State, b: nat): (r: State)
    requires Consistent(s) && b in s.health
    ensures Consistent(r) && r.ecs == s.ecs
    ensures r == s.(health := r.health)
    ensures b in r.health && r.health[b].hits == s.health[b].hits - 1
    ensures r.health == s.health[b := r.health[b]]
  {
    var r := s.(health := s.health[b := BrickHealth(s.health[b].hits - 1)]);
    Restore(s, r);
    r
  }

  /** `vel.dy *= -1` on the ball. */
  function FlipDy(s: State, ball: nat): (r: State)
    requires Ready(s) && ball in s.vel
    ensures Ready(r) && Frame(s, r)
    ensures r.vel == s.vel[ball := FlipY(s.vel[ball])]
    ensures r.ecs == s.ecs && r.health == s.health
  {
    var r := s.(vel := s.vel[ball := FlipY(s.vel[ball])]);
    Restore(s, r);
    r
  }

  /** `ball` holds `BallTag` and `brick` holds `BrickHealth`. */
  predicate BallBrick(s: State, ball: nat, brick: nat)
    requires ball < |s.ecs.masks| && brick < |s.ecs.masks|
  {
    Has(s.ecs, ball, R.BallTag) && Has(s.ecs, brick, R.BrickHealth)
  }

  /** `ball` holds `BallTag` and `paddle` holds `PaddleControl`. */
  predicate BallPaddle(s: State, ball: nat, paddle: nat)
    requires ball < |s.ecs.masks| && paddle < |s.ecs.masks|
  {
    Has(s.ecs, ball, R.BallTag) && Has(s.ecs, paddle, R.PaddleControl)
  }

  /** The reactions of an overlapping pair `i < j`. Whichever side holds the
      ball, the brick on the other side loses exactly one hit (the `i`-ball
      case is tried first), and the ball bouncing off a paddle has its `dy`
      negated with its `dx` kept. A pair with no ball changes nothing. */
  function React(s: State, i: nat, j: nat): (r: State)
    requires Ready(s) && i < j < |s.ecs.masks|
    ensures |r.ecs.masks| == |s.ecs.masks|
  {
    BouncePair(HitPair(s, i, j), i, j)
  }

  /** A reaction keeps the pass invariant and stays within the frame. */
  lemma ReactKeeps(s: State, i: nat, j: nat)
    requires Ready(s) && i < j < |s.ecs.masks|
    ensures Ready(React(s, i, j)) && Frame(s, React(s, i, j))
  {
    var s1 := HitPair(s, i, j);
    FrameTrans(s, s1, BouncePair(s1, i, j));
  }

  /** What a reaction does to hit counts, tags and velocities. */
  lemma ReactCases(s: State, i: nat, j: nat)
    requires Ready(s) && i < j < |s.ecs.masks|
    ensures BallBrick(s, i, j) ==> HitOnce(s, React(s, i, j), j)
    ensures !BallBrick(s, i, j) && BallBrick(s, j, i) ==> HitOnce(s, React(s, i, j), i)
    ensures !BallBrick(s, i, j) && !BallBrick(s, j, i) ==> NoHit(s, React(s, i, j))
    ensures BallPaddle(s, i, j) ==> i in s.vel && React(s, i, j).vel == s.vel[i := FlipY(s.vel[i])]
    ensures !BallPaddle(s, i, j) && BallPaddle(s, j, i) ==> j in s.vel && React(s, i, j).vel == s.vel[j := FlipY(s.vel[j])]
    ensures !BallPaddle(s, i, j) && !BallPaddle(s, j, i) ==> React(s, i, j).vel == s.vel
    ensures !Has(s.ecs, i, R.BallTag) && !Has(s.ecs, j, R.BallTag) ==> React(s, i, j) == s
  {
    var s1 := HitPair(s, i, j);
    assert BallPaddle(s1, i, j) == BallPaddle(s, i, j);
    assert BallPaddle(s1, j, i) == BallPaddle(s, j, i);
  }

  /** The brick half of a reaction: the `i`-ball case first, then the
      `j`-ball case. */
  function HitPair(s: State, i: nat, j: nat): (r: State)
    requires Ready(s) && i < j < |s.ecs.masks|
    ensures Ready(r) && Frame(s, r) && r.vel == s.vel
    ensures BallBrick(s, i, j) ==> HitOnce(s, r, j)
    ensures !BallBrick(s, i, j) && BallBrick(s, j, i) ==> HitOnce(s, r, i)
    ensures !BallBrick(s, i, j) && !BallBrick(s, j, i) ==> r == s
  {
    if BallBrick(s, i, j) then HitBrick(s, j)
    else if BallBrick(s, j, i) then HitBrick(s, i)
    else s
  }

  /** The paddle half of a reaction: the `i`-ball case first, then the
      `j`-ball case. */
  function BouncePair(s: State, i: nat, j: nat): (r: State)
    requires Ready(s) && i < j < |s.ecs.masks|
    ensures Ready(r) && Frame(s, r) && r.ecs == s.ecs && r.health == s.health
    ensures BallPaddle(s, i, j) ==> i in s.vel && r.vel == s.vel[i := FlipY(s.vel[i])]
    ensures !BallPaddle(s, i, j) && BallPaddle(s, j, i) ==> j in s.vel && r.vel == s.vel[j := FlipY(s.vel[j])]
    ensures !BallPaddle(s, i, j) && !BallPaddle(s, j, i) ==> r == s
  {
    if BallPaddle(s, i, j) then FlipDy(s, i)
    else if BallPaddle(s, j, i) then FlipDy(s, j)
    else s
  }

  /** One pair `(i, j)` of the pass: an overlapping pair reacts, any other
      pair changes nothing. The pass is defined on every state; on one that
      is not `Ready` it changes nothing. The game never builds one: it
      starts `Ready` (`EmptyReady`), and the constructors and the pass keep
      it so. */
  function PairStep(s: State, i: nat, j: nat): (r: State)
    ensures |r.ecs.masks| == |s.ecs.masks|
  {
    if i < j < |s.ecs.masks| && Ready(s) && Touching(s, i, j) then React(s, i, j) else s
  }

  /** A pair reacts exactly when it overlaps. */
  lemma PairStepCases(s: State, i: nat, j: nat)
    requires Ready(s) && i < j < |s.ecs.masks|
    ensures !Touching(s, i, j) ==> PairStep(s, i, j) == s
    ensures Touching(s, i, j) ==> PairStep(s, i, j) == React(s, i, j)
  {
  }

  /** One pair keeps the pass invariant and stays within the frame. */
  lemma PairStepKeeps(s: State, i: nat, j: nat)
    ensures Frame(s, PairStep(s, i, j))
    ensures Ready(s) ==> Ready(PairStep(s, i, j))
  {
    if i < j < |s.ecs.masks| && Ready(s) && Touching(s, i, j) {
      ReactKeeps(s, i, j);
    }
  }

  /** One iteration of the source's inner loop for `id1 = i`, `id2 = j`:
      skip `j` without Position and Collider, read both components, skip a
      non-overlapping pair, react otherwise. */
  function Visit(s: State, i: nat, j: nat): (r: State)
    ensures |r.ecs.masks| == |s.ecs.masks|
  {
    if i < j < |s.ecs.masks| && Ready(s) then Examine(s, i, j) else s
  }

  function Examine(s: State, i: nat, j: nat): (r: State)
    requires Ready(s) && i < j < |s.ecs.masks|
    ensures |r.ecs.masks| == |s.ecs.masks|
  {
    MatchesBoth(s.ecs, i, R.Position, R.Collider);
    MatchesBoth(s.ecs, j, R.Position, R.Collider);
    assert StoredAt(s, i) && StoredAt(s, j);
    if !Collidable(s, j) then s
    else if !Collidable(s, i) || !IsColliding(s.pos[i], s.col[i], s.pos[j], s.col[j]) then s
    else React(s, i, j)
  }

  /** The source's order of tests is the pair reaction: an iteration is
      `PairStep`. */
  lemma VisitIsPairStep(s: State, i: nat, j: nat)
    ensures Visit(s, i, j) == PairStep(s, i, j)
  {
    if i < j < |s.ecs.masks| && Ready(s) {
      MatchesBoth(s.ecs, i, R.Position, R.Collider);
      MatchesBoth(s.ecs, j, R.Position, R.Collider);
    }
  }

  /** The source's inner loop: `id2` runs from `j` to `maxId`. */
  function Inner(s: State, i: nat, j: nat): (r: State)
    ensures |r.ecs.masks| == |s.ecs.masks|
    decreases |s.ecs.masks| - j
  {
    if j >= |s.ecs.masks| then s else Inner(Visit(s, i, j), i, j + 1)
  }

  /** The source's outer loop: `id1` runs from `i` to `maxId`, skipping ids
      without Position and Collider. */
  function Outer(s: State, i: nat): (r: State)
    ensures |r.ecs.masks| == |s.ecs.masks|
    decreases |s.ecs.masks| - i
  {
    if i >= |s.ecs.masks| then s
    else Outer(if !Collidable(s, i) then s else Inner(s, i, i + 1), i + 1)
  }

  /** `CollisionSystem()`: one pass over all ids. It creates and destroys no
      entities and changes only hit counts, the sign of `dy`, and
      `DestroyedTag` bits, which it only adds. */
  function CollisionSystem(s: State): (r: State)
    requires Ready(s)
    ensures Ready(r) && Frame(s, r)
  {
    OuterKeeps(s, 0);
    Outer(s, 0)
  }

  lemma {:induction false} InnerKeeps(s: State, i: nat, j: nat)
    ensures Frame(s, Inner(s, i, j))
    ensures Ready(s) ==> Ready(Inner(s, i, j))
    decreases |s.ecs.masks| - j
  {
    if j < |s.ecs.masks| {
      var s1 := Visit(s, i, j);
      VisitIsPairStep(s, i, j);
      PairStepKeeps(s, i, j);
      InnerKeeps(s1, i, j + 1);
      FrameTrans(s, s1, Inner(s1, i, j + 1));
    }
  }

  lemma {:induction false} OuterKeeps(s: State, i: nat)
    ensures Frame(s, Outer(s, i))
    ensures Ready(s) ==> Ready(Outer(s, i))
    decreases |s.ecs.masks| - i
  {
    if i < |s.ecs.masks| {
      var s1 := if !Collidable(s, i) then s else Inner(s, i, i + 1);
      InnerKeeps(s, i, i + 1);
      OuterKeeps(s1, i + 1);
      FrameTrans(s, s1, Outer(s1, i + 1));
    }
  }

  // ---------------------------------------------------------------------
  // The pairs the pass examines.

  /** `(i, j)`, `(i, j+1)`, …, `(i, n-1)`. */
  function Row(i: nat, j: nat, n: nat): (ps: seq<(nat, nat)>)
    ensures forall p | p in ps :: p.0 == i && j <= p.1 < n
    decreases n - j
  {
    if j >= n then [] else [(i, j)] + Row(i, j + 1, n)
  }

  /** Rows `i`, `i+1`, …, `n-1`, each starting just after its first id. */
  function PairsFrom(i: nat, n: nat): (ps: seq<(nat, nat)>)
    ensures forall p | p in ps :: i <= p.0 < p.1 < n
    decreases n - i
  {
    if i >= n then [] else Row(i, i + 1, n) + PairsFrom(i + 1, n)
  }

  function Pairs(n: nat): seq<(nat, nat)> {
    PairsFrom(0, n)
  }

  /** Lexicographic order on pairs. */
  predicate Before(p: (nat, nat), q: (nat, nat)) {
    p.0 < q.0 || (p.0 == q.0 && p.1 < q.1)
  }

  lemma {:induction false} RowExact(i: nat, j: nat, n: nat, q: nat)
    ensures (i, q) in Row(i, j, n) <==> j <= q < n
    decreases n - j
  {
    if j < n {
      RowExact(i, j + 1, n, q);
    }
  }

  lemma {:induction false} PairsFromExact(i: nat, n: nat, p: nat, q: nat)
    ensures (p, q) in PairsFrom(i, n) <==> i <= p < q < n
    decreases n - i
  {
    if i < n {
      RowExact(i, i + 1, n, q);
      PairsFromExact(i + 1, n, p, q);
    }
  }

  lemma {:induction false} RowSorted(i: nat, j: nat, n: nat)
    ensures forall k, l | 0 <= k < l < |Row(i, j, n)| :: Before(Row(i, j, n)[k], Row(i, j, n)[l])
    decreases n - j
  {
    if j < n {
      RowSorted(i, j + 1, n);
    }
  }

  lemma {:induction false} PairsFromSorted(i: nat, n: nat)
    ensures forall k, l | 0 <= k < l < |PairsFrom(i, n)| :: Before(PairsFrom(i, n)[k], PairsFrom(i, n)[l])
    decreases n - i
  {
    if i < n {
      var a, b := Row(i, i + 1, n), PairsFrom(i + 1, n);
      RowSorted(i, i + 1, n);
      PairsFromSorted(i + 1, n);
      forall k, l | 0 <= k < l < |a + b|
        ensures Before((a + b)[k], (a + b)[l])
      {
        if l >= |a| && k < |a| {
          assert a[k] in a && b[l - |a|] in b;
        }
      }
    }
  }

  /** Every unordered pair of ids below `n` is in the list, and each exactly
      once, in lexicographic order. */
  lemma PairsExactlyOnce(n: nat)
    ensures forall i: nat, j: nat :: (i, j) in Pairs(n) <==> i < j < n
    ensures forall k, l | 0 <= k < l < |Pairs(n)| :: Before(Pairs(n)[k], Pairs(n)[l]) && Pairs(n)[k] != Pairs(n)[l]
  {
    forall i: nat, j: nat ensures (i, j) in Pairs(n) <==> i < j < n {
      PairsFromExact(0, n, i, j);
    }
    PairsFromSorted(0, n);
  }

  /** Applying `PairStep` to the listed pairs in order. */
  function Fold(s: State, ps: seq<(nat, nat)>): (r: State)
    ensures |r.ecs.masks| == |s.ecs.masks|
    decreases |ps|
  {
    if |ps| == 0 then s else Fold(PairStep(s, ps[0].0, ps[0].1), ps[1..])
  }

  lemma {:induction false} FoldAppend(s: State, a: seq<(nat, nat)>, b: seq<(nat, nat)>)
    ensures Fold(s, a + b) == Fold(Fold(s, a), b)
    decreases |a|
  {
    if |a| > 0 {
      assert (a + b)[0] == a[0] && (a + b)[1..] == a[1..] + b;
      FoldAppend(PairStep(s, a[0].0, a[0].1), a[1..], b);
    } else {
      assert a + b == b;
    }
  }

  /** The inner loop is the fold over its row. */
  lemma {:induction false} InnerIsRow(s: State, i: nat, j: nat)
    ensures Inner(s, i, j) == Fold(s, Row(i, j, |s.ecs.masks|))
    decreases |s.ecs.masks| - j
  {
    var n := |s.ecs.masks|;
    if j < n {
      var row := Row(i, j, n);
      assert row[0] == (i, j) && row[1..] == Row(i, j + 1, n);
      VisitIsPairStep(s, i, j);
      InnerIsRow(PairStep(s, i, j), i, j + 1);
    }
  }

  /** A collision pass keeps every id's Position and Collider bits. */
  lemma CollidableKept(s: State, r: State, e: nat)
    requires Frame(s, r) && e < |s.ecs.masks|
    ensures Collidable(r, e) == Collidable(s, e)
  {
    MatchesBoth(s.ecs, e, R.Position, R.Collider);
    MatchesBoth(r.ecs, e, R.Position, R.Collider);
  }

  /** A row of an id without Position or Collider folds to nothing. */
  lemma {:induction false} SkippedRow(s: State, i: nat, j: nat)
    requires i < |s.ecs.masks| && !Collidable(s, i)
    ensures Fold(s, Row(i, j, |s.ecs.masks|)) == s
    decreases |s.ecs.masks| - j
  {
    var n := |s.ecs.masks|;
    if j < n {
      var row := Row(i, j, n);
      assert row[0] == (i, j) && row[1..] == Row(i, j + 1, n);
      if i < j && Ready(s) {
        assert !Touching(s, i, j);
      }
      assert PairStep(s, i, j) == s;
      SkippedRow(s, i, j + 1);
    }
  }

  lemma {:induction false} OuterIsPairsFrom(s: State, i: nat)
    ensures Outer(s, i) == Fold(s, PairsFrom(i, |s.ecs.masks|))
    decreases |s.ecs.masks| - i
  {
    var n := |s.ecs.masks|;
    if i < n {
      var row, rest := Row(i, i + 1, n), PairsFrom(i + 1, n);
      assert PairsFrom(i, n) == row + rest;
      var s1 := RowOf(s, i);
      FoldAppend(s, row, rest);
      OuterIsPairsFrom(s1, i + 1);
    }
  }

  /** One outer iteration is the fold over that id's row. */
  lemma RowOf(s: State, i: nat) returns (s1: State)
    requires i < |s.ecs.masks|
    ensures s1 == (if !Collidable(s, i) then s else Inner(s, i, i + 1))
    ensures s1 == Fold(s, Row(i, i + 1, |s.ecs.masks|))
  {
    if Collidable(s, i) {
      InnerIsRow(s, i, i + 1);
      s1 := Inner(s, i, i + 1);
    } else {
      SkippedRow(s, i, i + 1);
      s1 := s;
    }
  }

  /** The pass is `PairStep` applied once to each pair `i < j` of ids, in
      lexicographic order. */
  lemma PassIsPairFold(s: State)
    requires Ready(s)
    ensures CollisionSystem(s) == Fold(s, Pairs(|s.ecs.masks|))
  {
    OuterIsPairsFrom(s, 0);
  }
}

=== FILE: circle_systems.dfy ===
/** The mask-query loops of the circle variant's other systems. Their bodies
    are placeholders that change nothing, so each system is modelled by the
    ids its loop visits: `for id in 0..maxId: if mask(id).test(required)`. */
module CircleSystems {
  import R = Registry
  import opened World
  import opened CircleWorld

  /** A loop whose required mask is built from two types visits exactly the
      ids whose mask has both bits. */
  lemma SelectsBoth(w: Ecs, a: R.ComponentType, b: R.ComponentType)
    requires Sized(w)
    ensures forall e: nat :: e in Query(w, R.MaskOf([a, b])) <==> e < |w.masks| && Has(w, e, a) && Has(w, e, b)
  {
    forall e: nat
      ensures e in Query(w, R.MaskOf([a, b])) <==> e < |w.masks| && Has(w, e, a) && Has(w, e, b)
    {
      QuerySelects(w, [a, b], e);
    }
  }

  /** `MovementSystem`: the ids with Position and Velocity, ascending. */
  function MovementSystem(s: State): (r: seq<nat>)
    requires Sized(s.ecs)
    ensures forall e: nat :: e in r <==> e < |s.ecs.masks| && Has(s.ecs, e, R.Position) && Has(s.ecs, e, R.Velocity)
    ensures forall k, l | 0 <= k < l < |r| :: r[k] < r[l]
  {
    SelectsBoth(s.ecs, R.Position, R.Velocity);
    Query(s.ecs, R.MaskOf([R.Position, R.Velocity]))
  }

  /** `PlayerControlSystem`: the ids with Position and PaddleControl. */
  function PlayerControlSystem(s: State): (r: seq<nat>)
    requires Sized(s.ecs)
    ensures forall e: nat :: e in r <==> e < |s.ecs.masks| && Has(s.ecs, e, R.Position) && Has(s.ecs, e, R.PaddleControl)
    ensures forall k, l | 0 <= k < l < |r| :: r[k] < r[l]
  {
    SelectsBoth(s.ecs, R.Position, R.PaddleControl);
    Query(s.ecs, R.MaskOf([R.Position, R.PaddleControl]))
  }

  /** `PowerUpSystem`: the ids with PowerUpType and TimedEffect. */
  function PowerUpSystem(s: State): (r: seq<nat>)
    requires Sized(s.ecs)
    ensures forall e: nat :: e in r <==> e < |s.ecs.masks| && Has(s.ecs, e, R.PowerUpType) && Has(s.ecs, e, R.TimedEffect)
    ensures forall k, l | 0 <= k < l < |r| :: r[k] < r[l]
  {
    SelectsBoth(s.ecs, R.PowerUpType, R.TimedEffect);
    Query(s.ecs, R.MaskOf([R.PowerUpType, R.TimedEffect]))
  }

  /** `UISystem`: the ids with Score and LifeCount. */
  function UISystem(s: State): (r: seq<nat>)
    requires Sized(s.ecs)
    ensures forall e: nat :: e in r <==> e < |s.ecs.masks| && Has(s.ecs, e, R.Score) && Has(s.ecs, e, R.LifeCount)
    ensures forall k, l | 0 <= k < l < |r| :: r[k] < r[l]
  {
    SelectsBoth(s.ecs, R.Score, R.LifeCount);
    Query(s.ecs, R.MaskOf([R.Score, R.LifeCount]))
  }

  /** `DestroySystem`: the ids tagged `DestroyedTag`. */
  function DestroySystem(s: State): (r: seq<nat>)
    requires Sized(s.ecs)
    ensures forall e: nat :: e in r <==> e < |s.ecs.masks| && Has(s.ecs, e, R.DestroyedTag)
    ensures forall k, l | 0 <= k < l < |r| :: r[k] < r[l]
  {
    forall e: nat
      ensures e in Query(s.ecs, R.MaskOf([R.DestroyedTag])) <==> e < |s.ecs.masks| && Has(s.ecs, e, R.DestroyedTag)
    {
      QuerySelects(s.ecs, [R.DestroyedTag], e);
    }
    Query(s.ecs, R.MaskOf([R.DestroyedTag]))
  }

  /** A power-up from `CreatePowerUp` carries `DestroyedTag` from the start,
      so the destroy loop visits it as soon as it exists. */
  lemma PowerUpBornDestroyed(s: State, kind: int)
    requires Consistent(s)
    ensures var (r, e) := CreatePowerUp(s, kind);
            Sized(r.ecs) && e in DestroySystem(r) && e in PowerUpSystem(r) && e in MovementSystem(r)
  {
    var (r, e) := CreatePowerUp(s, kind);
    assert Bundle(r, e, PowerUpBundle);
    assert R.DestroyedTag in PowerUpBundle && R.PowerUpType in PowerUpBundle && R.TimedEffect in PowerUpBundle;
    assert R.Position in PowerUpBundle && R.Velocity in PowerUpBundle;
  }
}

=== FILE: circle_world.dfy ===
/** The circle-collider variant of the game: its component records with
    their default field values, the game state (the ECS world plus one map
    per data-carrying component type), and the entity constructors.

    Tag components (`BallTag`, `DestroyedTag`, `FloorTag`) carry no fields
    and use tag storage, so their presence is exactly their mask bit. */
module CircleWorld {
  import opened Masks
  import R = Registry
  import opened World
  import opened Components
  import opened Options
  import Storage

  /** Sprite placeholder id. */
  datatype Sprite = Sprite(spriteId: int)

  /** Circular collider. */
  datatype Collider = Collider(radius: int)

  /** Power-up kind: 0 none, 1 wide paddle, 2 multi-ball. */
  datatype PowerUpType = PowerUpType(kind: int)

  datatype LifeCount = LifeCount(lives: int)

  datatype Score = Score(points: int)

  /** The default member initialisers of each record. */
  const DefaultPosition: Position := Position(0.0, 0.0)
  const DefaultVelocity: Velocity := Velocity(0.0, 0.0)
  const DefaultSprite: Sprite := Sprite(-1)
  const DefaultCollider: Collider := Collider(5)
  const DefaultBrickHealth: BrickHealth := BrickHealth(1)
  const DefaultPaddleControl: PaddleControl := PaddleControl(-1, -1)
  const DefaultPowerUpType: PowerUpType := PowerUpType(0)
  const DefaultTimedEffect: TimedEffect := TimedEffect(0.0)
  const DefaultLifeCount: LifeCount := LifeCount(3)
  const DefaultScore: Score := Score(0)

  /** The ECS world with the values stored for each data component type. */
  datatype State = State(
    ecs: Ecs,
    pos: map<nat, Position>,
    vel: map<nat, Velocity>,
    sprite: map<nat, Sprite>,
    col: map<nat, Collider>,
    health: map<nat, BrickHealth>,
    paddle: map<nat, PaddleControl>,
    power: map<nat, PowerUpType>,
    timed: map<nat, TimedEffect>,
    lives: map<nat, LifeCount>,
    score: map<nat, Score>)

  /** Entity `e`'s mask bit for a data component type implies a stored value
      for it, so `getComponent` is defined wherever the mask says so. */
  predicate StoredAt(s: State, e: nat)
    requires e < |s.ecs.masks|
  {
    && (Has(s.ecs, e, R.Position) ==> e in s.pos)
    && (Has(s.ecs, e, R.Velocity) ==> e in s.vel)
    && (Has(s.ecs, e, R.Sprite) ==> e in s.sprite)
    && (Has(s.ecs, e, R.Collider) ==> e in s.col)
    && (Has(s.ecs, e, R.BrickHealth) ==> e in s.health)
    && (Has(s.ecs, e, R.PaddleControl) ==> e in s.paddle)
    && (Has(s.ecs, e, R.PowerUpType) ==> e in s.power)
    && (Has(s.ecs, e, R.TimedEffect) ==> e in s.timed)
    && (Has(s.ecs, e, R.LifeCount) ==> e in s.lives)
    && (Has(s.ecs, e, R.Score) ==> e in s.score)
  }

  predicate Stored(s: State) {
    forall e | 0 <= e < |s.ecs.masks| :: StoredAt(s, e)
  }

  predicate Consistent(s: State) {
    World.Valid(s.ecs) && Stored(s)
  }

  /** The program's state before any entity is created. */
  const Empty: State := State(Initial, map[], map[], map[], map[], map[], map[], map[], map[], map[], map[])

  lemma EmptyConsistent()
    ensures Consistent(Empty)
  {
  }

  /** Changing stored values without dropping any keeps the state
      consistent as long as the masks stay as they were. */
  lemma Restore(s: State, r: State)
    requires Consistent(s) && r.ecs == s.ecs
    requires s.pos.Keys <= r.pos.Keys && s.vel.Keys <= r.vel.Keys
    requires s.sprite.Keys <= r.sprite.Keys && s.col.Keys <= r.col.Keys
    requires s.health.Keys <= r.health.Keys && s.paddle.Keys <= r.paddle.Keys
    requires s.power.Keys <= r.power.Keys && s.timed.Keys <= r.timed.Keys
    requires s.lives.Keys <= r.lives.Keys && s.score.Keys <= r.score.Keys
    ensures Consistent(r)
  {
    forall x | 0 <= x < |r.ecs.masks|
      ensures StoredAt(r, x)
    {
      assert StoredAt(s, x);
    }
  }

  /** `addComponent(e, Tag{})` for a tag type on a live entity: only the
      tag's bit of `e` changes, and the state stays consistent. */
  function Tag(s: State, e: nat, c: R.ComponentType): (r: State)
    requires Consistent(s) && Live(s.ecs, e) && R.StorageOf(c) == Storage.TaggedKind
    ensures Consistent(r) && r == s.(ecs := r.ecs)
    ensures r.ecs.free == s.ecs.free && r.ecs.maxId == s.ecs.maxId && |r.ecs.masks| == |s.ecs.masks|
    ensures Has(r.ecs, e, c)
    ensures forall x, d | 0 <= x < |s.ecs.masks| && (x != e || d != c) :: Has(r.ecs, x, d) == Has(s.ecs, x, d)
  {
    var r := s.(ecs := AddTag(s.ecs, c, e));
    TagConsistent(s, e, c, r);
    r
  }

  lemma TagConsistent(s: State, e: nat, c: R.ComponentType, r: State)
    requires Consistent(s) && Live(s.ecs, e) && R.StorageOf(c) == Storage.TaggedKind
    requires r == s.(ecs := AddTag(s.ecs, c, e))
    ensures Consistent(r)
  {
    forall x | 0 <= x < |r.ecs.masks|
      ensures StoredAt(r, x)
    {
      assert StoredAt(s, x);
      TagStoredAt(s, r, c, x);
    }
  }

  /** Setting a tag bit on `x` keeps `x`'s stored values in place. */
  lemma TagStoredAt(s: State, r: State, c: R.ComponentType, x: nat)
    requires x < |s.ecs.masks| && x < |r.ecs.masks| && StoredAt(s, x)
    requires R.StorageOf(c) == Storage.TaggedKind
    requires forall d | d != c :: Has(r.ecs, x, d) == Has(s.ecs, x, d)
    requires r == s.(ecs := r.ecs)
    ensures StoredAt(r, x)
  {
  }

  /** Every ball has a velocity, which the paddle reaction reads. */
  predicate BallsMove(s: State) {
    forall e | 0 <= e < |s.ecs.masks| && Has(s.ecs, e, R.BallTag) :: e in s.vel
  }

  /** `e` is a newly created entity of `r`, and nothing about any other
      entity of `s` differs in `r`. */
  predicate Created(s: State, r: State, e: nat) {
    && Live(r.ecs, e) && !Live(s.ecs, e)
    && |s.ecs.masks| <= |r.ecs.masks|
    && (forall x | 0 <= x < |s.ecs.masks| && x != e :: r.ecs.masks[x] == s.ecs.masks[x])
    && (forall x | 0 <= x < |s.ecs.masks| && Live(s.ecs, x) :: Live(r.ecs, x))
    && AgreeAll(s, r, e)
  }

  /** Every component map of `r` agrees with `s` except at `e`. */
  predicate AgreeAll(s: State, r: State, e: nat) {
    && AgreeExcept(s.pos, r.pos, e) && AgreeExcept(s.vel, r.vel, e)
    && AgreeExcept(s.sprite, r.sprite, e) && AgreeExcept(s.col, r.col, e)
    && AgreeExcept(s.health, r.health, e) && AgreeExcept(s.paddle, r.paddle, e)
    && AgreeExcept(s.power, r.power, e) && AgreeExcept(s.timed, r.timed, e)
    && AgreeExcept(s.lives, r.lives, e) && AgreeExcept(s.score, r.score, e)
  }

  /** Exactly the types in `cs` are set in `e`'s mask. */
  predicate Bundle(s: State, e: nat, cs: seq<R.ComponentType>)
    requires e < |s.ecs.masks|
  {
    forall c :: Has(s.ecs, e, c) <==> c in cs
  }

  /** The values `addAll` stores for a new entity: one per data component
      type it lists, `None` for the types it does not list. */
  datatype Init = Init(
    pos: Option<Position>,
    vel: Option<Velocity>,
    sprite: Option<Sprite>,
    col: Option<Collider>,
    health: Option<BrickHealth>,
    paddle: Option<PaddleControl>,
    power: Option<PowerUpType>,
    timed: Option<TimedEffect>,
    lives: Option<LifeCount>,
    score: Option<Score>)

  const NoValues: Init := Init(None, None, None, None, None, None, None, None, None, None)

  /** A value is given for a data component type exactly when the bundle
      lists it. */
  predicate Covers(cs: seq<R.ComponentType>, init: Init) {
    && (R.Position in cs <==> init.pos.Some?)
    && (R.Velocity in cs <==> init.vel.Some?)
    && (R.Sprite in cs <==> init.sprite.Some?)
    && (R.Collider in cs <==> init.col.Some?)
    && (R.BrickHealth in cs <==> init.health.Some?)
    && (R.PaddleControl in cs <==> init.paddle.Some?)
    && (R.PowerUpType in cs <==> init.power.Some?)
    && (R.TimedEffect in cs <==> init.timed.Some?)
    && (R.LifeCount in cs <==> init.lives.Some?)
    && (R.Score in cs <==> init.score.Some?)
  }

  /** `Entity::create()` followed by `addAll(...)`: a new entity whose mask
      holds exactly the bundle `cs`, with the given value stored for each
      data type it lists, and nothing about any other entity changed. */
  function Spawn(s: State, cs: seq<R.ComponentType>, init: Init): (r: (State, nat))
    requires Consistent(s) && Covers(cs, init)
    ensures Created(s, r.0, r.1)
    ensures Consistent(r.0)
    ensures Bundle(r.0, r.1, cs)
    ensures init.pos.Some? ==> r.1 in r.0.pos && r.0.pos[r.1] == init.pos.value
    ensures init.vel.Some? ==> r.1 in r.0.vel && r.0.vel[r.1] == init.vel.value
    ensures init.sprite.Some? ==> r.1 in r.0.sprite && r.0.sprite[r.1] == init.sprite.value
    ensures init.col.Some? ==> r.1 in r.0.col && r.0.col[r.1] == init.col.value
    ensures init.health.Some? ==> r.1 in r.0.health && r.0.health[r.1] == init.health.value
    ensures init.paddle.Some? ==> r.1 in r.0.paddle && r.0.paddle[r.1] == init.paddle.value
    ensures init.power.Some? ==> r.1 in r.0.power && r.0.power[r.1] == init.power.value
    ensures init.timed.Some? ==> r.1 in r.0.timed && r.0.timed[r.1] == init.timed.value
    ensures init.lives.Some? ==> r.1 in r.0.lives && r.0.lives[r.1] == init.lives.value
    ensures init.score.Some? ==> r.1 in r.0.score && r.0.score[r.1] == init.score.value
    ensures BallsMove(s) && (R.BallTag in cs ==> init.vel.Some?) ==> BallsMove(r.0)
  {
    var c := CreateEntity(s.ecs);
    var r := State(SetBits(c.0, c.1, cs),
      Put(s.pos, c.1, init.pos), Put(s.vel, c.1, init.vel), Put(s.sprite, c.1, init.sprite),
      Put(s.col, c.1, init.col), Put(s.health, c.1, init.health), Put(s.paddle, c.1, init.paddle),
      Put(s.power, c.1, init.power), Put(s.timed, c.1, init.timed), Put(s.lives, c.1, init.lives),
      Put(s.score, c.1, init.score));
    InstallMask(s.ecs, c.0, c.1, cs);
    Install(s, c.1, cs, r);
    assert BallsMove(s) && (R.BallTag in cs ==> init.vel.Some?) ==> BallsMove(r) by {
      if BallsMove(s) && (R.BallTag in cs ==> init.vel.Some?) {
        forall x | 0 <= x < |r.ecs.masks| && Has(r.ecs, x, R.BallTag)
          ensures x in r.vel
        {
          if x != c.1 {
            assert Has(r.ecs, x, R.BallTag) == Has(s.ecs, x, R.BallTag);
          }
        }
      }
    }
    (r, c.1)
  }

  /** Installing a bundle keeps the state consistent, and the entity is new. */
  lemma Install(s: State, e: nat, cs: seq<R.ComponentType>, r: State)
    requires Consistent(s)
    requires World.Valid(r.ecs) && Live(r.ecs, e) && !Live(s.ecs, e)
    requires |s.ecs.masks| <= |r.ecs.masks| <= |s.ecs.masks| + 1
    requires |r.ecs.masks| == |s.ecs.masks| + 1 ==> e == |s.ecs.masks|
    requires forall x | 0 <= x < |s.ecs.masks| && x != e :: r.ecs.masks[x] == s.ecs.masks[x]
    requires forall x | 0 <= x < |s.ecs.masks| && Live(s.ecs, x) :: Live(r.ecs, x)
    requires forall c :: Has(r.ecs, e, c) <==> c in cs
    requires AgreeAll(s, r, e)
    requires R.Position in cs ==> e in r.pos
    requires R.Velocity in cs ==> e in r.vel
    requires R.Sprite in cs ==> e in r.sprite
    requires R.Collider in cs ==> e in r.col
    requires R.BrickHealth in cs ==> e in r.health
    requires R.PaddleControl in cs ==> e in r.paddle
    requires R.PowerUpType in cs ==> e in r.power
    requires R.TimedEffect in cs ==> e in r.timed
    requires R.LifeCount in cs ==> e in r.lives
    requires R.Score in cs ==> e in r.score
    ensures Created(s, r, e)
    ensures Consistent(r)
  {
    forall x | 0 <= x < |r.ecs.masks|
      ensures StoredAt(r, x)
    {
      if x != e {
        assert x < |s.ecs.masks|;
        StoredKept(s, r, e, x);
      }
    }
  }

  /** An entity other than `e` whose mask is unchanged keeps its values. */
  lemma StoredKept(s: State, r: State, e: nat, x: nat)
    requires x < |s.ecs.masks| && x < |r.ecs.masks| && x != e
    requires r.ecs.masks[x] == s.ecs.masks[x] && StoredAt(s, x)
    requires AgreeAll(s, r, e)
    ensures StoredAt(r, x)
  {
    assert forall c :: Has(r.ecs, x, c) == Has(s.ecs, x, c);
  }

  const BallBundle: seq<R.ComponentType> := [R.Position, R.Velocity, R.Sprite, R.Collider, R.BallTag]
  const BrickBundle: seq<R.ComponentType> := [R.Position, R.Sprite, R.Collider, R.BrickHealth]
  const PaddleBundle: seq<R.ComponentType> := [R.Position, R.Sprite, R.Collider, R.PaddleControl]
  const PowerUpBundle: seq<R.ComponentType> :=
    [R.Position, R.Velocity, R.Sprite, R.Collider, R.PowerUpType, R.TimedEffect, R.DestroyedTag]
  const UIManagerBundle: seq<R.ComponentType> := [R.Score, R.LifeCount]
  const FloorBundle: seq<R.ComponentType> := [R.Position, R.Collider, R.FloorTag]

  /** `CreateBall`: Position, Velocity, Sprite and Collider at their defaults,
      plus `BallTag`. */
  function CreateBall(s: State): (r: (State, nat))
    requires Consistent(s)
    ensures Created(s, r.0, r.1)
    ensures Consistent(r.0)
    ensures BallsMove(s) ==> BallsMove(r.0)
    ensures Bundle(r.0, r.1, BallBundle)
    ensures r.1 in r.0.pos && r.1 in r.0.vel && r.1 in r.0.sprite && r.1 in r.0.col
    ensures r.0.pos[r.1] == Position(0.0, 0.0) && r.0.vel[r.1] == Velocity(0.0, 0.0)
    ensures r.0.sprite[r.1] == Sprite(-1) && r.0.col[r.1] == Collider(5)
  {
    Spawn(s, BallBundle, NoValues.(pos := Some(DefaultPosition), vel := Some(DefaultVelocity),
                        sprite := Some(DefaultSprite), col := Some(DefaultCollider)))
  }

  /** `CreateBrick(health)`: default Position, Sprite and Collider and the
      given hit count. */
  function CreateBrick(s: State, health: int): (r: (State, nat))
    requires Consistent(s)
    ensures Created(s, r.0, r.1)
    ensures Consistent(r.0)
    ensures BallsMove(s) ==> BallsMove(r.0)
    ensures Bundle(r.0, r.1, BrickBundle)
    ensures r.1 in r.0.pos && r.1 in r.0.sprite && r.1 in r.0.col && r.1 in r.0.health
    ensures r.0.pos[r.1] == Position(0.0, 0.0) && r.0.sprite[r.1] == Sprite(-1)
    ensures r.0.col[r.1] == Collider(5) && r.0.health[r.1] == BrickHealth(health)
  {
    assert R.BallTag !in BrickBundle;
    Spawn(s, BrickBundle, NoValues.(pos := Some(DefaultPosition), sprite := Some(DefaultSprite),
                        col := Some(DefaultCollider), health := Some(BrickHealth(health))))
  }

  /** `CreatePaddle(left, right)`: default Position, Sprite and Collider and
      the given keys. */
  function CreatePaddle(s: State, left: int, right: int): (r: (State, nat))
    requires Consistent(s)
    ensures Created(s, r.0, r.1)
    ensures Consistent(r.0)
    ensures BallsMove(s) ==> BallsMove(r.0)
    ensures Bundle(r.0, r.1, PaddleBundle)
    ensures r.1 in r.0.pos && r.1 in r.0.col && r.1 in r.0.paddle
    ensures r.0.paddle[r.1].keyLeft == left && r.0.paddle[r.1].keyRight == right
    ensures r.0.pos[r.1] == Position(0.0, 0.0) && r.0.col[r.1] == Collider(5)
  {
    assert R.BallTag !in PaddleBundle;
    Spawn(s, PaddleBundle, NoValues.(pos := Some(DefaultPosition), sprite := Some(DefaultSprite),
                        col := Some(DefaultCollider), paddle := Some(PaddleControl(left, right))))
  }

  /** `CreatePowerUp(type)`: default Position, Velocity, Sprite, Collider and
      TimedEffect, the given kind, and `DestroyedTag` from the start. */
  function CreatePowerUp(s: State, kind: int): (r: (State, nat))
    requires Consistent(s)
    ensures Created(s, r.0, r.1)
    ensures Consistent(r.0)
    ensures BallsMove(s) ==> BallsMove(r.0)
    ensures Bundle(r.0, r.1, PowerUpBundle)
    ensures r.1 in r.0.power && r.1 in r.0.timed
    ensures r.0.power[r.1].kind == kind && r.0.timed[r.1] == TimedEffect(0.0)
  {
    assert R.BallTag !in PowerUpBundle;
    Spawn(s, PowerUpBundle, NoValues.(pos := Some(DefaultPosition), vel := Some(DefaultVelocity),
                        sprite := Some(DefaultSprite), col := Some(DefaultCollider),
                        power := Some(PowerUpType(kind)), timed := Some(DefaultTimedEffect)))
  }

  /** `CreateUIManager`: Score and LifeCount at their defaults (0 points,
      3 lives). */
  function CreateUIManager(s: State): (r: (State, nat))
    requires Consistent(s)
    ensures Created(s, r.0, r.1)
    ensures Consistent(r.0)
    ensures BallsMove(s) ==> BallsMove(r.0)
    ensures Bundle(r.0, r.1, UIManagerBundle)
    ensures r.1 in r.0.score && r.1 in r.0.lives
    ensures r.0.score[r.1] == Score(0) && r.0.lives[r.1] == LifeCount(3)
  {
    assert R.BallTag !in UIManagerBundle;
    Spawn(s, UIManagerBundle, NoValues.(score := Some(DefaultScore), lives := Some(DefaultLifeCount)))
  }

  /** `CreateFloor`: a wide collider at (400, 590) with `FloorTag`. */
  function CreateFloor(s: State): (r: (State, nat))
    requires Consistent(s)
    ensures Created(s, r.0, r.1)
    ensures Consistent(r.0)
    ensures BallsMove(s) ==> BallsMove(r.0)
    ensures Bundle(r.0, r.1, FloorBundle)
    ensures r.1 in r.0.pos && r.1 in r.0.col
    ensures r.0.pos[r.1] == Position(400.0, 590.0) && r.0.col[r.1] == Collider(1000)
  {
    assert R.BallTag !in FloorBundle;
    Spawn(s, FloorBundle, NoValues.(pos := Some(Position(400.0, 590.0)), col := Some(Collider(1000))))
  }
}

=== FILE: components.dfy ===
/** Component records the two game variants declare alike. Coordinates and
    durations are `float` in the source and `real` here. */
module Components {
  import opened Options

  /** Screen position (top-left corner in the AABB variant, centre in the
      circle variant). */
  datatype Position = Position(x: real, y: real)

  /** Displacement per movement step. */
  datatype Velocity = Velocity(dx: real, dy: real)

  /** Hits a brick can still take. */
  datatype BrickHealth = BrickHealth(hits: int)

  /** Key codes steering a paddle. */
  datatype PaddleControl = PaddleControl(keyLeft: int, keyRight: int)

  /** Seconds a power-up effect still lasts. */
  datatype TimedEffect = TimedEffect(duration: real)

  /** The velocity with its vertical component negated (`vel.dy *= -1`). */
  function FlipY(v: Velocity): (r: Velocity)
    ensures r.dx == v.dx && r.dy == -v.dy
    ensures Velocity(r.dx, -r.dy) == v
  {
    Velocity(v.dx, -v.dy)
  }

  /** Two component maps agree on every entity except `e`, and `b` stores
      nothing new except possibly for `e`. */
  predicate AgreeExcept<T(==)>(a: map<nat, T>, b: map<nat, T>, e: nat) {
    && (forall x | x in a && x != e :: x in b && b[x] == a[x])
    && (forall x | x in b && x != e :: x in a)
  }

  lemma AgreeUpdate<T>(a: map<nat, T>, e: nat, v: T)
    ensures AgreeExcept(a, a[e := v], e) && e in a[e := v] && a[e := v][e] == v
  {
  }

  /** `Storage<T>::add(e, t)` when `t` is given, nothing otherwise. */
  function Put<T>(m: map<nat, T>, e: nat, v: Option<T>): (r: map<nat, T>)
    ensures AgreeExcept(m, r, e)
    ensures v.Some? ==> e in r && r[e] == v.value
  {
    if v.Some? then m[e := v.value] else m
  }
}

=== FILE: masks.dfy ===
/** Component masks of the BAGEL runtime.

    A machine word of `mask_type` is modelled by its bits: bit `i` of word
    `w` is `w[i]`. The bitwise operators `&`, `|` and `~` act bit by bit.
    `SingleMask` is one word; `MultiMask` is a fixed array of words, addressed
    by a `(word index, bit pattern)` pair. */
module Masks {

  /** Width in bits of `mask_type`. With `MaxComponents = 10` the source picks
      `uint_fast16_t`, whose width the C++ standard leaves to the
      implementation (at least 16 bits). The model assumes 32 bits.
      `SingleMask::bit` shifts a plain `int`, so any width that covers
      every registered index behaves the same; the joint registry of 18
      types here needs at least 18 bits. */
  const BitsetWidth: nat := 32

  type Word = w: seq<bool> | |w| == BitsetWidth witness seq(32, _ => false)

  /** The all-zero word (`_mask{0}`, `memset(…, 0, …)`). */
  function Zero(): Word {
    seq(BitsetWidth, _ => false)
  }

  function Or(a: Word, b: Word): Word {
    seq(BitsetWidth, i requires 0 <= i < BitsetWidth => a[i] || b[i])
  }

  function And(a: Word, b: Word): Word {
    seq(BitsetWidth, i requires 0 <= i < BitsetWidth => a[i] && b[i])
  }

  function Not(a: Word): Word {
    seq(BitsetWidth, i requires 0 <= i < BitsetWidth => !a[i])
  }

  predicate IsZero(w: Word) {
    forall i | 0 <= i < BitsetWidth :: !w[i]
  }

  lemma ZeroIff(w: Word)
    ensures w == Zero() <==> IsZero(w)
  {
    if IsZero(w) {
      assert forall i | 0 <= i < BitsetWidth :: w[i] == Zero()[i];
    }
  }

  // ---------------------------------------------------------------------
  // SingleMask
  // ---------------------------------------------------------------------

  /** `SingleMask::bit(idx)`: the word `1 << idx`, only bit `idx` set. */
  function Bit(idx: nat): (b: Word)
    requires idx < BitsetWidth
    ensures b[idx]
    ensures forall i | 0 <= i < BitsetWidth && i != idx :: !b[i]
  {
    seq(BitsetWidth, i requires 0 <= i < BitsetWidth => i == idx)
  }

  /** `SingleMask::set(b)`: `_mask |= b`. Every bit of `b` ends up set and
      every bit outside `b` keeps its value. */
  function Set(m: Word, b: Word): (r: Word)
    ensures forall i | 0 <= i < BitsetWidth && b[i] :: r[i]
    ensures forall i | 0 <= i < BitsetWidth && !b[i] :: r[i] == m[i]
    ensures !IsZero(b) ==> TestBit(r, b)
  {
    var r := Or(m, b);
    assert !IsZero(b) ==> And(r, b) != Zero() by {
      if !IsZero(b) {
        var k :| 0 <= k < BitsetWidth && b[k];
        assert And(r, b)[k];
      }
    }
    r
  }

  /** `SingleMask::clear(b)`: `_mask &= ~b`. Every bit of `b` ends up clear
      and every bit outside `b` keeps its value. */
  function Clear(m: Word, b: Word): (r: Word)
    ensures forall i | 0 <= i < BitsetWidth && b[i] :: !r[i]
    ensures forall i | 0 <= i < BitsetWidth && !b[i] :: r[i] == m[i]
    ensures !TestBit(r, b)
  {
    var r := And(m, Not(b));
    assert And(r, b) == Zero();
    r
  }

  /** `SingleMask::test(bit_type b)`: `(_mask & b) != 0`, true iff the mask
      shares at least one bit with `b`. */
  predicate TestBit(m: Word, b: Word)
    ensures TestBit(m, b) <==> exists i | 0 <= i < BitsetWidth :: m[i] && b[i]
  {
    OverlapWitness(m, b);
    And(m, b) != Zero()
  }

  lemma OverlapWitness(m: Word, b: Word)
    ensures And(m, b) != Zero() <==> exists i | 0 <= i < BitsetWidth :: m[i] && b[i]
  {
    if exists i | 0 <= i < BitsetWidth :: m[i] && b[i] {
      var k :| 0 <= k < BitsetWidth && m[k] && b[k];
      assert And(m, b)[k] != Zero()[k];
    } else {
      assert forall i | 0 <= i < BitsetWidth :: And(m, b)[i] == Zero()[i];
    }
  }

  /** `SingleMask::test(SingleMask r)`: `(_mask & r._mask) == r._mask`, true
      iff every bit of `r` is set in `m`. */
  predicate Test(m: Word, r: Word)
    ensures Test(m, r) <==> forall i | 0 <= i < BitsetWidth :: r[i] ==> m[i]
  {
    assert (forall i | 0 <= i < BitsetWidth :: r[i] ==> m[i]) ==> And(m, r) == r by {
      if forall i | 0 <= i < BitsetWidth :: r[i] ==> m[i] {
        assert forall i | 0 <= i < BitsetWidth :: And(m, r)[i] == r[i];
      }
    }
    And(m, r) == r
  }

  /** Testing a single-bit word reads exactly that bit. */
  lemma TestSingleBit(m: Word, idx: nat)
    requires idx < BitsetWidth
    ensures TestBit(m, Bit(idx)) == m[idx]
    ensures Test(m, Bit(idx)) == m[idx]
  {
  }

  /** `set(bit(i))` turns bit `i` on and leaves every other bit alone; `clear`
      turns it off and leaves every other bit alone. */
  lemma SetClearBit(m: Word, i: nat, j: nat)
    requires i < BitsetWidth && j < BitsetWidth
    ensures TestBit(Set(m, Bit(i)), Bit(j)) == (i == j || TestBit(m, Bit(j)))
    ensures TestBit(Clear(m, Bit(i)), Bit(j)) == (i != j && TestBit(m, Bit(j)))
  {
    TestSingleBit(m, j);
    TestSingleBit(Set(m, Bit(i)), j);
    TestSingleBit(Clear(m, Bit(i)), j);
  }

  /** Distinct indices give distinct single-bit words. */
  lemma BitInjective(i: nat, j: nat)
    requires i < BitsetWidth && j < BitsetWidth
    ensures Bit(i) == Bit(j) <==> i == j
  {
    if Bit(i) == Bit(j) {
      assert Bit(j)[i];
    }
  }

  // ---------------------------------------------------------------------
  // MultiMask
  // ---------------------------------------------------------------------

  /** `MultiMask::bit_type`: which word, and the bit pattern within it. */
  datatype BitRef = BitRef(index: nat, mask: Word)

  /** `MultiMask::Size`: number of words needed for `maxComponents` bits. */
  function Size(maxComponents: nat): (n: nat)
    requires maxComponents >= 1
    ensures n * BitsetWidth >= maxComponents
    ensures (n - 1) * BitsetWidth < maxComponents
  {
    (maxComponents - 1) / BitsetWidth + 1
  }

  /** `MultiMask::bit(idx)`: word `idx / BitsetWidth`, bit `idx % BitsetWidth`. */
  function MultiBit(idx: nat): (b: BitRef)
    ensures b.index * BitsetWidth <= idx < (b.index + 1) * BitsetWidth
    ensures forall i | 0 <= i < BitsetWidth :: b.mask[i] <==> b.index * BitsetWidth + i == idx
  {
    BitRef(idx / BitsetWidth, Bit(idx % BitsetWidth))
  }

  /** A zero-initialised MultiMask of `n` words (`_masks[Size] = {}`). */
  function MultiZero(n: nat): (m: seq<Word>)
    ensures |m| == n
    ensures forall k | 0 <= k < n :: m[k] == Zero()
  {
    seq(n, _ => Zero())
  }

  /** `MultiMask::set(b)`: `_masks[b.index] |= b.mask`. */
  function MultiSet(m: seq<Word>, b: BitRef): (r: seq<Word>)
    requires b.index < |m|
    ensures |r| == |m|
    ensures forall k, i | 0 <= k < |m| && 0 <= i < BitsetWidth ::
              r[k][i] == (m[k][i] || (k == b.index && b.mask[i]))
  {
    m[b.index := Set(m[b.index], b.mask)]
  }

  /** `MultiMask::clear(b)`: `_masks[b.index] &= ~b.mask`. */
  function MultiClear(m: seq<Word>, b: BitRef): (r: seq<Word>)
    requires b.index < |m|
    ensures |r| == |m|
    ensures forall k, i | 0 <= k < |m| && 0 <= i < BitsetWidth ::
              r[k][i] == (m[k][i] && !(k == b.index && b.mask[i]))
  {
    m[b.index := Clear(m[b.index], b.mask)]
  }

  /** `MultiMask::test(bit_type b)`: `_masks[b.index] & b.mask`. */
  predicate MultiTestBit(m: seq<Word>, b: BitRef)
    requires b.index < |m|
    ensures MultiTestBit(m, b) <==> exists i | 0 <= i < BitsetWidth :: m[b.index][i] && b.mask[i]
  {
    TestBit(m[b.index], b.mask)
  }

  /** `MultiMask::test(MultiMask)` as a predicate: every word of `r` is
      included in the corresponding word of `m`. */
  predicate MultiIncludes(m: seq<Word>, r: seq<Word>)
    requires |m| == |r|
  {
    forall k | 0 <= k < |m| :: Test(m[k], r[k])
  }

  /** `MultiMask::test(MultiMask)`: the loop of bagel.h, returning false at the
      first word where `(_masks[i] & m._masks[i]) != m._masks[i]`. */
  method MultiTest(m: seq<Word>, r: seq<Word>) returns (ok: bool)
    requires |m| == |r|
    ensures ok <==> forall k | 0 <= k < |m| :: forall i | 0 <= i < BitsetWidth :: r[k][i] ==> m[k][i]
  {
    var k := 0;
    while k < |r|
      invariant 0 <= k <= |r|
      invariant forall j | 0 <= j < k :: Test(m[j], r[j])
    {
      if And(m[k], r[k]) != r[k] {
        return false;
      }
      k := k + 1;
    }
    return true;
  }

  /** The bits of a MultiMask read as one wide bit string, word 0 first. */
  function Flatten(m: seq<Word>): (bits: seq<bool>)
    ensures |bits| == |m| * BitsetWidth
  {
    if |m| == 0 then [] else m[0] + Flatten(m[1..])
  }

  /** Bit `k` of the wide bit string lives in word `k / BitsetWidth` at
      position `k % BitsetWidth`: the addressing `MultiMask::bit` uses. */
  lemma {:induction false} FlattenIndex(m: seq<Word>, k: nat)
    requires k < |m| * BitsetWidth
    ensures Flatten(m)[k] == m[k / BitsetWidth][k % BitsetWidth]
    decreases |m|
  {
    if k < BitsetWidth {
      assert Flatten(m)[k] == m[0][k];
    } else {
      var rest := m[1..];
      assert |rest| * BitsetWidth == |m| * BitsetWidth - BitsetWidth;
      FlattenIndex(rest, k - BitsetWidth);
      assert (k - BitsetWidth) / BitsetWidth + 1 == k / BitsetWidth;
      assert (k - BitsetWidth) % BitsetWidth == k % BitsetWidth;
      assert Flatten(m)[k] == Flatten(rest)[k - BitsetWidth];
    }
  }

  /** `MultiMask::test(bit(idx))` reads bit `idx` of the wide bit string. */
  lemma MultiTestBitFlat(m: seq<Word>, idx: nat)
    requires idx < |m| * BitsetWidth
    ensures MultiBit(idx).index < |m|
    ensures MultiTestBit(m, MultiBit(idx)) == Flatten(m)[idx]
  {
    FlattenIndex(m, idx);
    TestSingleBit(m[idx / BitsetWidth], idx % BitsetWidth);
  }

  /** `MultiMask::set(bit(idx))` turns on bit `idx` of the wide bit string and
      nothing else; `clear(bit(idx))` turns it off and nothing else. */
  lemma MultiSetClearFlat(m: seq<Word>, idx: nat, k: nat)
    requires idx < |m| * BitsetWidth && k < |m| * BitsetWidth
    ensures MultiBit(idx).index < |m|
    ensures Flatten(MultiSet(m, MultiBit(idx)))[k] == (k == idx || Flatten(m)[k])
    ensures Flatten(MultiClear(m, MultiBit(idx)))[k] == (k != idx && Flatten(m)[k])
  {
    var b := MultiBit(idx);
    FlattenIndex(m, idx);
    FlattenIndex(m, k);
    FlattenIndex(MultiSet(m, b), k);
    FlattenIndex(MultiClear(m, b), k);
    if k / BitsetWidth == idx / BitsetWidth && k != idx {
      assert k % BitsetWidth != idx % BitsetWidth;
    }
  }

  /** Distinct indices give distinct MultiMask bits. */
  lemma MultiBitInjective(i: nat, j: nat)
    ensures MultiBit(i) == MultiBit(j) <==> i == j
  {
    if MultiBit(i) == MultiBit(j) {
      BitInjective(i % BitsetWidth, j % BitsetWidth);
      assert i == (i / BitsetWidth) * BitsetWidth + i % BitsetWidth;
      assert j == (j / BitsetWidth) * BitsetWidth + j % BitsetWidth;
    }
  }

  /** Every bit of the wide string of `r` is set in the wide string of `m`. */
  predicate FlatIncluded(m: seq<Word>, r: seq<Word>)
    requires |m| == |r|
  {
    forall k | 0 <= k < |m| * BitsetWidth :: Flatten(r)[k] ==> Flatten(m)[k]
  }

  /** The word-by-word `MultiMask::test` is the subset test on the wide bit
      string. */
  lemma MultiIncludesFlat(m: seq<Word>, r: seq<Word>)
    requires |m| == |r|
    ensures MultiIncludes(m, r) <==> FlatIncluded(m, r)
  {
    if MultiIncludes(m, r) {
      IncludesToFlat(m, r);
    }
    if FlatIncluded(m, r) {
      FlatToIncludes(m, r);
    }
  }

  lemma IncludesToFlat(m: seq<Word>, r: seq<Word>)
    requires |m| == |r| && MultiIncludes(m, r)
    ensures FlatIncluded(m, r)
  {
    forall k | 0 <= k < |m| * BitsetWidth
      ensures Flatten(r)[k] ==> Flatten(m)[k]
    {
      FlattenIndex(m, k);
      FlattenIndex(r, k);
      assert Test(m[k / BitsetWidth], r[k / BitsetWidth]);
    }
  }

  lemma FlatToIncludes(m: seq<Word>, r: seq<Word>)
    requires |m| == |r| && FlatIncluded(m, r)
    ensures MultiIncludes(m, r)
  {
    forall w | 0 <= w < |m|
      ensures Test(m[w], r[w])
    {
      forall i | 0 <= i < BitsetWidth
        ensures r[w][i] ==> m[w][i]
      {
        WordBit(m, r, w, i);
      }
    }
  }

  lemma WordBit(m: seq<Word>, r: seq<Word>, w: nat, i: nat)
    requires |m| == |r| && w < |m| && i < BitsetWidth && FlatIncluded(m, r)
    ensures r[w][i] ==> m[w][i]
  {
    var k := w * BitsetWidth + i;
    assert k / BitsetWidth == w && k % BitsetWidth == i;
    assert k < |m| * BitsetWidth;
    FlattenIndex(m, k);
    FlattenIndex(r, k);
  }
}

=== FILE: registry.dfy ===
/** The component registry of the BAGEL runtime: `Component<T>::Index` and
    `Component<T>::Bit`, the storage each type is configured with, and
    `MaskBuilder`.

    In the source each component type's `Index` is `++compCounter`, taken when
    that type's static member is initialised, so indices are 0, 1, 2, … in
    first-use order. A registration history is modelled as the sequence of
    types in the order they were registered. */
module Registry {
  import opened Masks
  import Storage

  /** Every component type of the two game variants. */
  datatype ComponentType =
    | Position | Velocity | Sprite | Collider | BrickHealth | PaddleControl
    | BallTag | PowerUpType | TimedEffect | LifeCount | Score
    | DestroyedTag | FloorTag | LaserTag | StarPowerTag | HeartPowerTag
    | BreakAnimation | PhysicsBody

  /** No type is registered twice. */
  predicate Distinct(order: seq<ComponentType>) {
    forall i, j | 0 <= i < j < |order| :: order[i] != order[j]
  }

  /** First use of `Component<c>`: a type seen before keeps its index, a new
      type is appended and receives the next counter value. */
  function Register(order: seq<ComponentType>, c: ComponentType): (r: seq<ComponentType>)
    requires Distinct(order)
    ensures Distinct(r)
    ensures c in r
    ensures c in order ==> r == order
    ensures c !in order ==> r == order + [c] && IndexIn(r, c) == |order|
    ensures forall d | d in order :: d in r && IndexIn(r, d) == IndexIn(order, d)
  {
    if c in order then order
    else
      var r := order + [c];
      assert r[|order|] == c;
      r
  }

  /** The index a registered type received: its first position in the
      history (its only one, since no type is registered twice). */
  function IndexIn(order: seq<ComponentType>, c: ComponentType): (k: nat)
    requires c in order
    ensures k < |order| && order[k] == c
    ensures forall l | 0 <= l < k :: order[l] != c
  {
    if order[0] == c then 0 else 1 + IndexIn(order[1..], c)
  }

  /** Registration hands distinct types distinct indices. */
  lemma IndexInInjective(order: seq<ComponentType>, c: ComponentType, d: ComponentType)
    requires Distinct(order) && c in order && d in order
    ensures IndexIn(order, c) == IndexIn(order, d) <==> c == d
  {
  }

  /** Register a list of types in turn (their first uses, in program order). */
  function RegisterAll(order: seq<ComponentType>, cs: seq<ComponentType>): (r: seq<ComponentType>)
    requires Distinct(order)
    ensures Distinct(r)
    ensures forall c | c in cs :: c in r
    ensures forall c | c in order :: c in r && IndexIn(r, c) == IndexIn(order, c)
    decreases |cs|
  {
    if |cs| == 0 then order else RegisterAll(Register(order, cs[0]), cs[1..])
  }

  /** The first-use order this model fixes for the whole program. */
  const Order: seq<ComponentType> := [
    Position, Velocity, Sprite, Collider, BrickHealth, PaddleControl,
    BallTag, PowerUpType, TimedEffect, LifeCount, Score,
    DestroyedTag, FloorTag, LaserTag, StarPowerTag, HeartPowerTag,
    BreakAnimation, PhysicsBody]

  /** `Component<c>::Index` under the fixed order. */
  function Index(c: ComponentType): (k: nat)
    ensures k < |Order| && Order[k] == c
    ensures k < BitsetWidth
  {
    match c
    case Position => 0
    case Velocity => 1
    case Sprite => 2
    case Collider => 3
    case BrickHealth => 4
    case PaddleControl => 5
    case BallTag => 6
    case PowerUpType => 7
    case TimedEffect => 8
    case LifeCount => 9
    case Score => 10
    case DestroyedTag => 11
    case FloorTag => 12
    case LaserTag => 13
    case StarPowerTag => 14
    case HeartPowerTag => 15
    case BreakAnimation => 16
    case PhysicsBody => 17
  }

  /** The fixed order is what registering its types one by one produces. */
  lemma OrderIsRegistration()
    ensures Distinct(Order)
    ensures RegisterAll([], Order) == Order
  {
    OrderDistinct();
    assert [] + Order == Order;
    RegisterAllFresh([], Order);
  }

  /** `Index` is the index registration in the fixed order gives each type. */
  lemma IndexIsRegistered(c: ComponentType)
    ensures c in Order
    ensures IndexIn(Order, c) == Index(c)
  {
    assert Order[Index(c)] == c;
    OrderAt(IndexIn(Order, c));
  }

  lemma OrderDistinct()
    ensures Distinct(Order)
  {
    forall i | 0 <= i < |Order|
      ensures Index(Order[i]) == i
    {
      OrderAt(i);
    }
  }

  lemma OrderAt(i: nat)
    requires i < |Order|
    ensures Index(Order[i]) == i
  {
    if i < 9 {
      assert i == 0 || i == 1 || i == 2 || i == 3 || i == 4 || i == 5 || i == 6 || i == 7 || i == 8;
    } else {
      assert i == 9 || i == 10 || i == 11 || i == 12 || i == 13 || i == 14 || i == 15 || i == 16 || i == 17;
    }
  }

  /** Registering types none of which was seen before appends them in order. */
  lemma {:induction false} RegisterAllFresh(order: seq<ComponentType>, cs: seq<ComponentType>)
    requires Distinct(order) && Distinct(order + cs)
    ensures RegisterAll(order, cs) == order + cs
    decreases |cs|
  {
    if |cs| > 0 {
      var all := order + cs;
      assert all[|order|] == cs[0];
      forall i | 0 <= i < |order| ensures order[i] != cs[0] {
        assert order[i] == all[i];
      }
      var next := order + [cs[0]];
      assert Register(order, cs[0]) == next;
      assert next + cs[1..] == all;
      assert Distinct(next) by {
        forall i, j | 0 <= i < j < |next| ensures next[i] != next[j] {
          assert next[i] == all[i] && next[j] == all[j];
        }
      }
      RegisterAllFresh(next, cs[1..]);
    }
  }

  /** Two types never share an index below the mask width, so never a bit. */
  lemma IndexInjective(c: ComponentType, d: ComponentType)
    ensures Index(c) == Index(d) <==> c == d
  {
  }

  /** `Component<c>::Bit`: `Mask::bit(Index)`. */
  function Bit(c: ComponentType): (b: Word)
    ensures forall i | 0 <= i < BitsetWidth :: b[i] <==> i == Index(c)
  {
    Masks.Bit(Index(c))
  }

  /** Distinct types get distinct bits, and a type's bit is exactly the bit at
      its index. */
  lemma BitDistinct(c: ComponentType, d: ComponentType)
    ensures Bit(c) == Bit(d) <==> c == d
    ensures Bit(c)[Index(d)] <==> c == d
  {
    BitInjective(Index(c), Index(d));
  }

  /** The storage strategy `BAGEL_STORAGE` configures for each type; types
      not listed get the default `SparseStorage`. */
  function StorageOf(c: ComponentType): Storage.Kind {
    match c
    case Position | Velocity | Collider | PaddleControl | PowerUpType | TimedEffect =>
      Storage.PackedKind
    case BallTag | DestroyedTag | FloorTag | LaserTag | StarPowerTag =>
      Storage.TaggedKind
    case Score | LifeCount | Sprite | BrickHealth | PhysicsBody | BreakAnimation | HeartPowerTag =>
      Storage.SparseKind
  }

  /** `MaskBuilder::create().add<C1>()…add<Cn>().build()`: a zero mask with
      the bit of each listed type set in turn. */
  function MaskOf(cs: seq<ComponentType>): (m: Word)
    ensures forall c :: m[Index(c)] <==> c in cs
    ensures forall i | 0 <= i < BitsetWidth && i >= |Order| :: !m[i]
    decreases |cs|
  {
    if |cs| == 0 then Zero()
    else
      var rest := MaskOf(cs[..|cs| - 1]);
      MaskOfStep(rest, cs);
      Set(rest, Bit(cs[|cs| - 1]))
  }

  /** Setting the last listed type's bit on the mask of the others. */
  lemma MaskOfStep(rest: Word, cs: seq<ComponentType>)
    requires |cs| > 0
    requires forall c :: rest[Index(c)] <==> c in cs[..|cs| - 1]
    ensures forall c :: Set(rest, Bit(cs[|cs| - 1]))[Index(c)] <==> c in cs
  {
    var last := cs[|cs| - 1];
    assert cs == cs[..|cs| - 1] + [last];
    var m := Set(rest, Bit(last));
    forall c
      ensures m[Index(c)] <==> c in cs
    {
      IndexInjective(c, last);
    }
  }

  /** A mask contains `MaskOf(cs)` exactly when it has every listed type's bit. */
  lemma MaskOfTest(m: Word, cs: seq<ComponentType>)
    ensures Test(m, MaskOf(cs)) <==> forall c | c in cs :: m[Index(c)]
  {
    var r := MaskOf(cs);
    if forall c | c in cs :: m[Index(c)] {
      forall i | 0 <= i < BitsetWidth && r[i]
        ensures m[i]
      {
        assert i < |Order|;
        OrderAt(i);
      }
    }
  }
}

=== FILE: storage.dfy ===
/** The three component storage strategies of the BAGEL runtime.

    Each strategy is compared with the map from entity id to component value
    that the world is meant to hold; the world model (module `World`) uses
    that map view directly. */
module Storage {
  import opened Options
  import opened Bags

  // ---------------------------------------------------------------------
  // SparseStorage<T>: one bag slot per entity id
  // ---------------------------------------------------------------------

  /** As written, `SparseStorage::add` calls `ensure(e.id)` and then writes
      slot `e.id`. The write is inside the array only when this holds. */
  predicate SparseAddInBounds<T>(bag: DynamicBag<T>, id: nat)
    requires bag.Valid()
  {
    id < bag.Ensure(id).Capacity()
  }

  /** The as-written write is in bounds exactly when the id is below the
      capacity, or strictly between the capacity and twice the capacity: an id
      equal to the capacity, or at least twice it, is written past the end. */
  lemma SparseAddInBoundsIff<T>(bag: DynamicBag<T>, id: nat)
    requires bag.Valid()
    ensures SparseAddInBounds(bag, id) <==> id < 2 * bag.Capacity() && id != bag.Capacity()
  {
  }

  /** The entity with id 10 (the eleventh created) adding a sparse component
      to a fresh `Bag<T, InitialEntities>` (capacity 10) writes slot 10 of a
      10-slot array. */
  lemma SparseAddOutOfBoundsExample()
    ensures !SparseAddInBounds(NewDynamicBag<int>(10), 10)
  {
    var b := NewDynamicBag<int>(10);
    assert b.Ensure(10) == b;
  }

  /** `SparseStorage::add` with the capacity it needs: `ensure(e.id + 1)`, then
      slot `e.id := t`. Every other slot keeps its value. */
  function SparseAdd<T>(bag: DynamicBag<T>, id: nat, t: T): (r: DynamicBag<T>)
    requires bag.Valid()
    ensures r.Valid() && id < r.Capacity() && bag.Capacity() <= r.Capacity()
    ensures r.At(id) == Some(t)
    ensures forall j | 0 <= j < bag.Capacity() && j != id :: r.At(j) == bag.At(j)
    ensures forall j | bag.Capacity() <= j < r.Capacity() && j != id :: r.At(j) == None
  {
    bag.Ensure(id + 1).Write(id, t)
  }

  /** The value a sparse storage holds for each id whose slot was written. */
  function SparseView<T>(bag: DynamicBag<T>): map<nat, T> {
    map id: nat | id < |bag.slots| && bag.slots[id].Some? :: bag.slots[id].value
  }

  /** Adding to a sparse storage overwrites exactly one entry of its map view. */
  lemma SparseAddView<T>(bag: DynamicBag<T>, id: nat, t: T)
    requires bag.Valid()
    ensures SparseView(SparseAdd(bag, id, t)) == SparseView(bag)[id := t]
  {
    var r := SparseAdd(bag, id, t);
    forall j: nat
      ensures j in SparseView(r) <==> j in SparseView(bag)[id := t]
      ensures j in SparseView(r) ==> SparseView(r)[j] == SparseView(bag)[id := t][j]
    {
      if j != id && j < bag.Capacity() {
        assert r.At(j) == bag.At(j);
      }
    }
  }

  // ---------------------------------------------------------------------
  // PackedStorage<T>: a dense component array with swap-remove
  // ---------------------------------------------------------------------

  /** `PackedStorage<T>`: `_comps` holds the values densely, `_compToEnt[k]`
      names the owner of value `k`, and `_entToComp[e]` is the index of
      entity `e`'s value. */
  datatype Packed<T> = Packed(comps: DynamicBag<T>, entToComp: DynamicBag<int>, compToEnt: DynamicBag<nat>) {

    /** Owner of dense slot `k`. */
    function Owner(k: nat): nat
      requires compToEnt.Valid() && k < compToEnt.size
    {
      compToEnt.slots[k].value
    }

    /** The two index maps are mutually inverse over the live prefix: the owner
        of every live slot points back at that slot. */
    predicate Valid() {
      && comps.Valid() && entToComp.Valid() && compToEnt.Valid()
      && comps.size == compToEnt.size
      && forall k | 0 <= k < compToEnt.size ::
           Owner(k) < entToComp.Capacity() && entToComp.slots[Owner(k)] == Some(k)
    }

    /** Entity `e` holds a value: its index is live and that slot names `e`. */
    predicate Holds(e: nat)
      requires Valid()
    {
      && e < entToComp.Capacity()
      && entToComp.slots[e].Some?
      && 0 <= entToComp.slots[e].value < compToEnt.size
      && compToEnt.slots[entToComp.slots[e].value] == Some(e)
    }

    function IndexOf(e: nat): (k: nat)
      requires Valid() && Holds(e)
      ensures k < compToEnt.size && Owner(k) == e
    {
      entToComp.slots[e].value
    }

    /** `PackedStorage::size()`. */
    function Size(): nat {
      comps.size
    }

    /** `PackedStorage::get(e)`: `_comps[_entToComp[e.id]]`. */
    function Get(e: nat): (t: T)
      requires Valid() && Holds(e)
      ensures exists k | 0 <= k < comps.size :: Owner(k) == e && comps.slots[k] == Some(t)
    {
      comps.slots[IndexOf(e)].value
    }

    /** Every live slot's owner holds a value, and its index is that slot. */
    lemma OwnersHold(k: nat)
      requires Valid() && k < compToEnt.size
      ensures Holds(Owner(k)) && IndexOf(Owner(k)) == k
    {
    }

    /** The owners of the live prefix, which is exactly the set of entities
        holding a value. */
    function Owners(): (s: set<nat>)
      requires Valid()
      ensures forall e: nat :: e in s <==> Holds(e)
    {
      var s := set k | 0 <= k < compToEnt.size :: Owner(k);
      assert forall e: nat :: Holds(e) ==> e in s by {
        forall e: nat | Holds(e) ensures e in s {
          assert Owner(IndexOf(e)) == e;
        }
      }
      s
    }

    /** The map view: each holding entity with its value. */
    function View(): map<nat, T>
      requires Valid()
    {
      map e | e in Owners() :: Get(e)
    }

    lemma ViewAt(x: nat)
      requires Valid()
      ensures x in View() <==> Holds(x)
      ensures Holds(x) ==> View()[x] == Get(x)
    {
    }

    /** `PackedStorage::del(e)`, which requires `e` to hold a value: the last
        dense slot is moved into `e`'s slot and both index maps are patched. */
    function Del(e: nat): (r: Packed<T>)
      requires Valid() && Holds(e)
      ensures r.Valid()
      ensures r.Size() == Size() - 1
      ensures !r.Holds(e)
      ensures forall x: nat | x != e :: r.Holds(x) == Holds(x)
      ensures forall x: nat | x != e && Holds(x) :: r.Get(x) == Get(x)
    {
      var idx := IndexOf(e);
      var (last, cte1) := compToEnt.Pop();
      var (v, comps1) := comps.Pop();
      assert last == Owner(compToEnt.size - 1);
      OwnersHold(compToEnt.size - 1);
      var r := Packed(comps1.Write(idx, v), entToComp.Write(last, idx), cte1.Write(idx, last));
      DelValid(e, r);
      DelFrame(e, r);
      r
    }

    lemma DelValid(e: nat, r: Packed<T>)
      requires Valid() && Holds(e)
      requires compToEnt.size > 0
      requires Owner(compToEnt.size - 1) < entToComp.Capacity()
      requires r == Packed(comps.Pop().1.Write(IndexOf(e), comps.Pop().0),
                           entToComp.Write(Owner(compToEnt.size - 1), IndexOf(e)),
                           compToEnt.Pop().1.Write(IndexOf(e), Owner(compToEnt.size - 1)))
      ensures r.Valid()
      ensures !r.Holds(e)
    {
      var n := compToEnt.size;
      var idx := IndexOf(e);
      var last := Owner(n - 1);
      forall k | 0 <= k < r.compToEnt.size
        ensures r.Owner(k) < r.entToComp.Capacity() && r.entToComp.slots[r.Owner(k)] == Some(k)
      {
        if k != idx {
          assert r.Owner(k) == Owner(k);
          assert Owner(k) != last by {
            OwnersHold(k);
            OwnersHold(n - 1);
          }
        }
      }
      if e == last {
        assert idx == n - 1;
      } else {
        assert r.entToComp.slots[e] == entToComp.slots[e];
      }
    }

    lemma DelFrame(e: nat, r: Packed<T>)
      requires Valid() && Holds(e)
      requires compToEnt.size > 0
      requires Owner(compToEnt.size - 1) < entToComp.Capacity()
      requires r == Packed(comps.Pop().1.Write(IndexOf(e), comps.Pop().0),
                           entToComp.Write(Owner(compToEnt.size - 1), IndexOf(e)),
                           compToEnt.Pop().1.Write(IndexOf(e), Owner(compToEnt.size - 1)))
      requires r.Valid()
      ensures forall x: nat | x != e :: r.Holds(x) == Holds(x)
      ensures forall x: nat | x != e && Holds(x) :: r.Get(x) == Get(x)
    {
      var n := compToEnt.size;
      var idx := IndexOf(e);
      var last := Owner(n - 1);
      OwnersHold(n - 1);
      forall x: nat | x != e
        ensures r.Holds(x) == Holds(x)
        ensures Holds(x) ==> r.Get(x) == Get(x)
      {
        if x == last {
          assert r.entToComp.slots[x] == Some(idx);
          assert r.compToEnt.slots[idx] == Some(last);
          assert idx < n - 1 by {
            if idx == n - 1 {
              assert Owner(idx) == e;
            }
          }
          assert r.comps.slots[idx] == comps.slots[n - 1];
        } else if x < entToComp.Capacity() && entToComp.slots[x].Some? {
          var j := entToComp.slots[x].value;
          assert r.entToComp.slots[x] == entToComp.slots[x];
          if Holds(x) {
            assert j != idx && j != n - 1;
            assert r.compToEnt.slots[j] == compToEnt.slots[j];
            assert r.comps.slots[j] == comps.slots[j];
          } else if 0 <= j < n - 1 && j != idx {
            assert r.compToEnt.slots[j] == compToEnt.slots[j];
          } else if j == idx {
            assert r.compToEnt.slots[j] == Some(last);
          }
        } else {
          assert x < entToComp.Capacity() ==> r.entToComp.slots[x] == entToComp.slots[x];
        }
      }
    }

    /** As written, `PackedStorage::add` calls `_entToComp.ensure(e.id)` and then
        writes `_entToComp[e.id]`: in bounds only under this condition. */
    predicate AddInBounds(e: nat)
      requires Valid()
    {
      e < entToComp.Ensure(e).Capacity()
    }

    /** `PackedStorage::add` as written: the value is appended and `e` is
        pointed at it, whether or not `e` already held a value. */
    function AddAsWritten(e: nat, t: T): (r: Packed<T>)
      requires Valid() && AddInBounds(e)
      ensures r.comps.Valid() && r.entToComp.Valid() && r.compToEnt.Valid()
      ensures r.Size() == Size() + 1
    {
      var etc := entToComp.Ensure(e);
      Packed(comps.Push(t), etc.Write(e, comps.size), compToEnt.Push(e))
    }

    /** `PackedStorage::add`, corrected: capacity for index `e` is ensured
        (`ensure(e.id + 1)`), and an entity that already holds a value has it
        overwritten in place instead of getting a second slot. */
    function Add(e: nat, t: T): (r: Packed<T>)
      requires Valid()
      ensures r.Valid()
      ensures r.Holds(e) && r.Get(e) == t
      ensures r.Size() == if Holds(e) then Size() else Size() + 1
      ensures forall x: nat | x != e :: r.Holds(x) == Holds(x)
      ensures forall x: nat | x != e && Holds(x) :: r.Get(x) == Get(x)
    {
      if Holds(e) then
        var r := Packed(comps.Write(IndexOf(e), t), entToComp, compToEnt);
        assert forall x: nat | x != e && Holds(x) :: IndexOf(x) != IndexOf(e);
        r
      else
        var etc := entToComp.Ensure(e + 1);
        var r := Packed(comps.Push(t), etc.Write(e, comps.size), compToEnt.Push(e));
        AddFreshValid(e, t, r);
        r
    }

    lemma AddFreshValid(e: nat, t: T, r: Packed<T>)
      requires Valid() && !Holds(e)
      requires r == Packed(comps.Push(t), entToComp.Ensure(e + 1).Write(e, comps.size), compToEnt.Push(e))
      ensures r.Valid()
      ensures r.Holds(e) && r.Get(e) == t
      ensures forall x: nat | x != e :: r.Holds(x) == Holds(x)
      ensures forall x: nat | x != e && Holds(x) :: r.Get(x) == Get(x)
    {
      var n := compToEnt.size;
      forall k | 0 <= k < r.compToEnt.size
        ensures r.Owner(k) < r.entToComp.Capacity() && r.entToComp.slots[r.Owner(k)] == Some(k)
      {
        if k < n {
          assert r.Owner(k) == Owner(k);
          OwnersHold(k);
        }
      }
      forall x: nat | x != e
        ensures r.Holds(x) == Holds(x)
        ensures Holds(x) ==> r.Get(x) == Get(x)
      {
        if x < entToComp.Capacity() {
          assert r.entToComp.slots[x] == entToComp.slots[x];
          if entToComp.slots[x].Some? && 0 <= entToComp.slots[x].value < n {
            assert r.compToEnt.slots[entToComp.slots[x].value] == compToEnt.slots[entToComp.slots[x].value];
          } else if entToComp.slots[x].Some? && entToComp.slots[x].value == n {
            assert r.compToEnt.slots[n] == Some(e);
          }
        } else {
          assert x < r.entToComp.Capacity() ==> r.entToComp.slots[x] == None;
        }
      }
    }
  }

  function NewPacked<T>(initialPacked: nat, initialEntities: nat): (p: Packed<T>)
    requires initialPacked > 0 && initialEntities > 0
    ensures p.Valid() && p.Size() == 0
  {
    Packed(NewDynamicBag(initialPacked), NewDynamicBag(initialEntities), NewDynamicBag(initialPacked))
  }

  /** With `InitialEntities = 10`, the as-written `add` for entity 10 writes
      `_entToComp[10]` of a 10-slot array. */
  lemma PackedAddOutOfBoundsExample()
    ensures !NewPacked<int>(5, 10).AddInBounds(10)
  {
    assert NewPacked<int>(5, 10).entToComp.Ensure(10) == NewPacked<int>(5, 10).entToComp;
  }

  /** Adding twice to the same entity through the as-written `add` leaves two
      dense slots both naming entity 0, while `_entToComp[0]` points only at
      the second: the index maps are no longer inverse, and `size()` counts a
      value nobody holds. */
  lemma PackedReAddBreaksInverse()
    ensures NewPacked<int>(5, 10).AddInBounds(0)
    ensures NewPacked<int>(5, 10).AddAsWritten(0, 7).Valid()
    ensures NewPacked<int>(5, 10).AddAsWritten(0, 7).AddInBounds(0)
    ensures !NewPacked<int>(5, 10).AddAsWritten(0, 7).AddAsWritten(0, 8).Valid()
    ensures NewPacked<int>(5, 10).AddAsWritten(0, 7).AddAsWritten(0, 8).Size() == 2
  {
    var p0 := NewPacked<int>(5, 10);
    var p1 := p0.AddAsWritten(0, 7);
    assert p1.compToEnt.slots[0] == Some(0);
    assert p1.entToComp.slots[0] == Some(0);
    var p2 := p1.AddAsWritten(0, 8);
    assert p2.compToEnt.slots[0] == Some(0);
    assert p2.entToComp.slots[0] == Some(1);
  }

  /** The corrected `add` and `del` act on the map view as map update and key
      removal. */
  lemma PackedAddView<T>(p: Packed<T>, e: nat, t: T)
    requires p.Valid()
    ensures p.Add(e, t).View() == p.View()[e := t]
  {
    UpdateView(p, p.Add(e, t), e, t);
  }

  /** Any valid storage that holds `t` at `e` and agrees with `p` elsewhere
      has `p`'s view updated at `e`. */
  lemma UpdateView<T>(p: Packed<T>, r: Packed<T>, e: nat, t: T)
    requires p.Valid() && r.Valid()
    requires r.Holds(e) && r.Get(e) == t
    requires forall x: nat | x != e :: r.Holds(x) == p.Holds(x)
    requires forall x: nat | x != e && p.Holds(x) :: r.Get(x) == p.Get(x)
    ensures r.View() == p.View()[e := t]
  {
    var u := p.View()[e := t];
    forall x: nat
      ensures x in r.View() <==> x in u
      ensures x in u ==> r.View()[x] == u[x]
    {
      r.ViewAt(x);
      p.ViewAt(x);
    }
    assert r.View() == u;
  }

  lemma PackedDelView<T>(p: Packed<T>, e: nat)
    requires p.Valid() && p.Holds(e)
    ensures p.Del(e).View() == p.View() - {e}
  {
    var r := p.Del(e);
    var u := p.View() - {e};
    forall x: nat
      ensures x in r.View() <==> x in u
      ensures x in u ==> r.View()[x] == u[x]
    {
      r.ViewAt(x);
      p.ViewAt(x);
    }
    assert r.View() == u;
  }

  // ---------------------------------------------------------------------
  // TaggedStorage<T>: no data at all
  // ---------------------------------------------------------------------

  /** `TaggedStorage<T>` has no state: `add` and `del` do nothing and there is
      no `get`, so a tag's presence is exactly its mask bit. */
  datatype Tagged = Tagged {
    function Add(e: nat): Tagged { this }
    function Del(e: nat): Tagged { this }
  }

  /** Which strategy a component type uses (`BAGEL_STORAGE` in the
      configuration; a type not configured there gets `SparseStorage`). */
  datatype Kind = PackedKind | SparseKind | TaggedKind
}

=== FILE: world.dfy ===
/** The BAGEL `World`: entity id allocation with a LIFO free-id bag, the
    per-entity mask table, and the component operations.

    The mask table and the free-id bag are `DynamicBag`s in the source; here
    they are their contents (`seq`), since every access to them is a `push`,
    a `pop` or an index below the size. Each component type's storage is a
    map from entity id to value, the view `Storage` proves its sparse and
    packed strategies implement; a game keeps one map per data-carrying type. */
module World {
  import opened Masks
  import opened Registry
  import Storage

  /** `_masks` (one mask per id `0..maxId`), `_ids` (freed ids, last pushed
      last) and `_maxId`. */
  datatype Ecs = Ecs(masks: seq<Word>, free: seq<nat>, maxId: int)

  /** The world before any entity exists: `_maxId{-1}`, both bags empty. */
  const Initial: Ecs := Ecs([], [], -1)

  /** The mask table covers exactly the ids `0..maxId`. */
  predicate Sized(w: Ecs) {
    |w.masks| == w.maxId + 1
  }

  /** The world invariant: the table is sized, every freed id is in range and
      has an empty mask, and no id is in the free bag twice. */
  predicate Valid(w: Ecs) {
    && Sized(w)
    && (forall k | 0 <= k < |w.free| :: w.free[k] < |w.masks| && w.masks[w.free[k]] == Zero())
    && (forall k, l | 0 <= k < l < |w.free| :: w.free[k] != w.free[l])
  }

  /** An id is live when it was handed out and not freed since. */
  predicate Live(w: Ecs, e: nat) {
    e < |w.masks| && e !in w.free
  }

  lemma InitialValid()
    ensures Valid(Initial) && Initial.maxId == -1
  {
  }

  /** `World::createEntity`: pop the most recently freed id if there is one;
      otherwise push an empty mask and return `++maxId`. The id returned was
      not live, is live afterwards with an empty mask, and every id live
      before keeps its mask. */
  function CreateEntity(w: Ecs): (r: (Ecs, nat))
    requires Valid(w)
    ensures Valid(r.0) && Live(r.0, r.1) && r.0.masks[r.1] == Zero()
    ensures !Live(w, r.1)
    ensures |w.free| > 0 ==> r.1 == w.free[|w.free| - 1] && r.0.maxId == w.maxId
    ensures |w.free| == 0 ==> r.1 == w.maxId + 1 && r.0.maxId == w.maxId + 1
    ensures forall e: nat | Live(w, e) :: Live(r.0, e)
    ensures |r.0.masks| >= |w.masks| && forall x | 0 <= x < |w.masks| :: r.0.masks[x] == w.masks[x]
  {
    if |w.free| > 0 then
      var e := w.free[|w.free| - 1];
      var r := w.(free := w.free[..|w.free| - 1]);
      assert forall x | x in r.free :: x in w.free;
      assert e !in r.free by {
        forall k | 0 <= k < |r.free| ensures r.free[k] != e {
          assert w.free[k] != w.free[|w.free| - 1];
        }
      }
      (r, e)
    else
      var e := w.maxId + 1;
      var r := Ecs(w.masks + [Zero()], w.free, e);
      (r, e)
  }

  /** `World::destroyEntity`: clear the mask and push the id on the free bag.
      Only the mask table's indexing is required of the id. */
  function DestroyEntity(w: Ecs, e: nat): (r: Ecs)
    requires e < |w.masks|
    ensures r.maxId == w.maxId && |r.masks| == |w.masks|
    ensures r.masks[e] == Zero() && r.free == w.free + [e]
    ensures forall x | 0 <= x < |w.masks| && x != e :: r.masks[x] == w.masks[x]
  {
    Ecs(w.masks[e := Zero()], w.free + [e], w.maxId)
  }

  /** Destroying a live id keeps the world valid and makes the id not live. */
  lemma DestroyValid(w: Ecs, e: nat)
    requires Valid(w) && Live(w, e)
    ensures Valid(DestroyEntity(w, e)) && !Live(DestroyEntity(w, e), e)
    ensures forall x: nat | x != e :: Live(DestroyEntity(w, e), x) == Live(w, x)
  {
  }

  /** LIFO reuse: the next id handed out after destroying `e` is `e`. */
  lemma DestroyThenCreate(w: Ecs, e: nat)
    requires Valid(w) && Live(w, e)
    ensures Valid(DestroyEntity(w, e))
    ensures CreateEntity(DestroyEntity(w, e)).1 == e
    ensures CreateEntity(DestroyEntity(w, e)).0.maxId == w.maxId
  {
    DestroyValid(w, e);
  }

  /** Without the "destroy a live id once" discipline ids alias: destroying
      id 0 twice puts it on the free bag twice, and the next two creations
      both return 0. */
  lemma DoubleDestroyAliases()
    ensures Valid(CreateEntity(Initial).0)
    ensures var w1 := CreateEntity(Initial).0;
            var w3 := DestroyEntity(DestroyEntity(w1, 0), 0);
            !Valid(w3) && w3.free == [0, 0]
  {
    var w1 := CreateEntity(Initial).0;
    assert w1.masks == [Zero()] && w1.free == [];
    var w2 := DestroyEntity(w1, 0);
    assert w2.free == [0];
    var w3 := DestroyEntity(w2, 0);
    assert w3.free == [0, 0];
    assert w3.free[0] == w3.free[1];
  }

  /** `World::mask(e)`. A freed id's mask is empty, since `destroyEntity`
      clears it before the id goes on the free bag. */
  function Mask(w: Ecs, e: nat): (m: Word)
    requires e < |w.masks|
    ensures Valid(w) && !Live(w, e) ==> m == Zero()
  {
    w.masks[e]
  }

  /** Entity `e`'s mask has type `c`'s bit. */
  predicate Has(w: Ecs, e: nat, c: ComponentType)
    requires e < |w.masks|
  {
    w.masks[e][Index(c)]
  }

  /** Freed ids have empty masks, so an id whose mask has any type's bit is
      live. */
  lemma HasLive(w: Ecs, e: nat, c: ComponentType)
    requires Valid(w) && e < |w.masks| && Has(w, e, c)
    ensures Live(w, e)
  {
    assert w.masks[e] != Zero();
    assert forall k | 0 <= k < |w.free| :: w.free[k] != e;
  }

  /** `World::mask(e).test(Component<c>::Bit)` is exactly `Has`. */
  lemma HasIsTestBit(w: Ecs, e: nat, c: ComponentType)
    requires e < |w.masks|
    ensures Has(w, e, c) == TestBit(Mask(w, e), Registry.Bit(c))
  {
    TestSingleBit(w.masks[e], Index(c));
  }

  /** `World::mask(e).test(required)`. */
  predicate Matches(w: Ecs, e: nat, required: Word)
    requires e < |w.masks|
  {
    Test(w.masks[e], required)
  }

  /** A required mask built from two types matches exactly the entities
      that have both. */
  lemma MatchesBoth(w: Ecs, e: nat, a: ComponentType, b: ComponentType)
    requires e < |w.masks|
    ensures Matches(w, e, MaskOf([a, b])) <==> Has(w, e, a) && Has(w, e, b)
  {
    var cs := [a, b];
    var m := w.masks[e];
    MaskOfTest(m, cs);
    assert (forall c | c in cs :: m[Index(c)]) <==> m[Index(a)] && m[Index(b)] by {
      assert a in cs && b in cs;
    }
  }

  /** The mask half of `addComponent<c>`: `_masks[e.id].set(Component<c>::Bit)`.
      Type `c`'s bit becomes set for `e`; no other bit of any entity changes. */
  function SetBit(w: Ecs, e: nat, c: ComponentType): (r: Ecs)
    requires e < |w.masks|
    ensures r.free == w.free && r.maxId == w.maxId && |r.masks| == |w.masks|
    ensures Has(r, e, c)
    ensures forall x, d | 0 <= x < |w.masks| && (x != e || d != c) :: Has(r, x, d) == Has(w, x, d)
    ensures forall x | 0 <= x < |w.masks| && x != e :: r.masks[x] == w.masks[x]
    ensures Valid(w) && Live(w, e) ==> Valid(r) && Live(r, e)
  {
    var r := w.(masks := w.masks[e := Set(w.masks[e], Registry.Bit(c))]);
    assert forall d :: Registry.Bit(c)[Index(d)] <==> c == d by {
      forall d ensures Registry.Bit(c)[Index(d)] <==> c == d {
        BitDistinct(c, d);
      }
    }
    r
  }

  /** The mask half of `delComponent<c>`: `_masks[e.id].clear(Component<c>::Bit)`.
      Type `c`'s bit becomes clear for `e`; no other bit of any entity changes. */
  function ClearBit(w: Ecs, e: nat, c: ComponentType): (r: Ecs)
    requires e < |w.masks|
    ensures r.free == w.free && r.maxId == w.maxId && |r.masks| == |w.masks|
    ensures !Has(r, e, c)
    ensures forall x, d | 0 <= x < |w.masks| && (x != e || d != c) :: Has(r, x, d) == Has(w, x, d)
    ensures forall x | 0 <= x < |w.masks| && x != e :: r.masks[x] == w.masks[x]
    ensures Valid(w) && Live(w, e) ==> Valid(r) && Live(r, e)
  {
    var r := w.(masks := w.masks[e := Clear(w.masks[e], Registry.Bit(c))]);
    assert forall d :: Registry.Bit(c)[Index(d)] <==> c == d by {
      forall d ensures Registry.Bit(c)[Index(d)] <==> c == d {
        BitDistinct(c, d);
      }
    }
    r
  }

  /** The mask half of `addComponents(e, t1, …, tn)`: the bits of the listed
      types are set one by one. Afterwards `e` has exactly its old types plus
      the listed ones; no other entity's mask changes. */
  function SetBits(w: Ecs, e: nat, cs: seq<ComponentType>): (r: Ecs)
    requires e < |w.masks|
    ensures r.free == w.free && r.maxId == w.maxId && |r.masks| == |w.masks|
    ensures forall c :: Has(r, e, c) <==> Has(w, e, c) || c in cs
    ensures forall i | |Order| <= i < BitsetWidth :: r.masks[e][i] == w.masks[e][i]
    ensures forall x | 0 <= x < |w.masks| && x != e :: r.masks[x] == w.masks[x]
    ensures Valid(w) && Live(w, e) ==> Valid(r) && Live(r, e)
    decreases |cs|
  {
    if |cs| == 0 then w
    else
      var r := SetBit(SetBits(w, e, cs[..|cs| - 1]), e, cs[|cs| - 1]);
      assert forall c :: c in cs <==> c in cs[..|cs| - 1] || c == cs[|cs| - 1];
      r
  }

  /** The mask half of `delComponents<C1, …, Cn>(e)`: the bits of the listed
      types are cleared one by one. Afterwards `e` has exactly its old types
      minus the listed ones; no other entity's mask changes. */
  function ClearBits(w: Ecs, e: nat, cs: seq<ComponentType>): (r: Ecs)
    requires e < |w.masks|
    ensures r.free == w.free && r.maxId == w.maxId && |r.masks| == |w.masks|
    ensures forall c :: Has(r, e, c) <==> Has(w, e, c) && c !in cs
    ensures forall i | |Order| <= i < BitsetWidth :: r.masks[e][i] == w.masks[e][i]
    ensures forall x | 0 <= x < |w.masks| && x != e :: r.masks[x] == w.masks[x]
    ensures Valid(w) && Live(w, e) ==> Valid(r) && Live(r, e)
    decreases |cs|
  {
    if |cs| == 0 then w
    else
      var r := ClearBits(ClearBit(w, e, cs[0]), e, cs[1..]);
      assert forall c :: c in cs <==> c == cs[0] || c in cs[1..];
      r
  }

  /** Deleting the bundle just added takes `e` back to its old types minus
      the bundle; in particular a fresh entity's mask is empty again. */
  lemma SetThenClearBits(w: Ecs, e: nat, cs: seq<ComponentType>)
    requires e < |w.masks|
    ensures forall c :: Has(ClearBits(SetBits(w, e, cs), e, cs), e, c) <==> Has(w, e, c) && c !in cs
    ensures w.masks[e] == Zero() ==> ClearBits(SetBits(w, e, cs), e, cs).masks[e] == Zero()
  {
    var r := ClearBits(SetBits(w, e, cs), e, cs);
    if w.masks[e] == Zero() {
      forall i | 0 <= i < BitsetWidth
        ensures !r.masks[e][i]
      {
        if i < |Order| {
          OrderAt(i);
          assert !Has(r, e, Order[i]);
        }
      }
      ZeroIff(r.masks[e]);
    }
  }

  /** `World::addComponent<c>(e, t)` for a type with data: set the bit and
      store `t`. Afterwards `e` has `c`, `getComponent<c>(e)` returns `t`,
      and every other entity's value is unchanged. */
  function AddComponent<T>(w: Ecs, store: map<nat, T>, c: ComponentType, e: nat, t: T): (r: (Ecs, map<nat, T>))
    requires e < |w.masks|
    ensures r.0 == SetBit(w, e, c)
    ensures Has(r.0, e, c) && e in r.1 && GetComponent(r.1, e) == t
    ensures forall x | x in store && x != e :: x in r.1 && r.1[x] == store[x]
    ensures forall x | x in r.1 :: x in store || x == e
  {
    (SetBit(w, e, c), store[e := t])
  }

  /** `World::addComponent<c>(e, {})` for a tag type: `TaggedStorage::add`
      does nothing, so only the bit is set. */
  function AddTag(w: Ecs, c: ComponentType, e: nat): (r: Ecs)
    requires e < |w.masks| && StorageOf(c) == Storage.TaggedKind
    ensures |r.masks| == |w.masks| && Has(r, e, c)
    ensures forall x, d | 0 <= x < |w.masks| && (x != e || d != c) :: Has(r, x, d) == Has(w, x, d)
    ensures r.free == w.free && r.maxId == w.maxId
    ensures Valid(w) && Live(w, e) ==> Valid(r)
  {
    SetBit(w, e, c)
  }

  /** `World::getComponent<c>(e)`: defined for an entity whose value is
      stored. */
  function GetComponent<T>(store: map<nat, T>, e: nat): T
    requires e in store
  {
    store[e]
  }

  /** `World::delComponent<c>(e)`: clear the bit, then `Storage<c>::del(e)`.
      Packed storage drops the value; sparse and tag storage keep theirs.
      `PackedStorage::del` reads `_entToComp[e.id]` unchecked, so its caller
      must delete only a component the entity holds. */
  function DelComponent<T>(w: Ecs, store: map<nat, T>, c: ComponentType, e: nat): (r: (Ecs, map<nat, T>))
    requires e < |w.masks|
    requires StorageOf(c) == Storage.PackedKind ==> e in store
    ensures r.0 == ClearBit(w, e, c) && !Has(r.0, e, c)
    ensures forall x | x in store && x != e :: x in r.1 && r.1[x] == store[x]
    ensures StorageOf(c) == Storage.PackedKind ==> e !in r.1
    ensures StorageOf(c) != Storage.PackedKind ==> r.1 == store
  {
    (ClearBit(w, e, c), if StorageOf(c) == Storage.PackedKind then store - {e} else store)
  }

  /** Adding then deleting a component restores every other bit of every
      entity and leaves `c` clear. */
  lemma AddThenDel<T>(w: Ecs, store: map<nat, T>, c: ComponentType, e: nat, t: T)
    requires e < |w.masks|
    ensures var a := AddComponent(w, store, c, e, t);
            var d := DelComponent(a.0, a.1, c, e);
            && !Has(d.0, e, c)
            && forall x, k | 0 <= x < |w.masks| && (x != e || k != c) :: Has(d.0, x, k) == Has(w, x, k)
  {
  }

  /** The ids a system loop `for id in 0..maxId: if mask(id).test(required)`
      visits, in the order it visits them. */
  function Query(w: Ecs, required: Word): (r: seq<nat>)
    requires Sized(w)
    ensures forall k | 0 <= k < |r| :: r[k] < |w.masks| && Matches(w, r[k], required)
    ensures forall e | 0 <= e < |w.masks| && Matches(w, e, required) :: e in r
    ensures forall k, l | 0 <= k < l < |r| :: r[k] < r[l]
  {
    QueryFrom(w, required, 0)
  }

  function QueryFrom(w: Ecs, required: Word, id: nat): (r: seq<nat>)
    requires Sized(w)
    ensures forall k | 0 <= k < |r| :: id <= r[k] < |w.masks| && Matches(w, r[k], required)
    ensures forall e | id <= e < |w.masks| && Matches(w, e, required) :: e in r
    ensures forall k, l | 0 <= k < l < |r| :: r[k] < r[l]
    decreases |w.masks| - id
  {
    if id >= |w.masks| then []
    else if Matches(w, id, required) then [id] + QueryFrom(w, required, id + 1)
    else QueryFrom(w, required, id + 1)
  }

  /** A loop whose required mask is built from `cs` visits exactly the ids
      `0..maxId` whose mask has the bit of every type in `cs`. */
  lemma QuerySelects(w: Ecs, cs: seq<ComponentType>, e: nat)
    requires Sized(w)
    ensures e in Query(w, MaskOf(cs)) <==> e < |w.masks| && forall c | c in cs :: Has(w, e, c)
  {
    if e < |w.masks| {
      MaskOfTest(w.masks[e], cs);
    }
  }

  /** The mask half of installing a bundle on a new entity. */
  lemma InstallMask(w0: Ecs, w: Ecs, e: nat, cs: seq<ComponentType>)
    requires Valid(w0)
    requires w == CreateEntity(w0).0 && e == CreateEntity(w0).1
    ensures var r := SetBits(w, e, cs);
            && Valid(r) && Live(r, e) && !Live(w0, e)
            && |w0.masks| <= |r.masks| <= |w0.masks| + 1
            && (|r.masks| == |w0.masks| + 1 ==> e == |w0.masks|)
            && (forall x | 0 <= x < |w0.masks| && x != e :: r.masks[x] == w0.masks[x])
            && (forall x | 0 <= x < |w0.masks| && Live(w0, x) :: Live(r, x))
            && (forall c :: Has(r, e, c) <==> c in cs)
  {
    assert forall c :: !Has(w, e, c);
  }
}
